=== FILE: README.md ===
# Critical Miss campaign engine in Dafny

This project models the campaign engine of *Critical Miss*, a browser role-playing game. All
of the engine's transformations act on one `Character` record:

- **Character creation** rolls 4d6-drop-lowest six times and deals the rolls either along the
  class's stat priority or shuffled. It then sets the starting resources and opens a campaign
  arc.
- **Scene selection** (`nextTurnScene`) tries four sources in order:
  1. a queued follow-up scene;
  2. the arc's finale, once the arc is late in act 3;
  3. an unseen scene from the act's pool, drawn by weight;
  4. a generated "travel" filler scene.
- **Ability checks.** `chooseToRoll` and `resolveRoll` apply the rule that a natural 1 fails and
  otherwise roll plus modifier must reach the DC. A resolved check advances the day by one and
  the arc by 8, then applies the choice's outcome.
- **Combat** is a turn machine: the player attacks, guards or runs, then the enemy takes its
  turn. The button handlers decide between win, flee, death and the next round. The same
  module covers the XP award and the revive flow.
- **Rests.** A short rest spends hit dice and a long rest restores resources. Either may trigger
  a generic consequence or the mimic camp event.
- **Authored content** is modelled as data: the arc scene pools and finales, a representative
  part of the scene catalog, and the mimic finale.

Modelling choices:

- **Randomness.** Every source of randomness is an explicit parameter. Die faces are integers.
  A `Math.random()` draw is a `real` in [0, 1), scaled to an index with `floor(x * n)` as the
  source does.
- **Outcomes as data.** An outcome function of the source (`Character → Outcome`) becomes an
  `Outcome` value. Its list of `Effect`s is applied left to right by `Outcomes.ApplyEffects`.
- **Combat hand-off.** The `__startCombat` flag, through which an outcome hands over to combat,
  becomes the field `pendingCombat`.
- **Log entries** are pairs of day and text.
- **Arc ids.** The engine uses five arc ids: treasure, vengeance, taxman, internship and mimic.
  `CampaignArcId` in `src/types.ts` lists other names. The model follows the engine.

Modules:

| file | module | covers |
|---|---|---|
| `wrappers.dfy` | Wrappers | `Option`, and `Result` for the source's thrown errors |
| `utils.dfy` | Utils | `clamp`, `modFromStat`, dice, `pick` |
| `text.dfy` | Text | number rendering and `trim` |
| `types.dfy` | Types | the records of `src/types.ts` and their documented ranges |
| `arc.dfy` | Arc | arc progress, flags, `weightedPick`, pools, `markSeen`, fillers, `nextTurnScene` |
| `outcomes.dfy` | Outcomes | the effect language of outcome functions |
| `mimic_finale.dfy` | MimicFinale | `mimicFinaleScene` and its three choices |
| `catalog.dfy` | Catalog | the modelled part of the scene catalog |
| `creation.dfy` | Creation | stat generation and `makeNewCharacter` |
| `rolls.dfy` | Rolls | `chooseToRoll`, `resolveRoll` |
| `combat.dfy` | Combat | `src/combat.ts` |
| `rest.dfy` | Rest | `src/rest.ts` |
| `flow.dfy` | Flow | roll application, combat button handlers, combat XP, revive |

## Model

| member | source | states |
|---|---|---|
| Utils.Clamp | src/utils.ts:1-3 | the result lies in [lo, hi] when lo ≤ hi; it is n when n is in range, lo below the range and hi above it |
| Utils.ClampIdempotent | src/utils.ts:1-3 | clamping an already clamped value changes nothing |
| Utils.ClampMonotone | src/utils.ts:1-3 | clamping preserves order |
| Utils.ModFromStat | src/utils.ts:13-16 | the modifier m is floor((stat − 10) / 2): 2m ≤ stat − 10 < 2m + 2, for negative differences as well |
| Utils.ModFromStatStep | src/utils.ts:13-16 | two more stat points give exactly one more modifier point |
| Utils.ModFromStatMonotone | src/utils.ts:13-16 | a higher stat never gives a lower modifier |
| Utils.ModFromStatValues | src/utils.ts:13-16 | the modifier is 0 exactly at 10 and 11, and lies in −4..4 for stats 3..18 |
| Utils.ScaledIndex | src/utils.ts:5-7 | scaling a draw in [0, 1) by n gives an index below n |
| Utils.RollDie | src/utils.ts:5-7 | a die roll lies in 1..sides |
| Utils.D20 | src/utils.ts:9-11 | a d20 roll lies in 1..20 |
| Utils.Pick | src/utils.ts:18-20 | the picked value is an element of the array |
| Utils.SumOfFaces | src/combat.ts:75-80 | n dice with faces in 1..sides sum to between n and n·sides |
| Text.NatToString | src/App.tsx:166 | a rendered natural number is non-empty and starts with a digit |
| Text.IntToString | src/App.tsx:166 | a number rendered in decimal with a leading minus for negatives; its contract is the round trip through `Text.ParseInt` (`Text.IntRoundTrip`) |
| Text.NatToStringDigits | src/App.tsx:166 | every character of a rendered natural number is a decimal digit |
| Text.NatRoundTrip | src/App.tsx:166 | reading back a rendered natural number gives the number |
| Text.IntRoundTrip | src/App.tsx:166 | reading back a rendered integer, negatives included, gives the integer |
| Text.IntToStringInjective | src/game2.ts:434 | two different integers never render to the same text |
| Text.TrimStart | src/game2.ts:100 | the result is a suffix of the input; it starts with a non-space, and everything dropped is space |
| Text.TrimEnd | src/game2.ts:100 | the result is a prefix of the input; it ends with a non-space, and everything dropped is space |
| Text.Trim | src/game2.ts:100 | the trimmed name is empty exactly when the input is all spaces; otherwise it starts and ends with a non-space |
| Arc.AdvanceArc | src/game2.ts:252-256 | progress becomes clamp(p + δ, 0, 100); act is 3 exactly from 70 and 1 exactly below 35; nothing else changes |
| Arc.ActOfMonotone | src/game2.ts:252-256 | more progress never means an earlier act |
| Arc.AdvanceArcForward | src/game2.ts:252-256 | a non-negative advance never lowers progress or act, and it keeps the campaign valid |
| Arc.AdvanceArcCompose | src/game2.ts:252-256 | two non-negative advances equal one advance by their sum |
| Arc.SetArcFlag | src/game2.ts:248-250 | the flag is set and every other flag keeps its presence and value; nothing else changes |
| Arc.SetNext | src/game2.ts:244-246 | only the queued scene id changes |
| Arc.Walk | src/game2.ts:405-413 | the cumulative walk stops at the first item whose cumulative weight reaches the remaining draw |
| Arc.WeightedPickIndex | src/game2.ts:405-413 | the chosen index is the first at which the cumulative weight reaches r, or the last item |
| Arc.WeightedPick | src/game2.ts:405-413 | the picked id is the id of one of the items |
| Arc.CumMonotone | src/game2.ts:405-413 | with non-negative weights, cumulative weight grows along the list |
| Arc.WeightedPickBand | src/game2.ts:405-413 | a draw in item i's band of cumulative weight picks item i |
| Arc.NewCampaign | src/game2.ts:258-268 | a new campaign is valid, at act 1 and progress 0, with no flags and nothing seen |
| Arc.NewCampaignArc | src/game2.ts:258-268 | the 3:3:2:2:1 weights pick treasure, vengeance, taxman, internship or mimic by band of x·11 |
| Arc.Pool | src/game2.ts:293-373 | the weighted scene pool of each arc and act, with the source's ids and weights |
| Arc.Finale | src/game2.ts:375-381 | each arc's finale scene id |
| Arc.PoolsWellFormed | src/game2.ts:293-381 | every act pool is non-empty with positive weights, and each arc's act-3 pool holds its finale |
| Arc.GateOut | src/game2.ts:179-182 | the gated pool is the act pool without the mimic follow-up once it is done or the mimic was sent away |
| Arc.Unseen | src/game2.ts:176-184 | the candidates are exactly the pool items whose id is not in the seen list |
| Arc.RecentAfter | src/game2.ts:396-397 | the recent window holds the last min(6, n + 1) ids of the old window plus the id, ending in the id |
| Arc.SeenAfter | src/game2.ts:399-402 | the seen list gains the id once, and keeps no duplicates |
| Arc.MarkSeen | src/game2.ts:393-403 | the id becomes the last scene and enters the recent window and the seen list; nothing else changes |
| Arc.MarkSeenTwice | src/game2.ts:393-403 | marking two scenes keeps the seen list duplicate-free, containing both ids |
| Arc.MakeFillerScene | src/game2.ts:419-456 | a filler scene has id filler.arc.dayD.actA, category Travel, choices push_on and scavenge, and DCs in 10..15 |
| Arc.PatternCancel | src/game2.ts:434 | two filler-shaped ids of one arc with one-digit acts are equal only when their day and act parts are equal |
| Arc.FillerId | src/game2.ts:434 | the filler id `filler.<arc>.day<day>.act<act>`; its uniqueness is `Arc.FillerIdInjective` |
| Arc.FillerIdInjective | src/game2.ts:434 | filler ids of one arc differ when the day or the act differs |
| Arc.FillerIdNotAuthored | src/game2.ts:434 | no filler id equals an authored pool id |
| Arc.GetSceneById | src/game2.ts:387-391 | a known id yields its scene and an unknown id yields tavern.dripping_goblet |
| Arc.CandidatesSpec | src/game2.ts:173-184 | an item is a candidate exactly when it is in the act pool, not gated out and not yet seen |
| Arc.PoolTurn | src/game2.ts:173-196 | the pool tier of selection: a weighted pick among ungated unseen entries, else a filler scene, the id marked seen either way; stated by `Arc.PoolTurnChoice` |
| Arc.PoolTurnChoice | src/game2.ts:186-196 | with no candidate the turn is a filler scene; otherwise the scene comes from a candidate id |
| Arc.NextTurnScene | src/game2.ts:153-197 | a queued id is consumed and shown first; otherwise the finale is shown when due and unseen; otherwise the weighted pick among the unseen candidates is shown; with no candidate left, the turn's filler scene is shown |
| Arc.MarkSeenFrame | src/game2.ts:393-403 | marking a scene seen moves only the navigation fields, keeps at most six recent ids and adds no duplicate seen id |
| Arc.NextTurnSceneFrame | src/game2.ts:153-197 | scene selection changes only the navigation fields, keeps at most six recent ids and keeps the seen list duplicate-free |
| Arc.NextTurnSceneValid | src/game2.ts:153-197 | scene selection keeps a valid character valid |
| Arc.NextTurnSceneNoRepeat | src/game2.ts:175-196 | without a queued id, the chosen scene id is in the seen list afterwards, and it was not in it before unless it is the turn's filler id (a second selection on the same day and act draws the same filler id) |
| Arc.NextTurnSceneAsWritten | src/game2.ts:153-197 | selection as the source writes it, forcing the finale at act 3 and progress 85 whether or not it was seen; related to the corrected selector by `Arc.NextTurnSceneAgrees` |
| Arc.FinaleRepeats | src/game2.ts:166-171 | with the source's finale rule, a seen finale is shown again once act 3 reaches progress 85 |
| Arc.NextTurnSceneAgrees | src/game2.ts:153-197 | the corrected selection equals the source's except when the finale is due and already seen |
| Outcomes.Dedup | src/game2.mimicFinale.ts:35 | passing members through a Set keeps each name once, with the same names |
| Outcomes.DedupKeepsDistinct | src/game2.mimicFinale.ts:35 | a duplicate-free list passes through the Set unchanged, in its order |
| Outcomes.Joined | src/game2.mimicFinale.ts:35 | joining sets inParty, and the members become the old members plus the name, without duplicates |
| Outcomes.JoinPartyAppends | src/game2.mimicFinale.ts:35 | a new name is appended, a present name changes nothing, and joining twice equals joining once |
| Outcomes.ApplyEffect | src/game2.ts:244-256 | one field rewrite of an outcome: xp, gold (losses floored at 0), hp clamped to [0, maxHp], a flag, an arc advance, a queued scene, a party join, a companion or a pending fight; its behaviour is stated by `Outcomes.ApplyEffectValid` and the `...AfterEffects` lemmas |
| Outcomes.ApplyEffects | src/types.ts:85-99 | applying an outcome never lowers xp, and never raises hp that is in range |
| Outcomes.ApplyEffectsAppend | src/types.ts:85-99 | applying two effect lists in turn equals applying their concatenation |
| Outcomes.XpAfterEffects | src/types.ts:85-99 | xp rises by exactly the xp the effects grant |
| Outcomes.FlagsAfterEffects | src/game2.ts:248-250 | a flag is set afterwards exactly when it was set before or the outcome sets it |
| Outcomes.PartyAfterEffects | src/game2.mimicFinale.ts:35 | a name is a party member afterwards exactly when it was before or the outcome joins it |
| Outcomes.QueueAfterEffect | src/game2.ts:244-246 | a single `QueueScene` effect sets the queued scene and any other effect leaves it alone |
| Outcomes.QueueAfterEffects | src/game2.ts:244-246 | the queued scene afterwards is the last one the outcome queues, else the old one |
| Outcomes.ApplyEffectValid | src/game2.mimicFinale.ts:45-61 | one well-formed effect keeps every documented range and leaves the sheet unchanged |
| Outcomes.ApplyEffectsValid | src/game2.mimicFinale.ts:45-90 | well-formed outcomes keep hp in [0, maxHp], gold ≥ 0, relationships in 0..100 and the campaign valid |
| MimicFinale.JoinEffectsApplied | src/game2.mimicFinale.ts:29-61 | the shared party tail grants xp, joins Chesty, appends the companion, sets mimic_party and advances the arc |
| MimicFinale.PartySuccess | src/game2.mimicFinale.ts:29-44 | success: Chesty joins, the companion at relationship 65 is appended, mimic_party is set, progress +20, xp +6; hp and gold are kept |
| MimicFinale.PartyFail | src/game2.mimicFinale.ts:45-61 | failure: as success at relationship 55, progress +16, xp +4, with hp clamp(hp − 2, 0, maxHp) |
| MimicFinale.JoinEffectsTwice | src/game2.mimicFinale.ts:35-36 | applying the party tail twice appends the companion twice and leaves the members as one application does |
| MimicFinale.PartyTwiceDuplicatesCompanion | src/game2.mimicFinale.ts:35-36 | choosing party twice keeps the members but appends the companion twice: only the members pass through a Set |
| MimicFinale.BanishKeepsParty | src/game2.mimicFinale.ts:63-76 | banishing leaves party and companions alone, sets mimic_banished and advances 18 on success, 14 on failure |
| MimicFinale.WeaponizeKeepsParty | src/game2.mimicFinale.ts:77-90 | weaponizing leaves party and companions alone, sets mimic_weapon and advances 18 on success, 14 on failure |
| Catalog.Scenes | src/game2.ts:458-462 | the catalog's keys are exactly the modelled scene ids, the fallback scene among them |
| Catalog.ChoiceIds | src/types.ts:92-100 | the choice ids, one per choice, in order |
| Catalog.ScenesWellFormed | src/types.ts:102-108 | every catalog scene has its key as id, 2..4 choices with distinct ids, DCs 10..16 and outcomes that queue known scenes |
| MimicFinale.FinaleScene | src/game2.mimicFinale.ts:18-92 | the mimic finale scene: the party, banish and weaponize choices with their DCs and outcomes; checked by `Catalog.FinaleSceneOk` |
| Catalog.FinaleSceneOk | src/game2.mimicFinale.ts:18-92 | the mimic finale is a well-formed scene |
| Catalog.DrippingGobletOk | src/game2.ts:462-514 | the fallback tavern scene is well-formed |
| Catalog.TavernTaxmanOk | src/game2.ts:1064-1095 | tavern.taxman is well-formed |
| Catalog.StreetPaperworkOk | src/game2.ts:1097-1128 | street.paperwork is well-formed |
| Catalog.CourtOk | src/game2.ts:1130-1161 | the court scene is well-formed |
| Catalog.MimicIntroOk | src/game2.ts:1164-1195 | dungeon.mimic_intro is well-formed |
| Catalog.MimicFollowupOk | src/game2.ts:1197-1228 | camp.mimic_followup is well-formed |
| Catalog.TowerInternshipOk | src/game2.ts:1233-1264 | tower.internship is well-formed |
| Catalog.LabOk | src/game2.ts:1266-1297 | the lab safety scene is well-formed |
| Catalog.FalloutOk | src/game2.ts:1299-1330 | the fallout jar scene is well-formed |
| Catalog.ModelledPoolsCovered | src/game2.ts:293-381 | every pool id and the finale of the taxman, internship and mimic arcs resolve to a catalog scene |
| Creation.ClampStat | src/game2.ts:19-21 | a stat lies in 3..18 and in-range values are kept |
| Creation.Insert | src/game2.ts:14-17 | inserting into a sorted list keeps it sorted and adds exactly the element |
| Creation.Sort | src/game2.ts:14-17 | the sorted list is ordered and a permutation of the input |
| Creation.Roll4d6DropLowest | src/game2.ts:14-17 | four d6 faces sorted ascending, the top three summed; stated by `Creation.Roll4d6DropLowestSpec` |
| Creation.Roll4d6DropLowestSpec | src/game2.ts:14-17 | the roll is the sum of the four faces minus the smallest, so it lies in 3..18 for d6 faces |
| Creation.SumPermutation | src/game2.ts:14-17 | permuted dice have the same sum |
| Creation.StatPriority | src/game2.ts:23-38 | the class's stat order, best roll first; `Creation.StatPriorityIsPermutation` proves each order names all six stats once |
| Creation.StatPriorityIsPermutation | src/game2.ts:23-38 | each class priority lists all six stats once |
| Creation.WithStat | src/game2.ts:61-69 | writing one stat changes that stat only |
| Creation.AssignLookup | src/game2.ts:56-69 | a dealt stat holds the clamped roll at its position; an undealt stat keeps its old value |
| Creation.StatRolls | src/game2.ts:44 | six rolls, best first |
| Creation.Swap | src/game2.ts:53 | a swap permutes the list |
| Creation.Shuffle | src/game2.ts:49-54 | the Fisher–Yates shuffle permutes the rolls |
| Creation.WeightedFollowsPriority | src/game2.ts:61-69 | weighted mode gives the i-th priority stat the i-th best roll, so stats follow the priority order |
| Creation.AssignInOrder | src/game2.ts:56-57 | dealing in-range values to STR..CHA stores them as they are |
| Creation.ChaosIsPermutation | src/game2.ts:48-59 | chaos mode's six stats are exactly the rolls, rearranged |
| Creation.DealStats | src/game2.ts:46-71 | chaos mode shuffles the rolls onto STR..CHA, weighted mode deals them along the class priority, every value clamped to 3..18 and unset stats 10; stated by `Creation.WeightedFollowsPriority` and `Creation.ChaosIsPermutation` |
| Creation.GenerateStats | src/game2.ts:40-72 | six sorted 4d6-drop-lowest rolls dealt by mode; tied to the new character by `Creation.NewCharacterStats` |
| Creation.HitDieFor | src/game2.ts:88-95 | d6 for Wizards, d8 for Rogues and Druids, d10 for Fighters and Paladins, d12 otherwise |
| Creation.ShuffleInRange | src/game2.ts:49-57 | shuffled in-range rolls stay in range |
| Creation.InRangeValues | src/game2.ts:40-70 | six values in 3..18 make an in-range stat block |
| Creation.StatRollsRange | src/game2.ts:14-21 | every generated roll lies in 3..18 |
| Creation.MakeNewCharacter | src/game2.ts:74-132 | level 1, xp 0, day 1, gold 12, hp = maxHp = 10 + CON mod (+4 Barbarian), hit dice 6/6 of the class's die, 2 slots for Wizard and Druid, a new campaign; the given stats, or else the stats generated in the chosen mode (weighted by default); the trimmed name or the random one |
| Creation.NewCharacterStats | src/game2.ts:82-84 | without given stats, weighted mode gives the i-th stat of the class priority the i-th best roll, and chaos mode gives the six rolls rearranged |
| Creation.NewCharacterValid | src/game2.ts:82-131 | a new character meets every documented range, with maxHp at least 6 |
| Rolls.FindChoice | src/game2.ts:200-201 | the lookup finds the first choice with the id, and fails exactly when none has it |
| Rolls.FindChoiceAt | src/game2.ts:211-212 | with distinct ids, looking up a choice's id finds that choice |
| Rolls.ChooseToRoll | src/game2.ts:199-203 | an unknown id is an error; otherwise the pending roll names the scene and the choice |
| Rolls.OutcomeLog | src/game2.ts:230-241 | the outcome text and then its logs are entered, all on the given day |
| Rolls.ResolveRoll | src/game2.ts:205-242 | an unknown id is an error. Otherwise the forced roll is used if given, the day advances by one, and the log starts with the outcome text. The arc is pushed by exactly 8 (clamped to 0..100) before the outcome: an outcome with no advance ends at exactly that step, with its act, and forward-only advances add to it |
| Rolls.DayKept | src/game2.ts:221-230 | outcome effects never change the day |
| Rolls.ResolveRollOutcome | src/game2.ts:211-241 | success holds exactly when the roll is not 1 and roll + modifier reaches the DC; the matching outcome is applied |
| Rolls.ResolveRollXp | src/game2.ts:228-241 | xp rises by exactly the xp the applied outcome grants |
| Rolls.NaturalOneFails | src/game2.ts:215-218 | a roll of 1 always fails |
| Rolls.ForcedRollWins | src/game2.ts:215 | with a forced roll, the drawn die plays no part |
| Rolls.PendingCopiesIgnored | src/game2.ts:211-218 | only the choice id of the pending roll matters; its copied stat and DC are not read again |
| Rolls.ChooseThenResolve | src/game2.ts:199-218 | choosing and then resolving succeeds, judged against the chosen choice's stat and DC |
| Rolls.ProgressKept | src/game2.ts:221-241 | outcomes that only advance the arc never lower progress |
| Rolls.ResolveRollAdvances | src/game2.ts:221-224 | after a resolved check with forward-only outcomes, progress is at least min(100, p + 8); the exact value is `Rolls.ResolveRollArcStep` |
| Rolls.ResolveRollArcStep | src/game2.ts:220-241 | the outcome is applied to the character after the day step and the push of 8. Progress ends at exactly clamp(p + 8) when the outcome has no advance, and at clamp(p + 8 + the outcome's advances) when they are forward-only, with the act recomputed |
| Rolls.ProgressAfterEffects | src/game2.ts:252-256 | from progress in range, forward-only advances add up exactly: the final progress is clamp(p + their sum, 0, 100) with the act recomputed |
| Rolls.ResolveRollValid | src/game2.ts:205-242 | resolving a check keeps a valid character valid |
| Combat.WeaponForClass | src/combat.ts:4-19 | each class's weapon, its stat and damage dice |
| Combat.CantripForClass | src/combat.ts:21-25 | Firebolt for Wizards, Thorn Whip for Druids, none otherwise |
| Combat.SpellForClass | src/combat.ts:27-31 | Magic Missile for Wizards, Moonbeam for Druids, none otherwise |
| Combat.CastersHaveSpells | src/combat.ts:21-31 | a class has a cantrip exactly when it is a Wizard or Druid, and a spell exactly when it has a cantrip; every attack rolls at least one die |
| Combat.MakeEnemy | src/combat.ts:33-44 | an enemy starts at full hp (at least 10), AC at least 12 and an attacking intent |
| Combat.NextIntent | src/combat.ts:46-54 | the next intent is one of the three listed intents |
| Combat.StartCombat | src/combat.ts:56-73 | a fight starts at round 1, flee progress 0, no guard and the enemy at full hp |
| Combat.RollDamage | src/combat.ts:75-80 | damage is at least 1, and it is the dice sum plus the modifier whenever that is positive |
| Combat.RollDamageRange | src/combat.ts:75-80 | damage lies between max(1, n + mod) and max(1, n·sides + mod) |
| Combat.PlayerAttack | src/combat.ts:82-121 | a spell without slots changes nothing and says so, and that text appears exactly then; otherwise a hit lowers enemy hp by the clamped damage and guard clears |
| Combat.AttackNeverHeals | src/combat.ts:113-120 | an attack never raises enemy hp, and a hit on a living enemy lowers it |
| Combat.AttackSlotAccounting | src/combat.ts:99-107 | a spell with slots spends exactly one, and weapon and cantrip attacks never touch slots |
| Combat.NaturalOneMisses | src/combat.ts:109-111 | a d20 face of 1 misses any enemy with effective AC at least 6 |
| Combat.PlayerAttackValid | src/combat.ts:82-121 | an attack keeps the character and the fight within their ranges |
| Combat.PlayerGuard | src/combat.ts:123-125 | guarding sets guard and changes nothing else |
| Combat.PlayerRun | src/combat.ts:127-146 | a run adds 40 flee progress on success and 20 otherwise, clamped to 100, and clears guard; nothing else changes |
| Combat.RunProgresses | src/combat.ts:138-139 | every run adds at least 20 flee progress below the cap, within 0..100 |
| Combat.FiveRunsEscape | src/combat.ts:138-139 | enough runs to cover the gap at 20 each always reach 100 |
| Combat.RunManyStaysAtHundred | src/combat.ts:138-139 | once at 100, flee progress stays there |
| Combat.EnemyTurn | src/combat.ts:148-173 | round +1, new intent, guard cleared; a defend or a miss leaves the character alone; a hit lowers hp by the clamped damage |
| Combat.GuardLastsOneTurn | src/combat.ts:156-172 | guarding raises the player's AC by 3 for the enemy's next turn only |
| Combat.EnemyTurnValid | src/combat.ts:148-173 | an enemy turn keeps the character and the fight within their ranges |
| Rest.ConMod | src/rest.ts:14-16 | the CON modifier, floor((CON - 10) / 2) |
| Rest.RollTotal | src/rest.ts:18-21 | the faces summed plus the modifier once per die; bounded by `Rest.RollTotalRange` |
| Rest.RollTotalRange | src/rest.ts:18-21 | n hit dice heal between n·(1 + mod) and n·(sides + mod) |
| Rest.MimicEvent | src/rest.ts:45-63 | the mimic camp event fires only when eligible and rolled; then it sets mimic_followup_done, queues camp.mimic_followup and costs hp on a failed WIS check |
| Rest.Consequence | src/rest.ts:65-73 | a consequence happens exactly when the roll is at most the threshold; it takes gold, floored at 0, and pushes the arc |
| Rest.SpendHitDice | src/rest.ts:33-38 | a short rest's day, hit dice and healing, clamped to [0, maxHp] |
| Rest.ShortRest | src/rest.ts:23-76 | one day passes and hit dice are spent. A consequence roll of at most 25 charges exactly 1 gold (floored at 0) and pushes progress by 6, clamped to 100, with the act recomputed. Any other roll leaves gold, progress and act alone. Only day, hp, gold, hit dice, the queued scene and the campaign flags, progress and act can change, so slots, inventory, identity, xp, companions and party are kept |
| Rest.ShortRestHealsExactly | src/rest.ts:33-61 | a short rest ends with exactly the hp of spending the hit dice, less a clamped 1-point bite when the rest event fires and the WIS check fails |
| Rest.LongRest | src/rest.ts:78-128 | two days pass, and slots and hit dice are restored to their maxima. A consequence roll of at most 55 charges exactly 3 gold (floored at 0) and pushes progress by 12, clamped to 100, with the act recomputed. Any other roll leaves gold, progress and act alone. Only day, hp, gold, slots, hit dice, the queued scene and the campaign flags, progress and act can change, so inventory, identity, xp, companions and party are kept |
| Rest.LongRestEvent | src/rest.ts:96-115 | when eligible and the roll is at most 40, the follow-up is marked done and queued and hp is full or 2 short after a failed WIS check; otherwise flags and the queue are untouched and hp is full |
| Rest.LongRestEventOnce | src/rest.ts:96-105 | once the long rest's event fires, it cannot fire again, and the follow-up is queued |
| Rest.ShortRestHeals | src/rest.ts:36-38 | a short rest never takes hp out of [0, maxHp] |
| Rest.LongRestRestores | src/rest.ts:81-90 | a long rest restores hp to maxHp before any event |
| Rest.RestConsequenceThresholds | src/rest.ts:66-124 | gold drops on a short rest exactly when the roll is at most 25, and on a long rest exactly when it is at most 55 |
| Rest.RestEventOnce | src/rest.ts:45-54 | once the mimic event fires, it cannot fire again |
| Rest.MimicEventValid | src/rest.ts:45-63 | the mimic event keeps a valid character valid |
| Rest.ConsequenceValid | src/rest.ts:65-73 | a consequence keeps a valid character valid |
| Rest.ShortRestValid | src/rest.ts:23-76 | a short rest keeps a valid character valid |
| Rest.LongRestValid | src/rest.ts:78-128 | a long rest keeps a valid character valid |
| Flow.ApplyRoll | src/App.tsx:93-122 | a resolved check leads to death when hp is 0, else to the pending fight (cleared from the character), else to the outcome screen |
| Flow.ApplyRollStartsFightOnce | src/App.tsx:111-119 | the character entering a fight carries no pending fight any more |
| Flow.CombatXpReward | src/App.tsx:128-132 | the combat reward is 3·maxHp clamped to 20..60 |
| Flow.XpGain | src/App.tsx:144-146 | a win pays the base reward; a flee pays half the base reward rounded down (twice the gain is the reward or one less), which is always between 10 and 30 |
| Flow.FleePaysLess | src/App.tsx:144-146 | fleeing pays at most a win and at least about half of it |
| Flow.Finalize | src/App.tsx:134-171 | settling adds the xp, queues the terminal's next scene if it has one, and logs the action, the xp line and the terminal's logs on the current day |
| Flow.FinalizeValid | src/App.tsx:134-171 | settling a fight keeps a valid character valid |
| Flow.CombatStepWith | src/App.tsx:565-695 | a press is refused exactly for the spell button without slots, logging only the refusal; it wins exactly when an attack that was not refused leaves the enemy at 0 hp, settling with no enemy turn; it flees exactly when a run reaches progress 100, settling with no enemy turn; guard always hands the turn to the enemy |
| Flow.CombatStepAsWritten | src/App.tsx:565-695 | the handlers as written, checking death only after the weapon and guard buttons |
| Flow.CombatStep | src/App.tsx:565-695 | the handlers with the death check after every enemy turn |
| Flow.EnemyPhase | src/App.tsx:574-591 | after the enemy's turn the player dies exactly when hp is 0, if the handler checks; otherwise the fight goes on |
| Flow.CombatStepDeath | src/App.tsx:565-695 | with the corrected handlers, an ongoing fight always has a living player and a dead one has none |
| Flow.CantripIgnoresDeath | src/App.tsx:601-616 | the cantrip handler as written keeps fighting at 0 hp, where the corrected one ends in death |
| Flow.CombatStepAgrees | src/App.tsx:565-695 | the weapon and guard handlers are unchanged by the correction, and the two differ only by death |
| Flow.CombatStepValid | src/App.tsx:565-695 | every button press keeps the character and the fight within their ranges |
| Flow.Revive | src/App.tsx:735-751 | revive is refused exactly without hit dice. Otherwise hp is the face plus the CON modifier, raised to 1 and capped at maxHp: exactly that sum when it lies in 1..maxHp, maxHp when the sum reaches maxHp, and 1 when the sum is at most 1. One hit die is spent and nothing else changes |
| Flow.RevivesRunOut | src/App.tsx:735-751 | a run of revives succeeds exactly when there are no more revives than hit dice |
| Flow.ReviveValid | src/App.tsx:735-751 | a revive keeps a valid character valid, with at least 1 hp |

## Left out

- Leveling: `applyLeveling`, `xpForLevel` and `restartAdventure` are imported by `src/App.tsx` but are not part of this model. `Flow.Finalize` stops before leveling.
- Floating point: `Math.random()` draws are exact reals in [0, 1), and `Math.round(maxHp * 3)` is exact on integers. Rounding in the weighted-pick sums and in `floor(x * n)` is not modelled.
- Presentation: React state, rendering, the `setTimeout` ad flow, the dice visuals, the modal card and the scenario packs are not modelled. So are persistence (`src/storage.ts`) and the version checks.
- Identity and clock: log-entry ids, `uid` and timestamps are not modelled. `randomName` and `generateBackground` are left out too; the random name is a parameter of `Creation.MakeNewCharacter`.
- Narrative text: scene bodies, choice labels, outcome texts, interpolated log lines and the `breakdown` text are short opaque labels. The "+N XP." line is modelled as `"+" + IntToString(n) + " XP."`.
- Scene catalog: the model has the mimic finale, the fallback tavern scene and the scenes of the taxman, internship and mimic pools. The treasure and vengeance scenes are not modelled. Scene selection takes the catalog as a parameter, so ids outside the modelled catalog are not redirected to the fallback by mistake.
- `randomStatKey` and the filler `pick` of a mood: the filler's stats and DCs come from explicit draws, and its mood text is a label.
- Combat defeat terminal: `onLose` is carried in the fight state, but no handler of the source reaches it. Death goes to the dead stage instead, as modelled.
- Trimming: `Text.Trim` treats space, tab, line feed, carriage return, vertical tab and form feed as white space; JavaScript's `trim` also strips the other Unicode space characters and line terminators.
- Rolls.ResolveRollAdvances: states only a lower bound on progress; the exact value is stated by `Rolls.ResolveRollArcStep` and by `Rolls.ResolveRoll` itself.
- Rest.ShortRestHeals: states only bounds on hp; the exact amount is stated by `Rest.ShortRestHealsExactly`.
- Flow.Offered: the source's combat screen (`src/App.tsx`, lines 9, 598 and 622) imports and calls `cantripFor` and `spellFor`, but `src/combat.ts` exports no function by either name; it exports `cantripForClass` and `spellForClass` (lines 21 and 27). The model decides whether the Cantrip and Spell buttons exist with `Combat.CantripForClass` and `Combat.SpellForClass` of the character's class. As written, the import does not resolve, and the model does not capture that.
- Combat.NaturalOneMisses: requires an effective enemy AC of at least 6. The source tests the total to-hit for 1, not the face, so a face of 1 with a large modifier can hit a weak enemy.

## Findings

| source | as written | input that shows it | evidently intended | confidence | as-written member | corrected member |
|---|---|---|---|---|---|---|
| src/game2.ts:166-171 | once act 3 reaches progress 85, the finale is returned on every turn, even when it is in `seenSceneIds` | a mimic campaign at act 3, progress 90, with `camp.mimic_finale` already seen and nothing queued: the finale is shown again, and again on every later turn, because progress never drops | the finale is forced once; afterwards the no-repeat rule of lines 175-184 applies, as the "do not repeat scenes within an arc" comment states | not executed; high that the repeat happens, medium that it is unintended | Arc.NextTurnSceneAsWritten, Arc.FinaleRepeats | Arc.NextTurnScene, Arc.NextTurnSceneNoRepeat |
| src/App.tsx:601-616, 625-644, 680-695 | the cantrip, spell and run handlers run the enemy turn but never check the player's hp, unlike the weapon and guard handlers (lines 576-585, 656-665) | a player at 2 hp uses the cantrip, the enemy survives and hits for 5: hp is clamped to 0 and the stage stays in combat instead of becoming dead | every enemy turn that leaves hp at 0 ends in the dead stage | not executed; high | Flow.CombatStepAsWritten, Flow.CantripIgnoresDeath | Flow.CombatStep, Flow.CombatStepDeath |

In the model:

- **Finale.** `Arc.NextTurnSceneAsWritten` keeps the source's finale rule, and `Arc.FinaleRepeats` exhibits the repeat. The corrected `Arc.NextTurnScene` forces the finale only while it is unseen. `Arc.NextTurnSceneAgrees` proves the two agree in every other case.
- **Death check.** `Flow.CombatStepAsWritten` checks death only after the weapon and guard buttons, and `Flow.CantripIgnoresDeath` exhibits the missed death. `Flow.CombatStep` checks it after every enemy turn, and `Flow.CombatStepAgrees` bounds the difference.

=== FILE: arc.dfy ===
/** Arc progress and scene selection of `src/game2.ts`: `advanceArc`, `setArcFlag`, `setNext`,
    `newCampaign`, the pool and finale tables, `weightedPick`, `markSeen`, `makeFillerScene`,
    `getSceneById` and `nextTurnScene`. */
module Arc {
  import opened Wrappers
  import opened Utils
  import opened Text
  import opened Types

  // ---------------------------------------------------------------------------------------
  // Arc state updates

  /** `advanceArc(c, delta)`: progress moves by `delta`, clamped to 0..100, and the act is
      recomputed from it; nothing else changes. */
  function AdvanceArc(c: Character, delta: int): (r: Character)
    ensures r.campaign.progress == Clamp(c.campaign.progress + delta, 0, 100)
    ensures 0 <= r.campaign.progress <= 100
    ensures r.campaign.act == 3 <==> r.campaign.progress >= 70
    ensures r.campaign.act == 1 <==> r.campaign.progress < 35
    ensures r == c.(campaign := c.campaign.(progress := r.campaign.progress, act := r.campaign.act))
  {
    var p := Clamp(c.campaign.progress + delta, 0, 100);
    c.(campaign := c.campaign.(progress := p, act := ActOf(p)))
  }

  /** The act never goes down as progress goes up. */
  lemma ActOfMonotone(p: int, q: int)
    requires p <= q
    ensures ActOf(p) <= ActOf(q)
  {
  }

  /** A forward step never lowers progress or the act, and keeps the campaign valid. */
  lemma AdvanceArcForward(c: Character, delta: int)
    requires 0 <= delta
    requires ValidCampaign(c.campaign)
    ensures c.campaign.progress <= AdvanceArc(c, delta).campaign.progress
    ensures c.campaign.act <= AdvanceArc(c, delta).campaign.act
    ensures ValidCampaign(AdvanceArc(c, delta).campaign)
  {
  }

  /** Two forward steps are one step by their sum: clamping at 100 loses nothing that a
      later forward step could have used. */
  lemma AdvanceArcCompose(c: Character, a: int, b: int)
    requires 0 <= a && 0 <= b
    requires 0 <= c.campaign.progress <= 100
    ensures AdvanceArc(AdvanceArc(c, a), b) == AdvanceArc(c, a + b)
  {
  }

  /** `setArcFlag(c, key)`: the arc flag `key` becomes true; nothing else changes. */
  function SetArcFlag(c: Character, key: string): (r: Character)
    ensures FlagSet(r.campaign.flags, key)
    ensures forall k :: k != key ==> (k in r.campaign.flags <==> k in c.campaign.flags)
    ensures forall k :: k != key && k in c.campaign.flags ==> r.campaign.flags[k] == c.campaign.flags[k]
    ensures r == c.(campaign := c.campaign.(flags := r.campaign.flags))
  {
    c.(campaign := c.campaign.(flags := c.campaign.flags[key := true]))
  }

  /** `setNext(c, id)`. */
  function SetNext(c: Character, next: Option<string>): (r: Character)
    ensures r.nextSceneId == next
    ensures r == c.(nextSceneId := next)
  {
    c.(nextSceneId := next)
  }

  // ---------------------------------------------------------------------------------------
  // Weighted selection

  datatype Weighted<T> = Weighted(id: T, weight: int)

  /** Total weight of the first `n` items. */
  function Cum<T>(items: seq<Weighted<T>>, n: nat): real
    requires n <= |items|
  {
    if n == 0 then 0.0 else Cum(items, n - 1) + items[n - 1].weight as real
  }

  /** The walk of `weightedPick` from item `k` on, with `rem` the draw minus the weight of
      the items before `k`. It stops at the first item that brings `rem` to zero or below,
      and at the last item otherwise. */
  function Walk<T>(items: seq<Weighted<T>>, k: nat, rem: real): (i: nat)
    requires k < |items|
    ensures k <= i < |items|
    ensures forall j :: k < j <= i ==> rem > Cum(items, j) - Cum(items, k)
    ensures i < |items| - 1 ==> rem <= Cum(items, i + 1) - Cum(items, k)
    decreases |items| - k
  {
    var rest := rem - items[k].weight as real;
    if rest <= 0.0 || k + 1 == |items| then k else Walk(items, k + 1, rest)
  }

  /** The index `weightedPick` stops at for the scaled draw `r`: the first item whose
      cumulative weight reaches `r`, or the last item when none does. */
  function WeightedPickIndex<T>(items: seq<Weighted<T>>, r: real): (i: nat)
    requires |items| > 0
    ensures i < |items|
    ensures forall j :: 0 < j <= i ==> r > Cum(items, j)
    ensures i < |items| - 1 ==> r <= Cum(items, i + 1)
  {
    Walk(items, 0, r)
  }

  /** `weightedPick(items)` with the uniform draw `x` in [0, 1) passed in; the point picked is
      `x` scaled to the total weight. */
  function WeightedPick<T>(items: seq<Weighted<T>>, x: real): (id: T)
    requires |items| > 0
    requires 0.0 <= x < 1.0
    ensures exists i :: 0 <= i < |items| && items[i].id == id
  {
    items[WeightedPickIndex(items, x * Cum(items, |items|))].id
  }

  /** With non-negative weights the cumulative weight never decreases. */
  lemma {:induction false} CumMonotone<T>(items: seq<Weighted<T>>, a: nat, b: nat)
    requires a <= b <= |items|
    requires forall i :: 0 <= i < |items| ==> items[i].weight >= 0
    ensures Cum(items, a) <= Cum(items, b)
    decreases b - a
  {
    if a < b {
      CumMonotone(items, a, b - 1);
    }
  }

  /** With non-negative weights, a draw that lands in item `i`'s band of the cumulative
      walk selects item `i`: the walk is the cumulative-distribution lookup. */
  lemma WeightedPickBand<T>(items: seq<Weighted<T>>, i: nat, r: real)
    requires i < |items|
    requires forall j :: 0 <= j < |items| ==> items[j].weight >= 0
    requires Cum(items, i) < r <= Cum(items, i + 1)
    ensures WeightedPickIndex(items, r) == i
  {
    var k := WeightedPickIndex(items, r);
    if k + 1 <= i {
      CumMonotone(items, k + 1, i);
    }
  }

  // ---------------------------------------------------------------------------------------
  // Campaign creation and content tables

  /** `newCampaign()`: the arc is a weighted pick (treasure 3, vengeance 3, taxman 2,
      internship 2, mimic 1); act 1, progress 0, no flags, nothing seen. */
  function NewCampaign(x: real): (k: CampaignState)
    requires 0.0 <= x < 1.0
    ensures k.act == 1 && k.progress == 0 && k.flags == map[] && k.seenSceneIds == []
    ensures ValidCampaign(k)
  {
    var arcs := [Weighted(Treasure, 3), Weighted(Vengeance, 3), Weighted(Taxman, 2),
                 Weighted(Internship, 2), Weighted(Mimic, 1)];
    CampaignState(WeightedPick(arcs, x), 1, 0, map[], [])
  }

  /** The arc a campaign draw lands on: the five arcs split the draw range 3:3:2:2:1. */
  lemma NewCampaignArc(x: real)
    requires 0.0 <= x < 1.0
    ensures 0.0 < x * 11.0 <= 3.0 ==> NewCampaign(x).arcId == Treasure
    ensures 3.0 < x * 11.0 <= 6.0 ==> NewCampaign(x).arcId == Vengeance
    ensures 6.0 < x * 11.0 <= 8.0 ==> NewCampaign(x).arcId == Taxman
    ensures 8.0 < x * 11.0 <= 10.0 ==> NewCampaign(x).arcId == Internship
    ensures 10.0 < x * 11.0 ==> NewCampaign(x).arcId == Mimic
  {
    var arcs := [Weighted(Treasure, 3), Weighted(Vengeance, 3), Weighted(Taxman, 2),
                 Weighted(Internship, 2), Weighted(Mimic, 1)];
    assert Cum(arcs, 1) == 3.0 && Cum(arcs, 2) == 6.0 && Cum(arcs, 3) == 8.0;
    assert Cum(arcs, 4) == 10.0 && Cum(arcs, 5) == 11.0;
    var r := x * 11.0;
    if 0.0 < r <= 3.0 { WeightedPickBand(arcs, 0, r); }
    else if 3.0 < r <= 6.0 { WeightedPickBand(arcs, 1, r); }
    else if 6.0 < r <= 8.0 { WeightedPickBand(arcs, 2, r); }
    else if 8.0 < r <= 10.0 { WeightedPickBand(arcs, 3, r); }
    else if 10.0 < r { WeightedPickBand(arcs, 4, r); }
  }

  const FallbackSceneId := "tavern.dripping_goblet"
  const FollowupSceneId := "camp.mimic_followup"
  const FinaleMimicId := "camp.mimic_finale"

  /** `ARC_SCENE_POOLS[arc][act]`. */
  function Pool(arc: ArcId, act: Act): seq<Weighted<string>>
  {
    match arc
    case Taxman =>
      if act == 1 then [Weighted("tavern.taxman", 5), Weighted("street.paperwork", 2), Weighted(FallbackSceneId, 1)]
      else if act == 2 then [Weighted("street.paperwork", 5), Weighted("court.day", 3), Weighted(FallbackSceneId, 1)]
      else [Weighted("court.day", 6), Weighted(FallbackSceneId, 1)]
    case Internship =>
      if act == 1 then [Weighted("tower.internship", 5), Weighted("lab.safety", 2), Weighted(FallbackSceneId, 1)]
      else if act == 2 then [Weighted("lab.safety", 5), Weighted("fallout.jar", 3), Weighted(FallbackSceneId, 1)]
      else [Weighted("fallout.jar", 6), Weighted(FallbackSceneId, 1)]
    case Mimic =>
      if act == 1 then [Weighted("dungeon.mimic_intro", 5), Weighted(FallbackSceneId, 1)]
      else if act == 2 then [Weighted("dungeon.mimic_intro", 3), Weighted(FallbackSceneId, 1)]
      else [Weighted(FinaleMimicId, 6), Weighted(FallbackSceneId, 1)]
    case Treasure =>
      if act == 1 then [Weighted("tavern.rumor_black_road", 4), Weighted("street.map_drop", 3), Weighted("road.first_blood", 2)]
      else if act == 2 then [Weighted("road.rival_party", 3), Weighted("road.bridge_toll", 2),
                             Weighted("ruins.stone_gate", 3), Weighted("road.first_blood", 1)]
      else [Weighted("vault.lantern_room", 3), Weighted("vault.final_lock", 3)]
    case Vengeance =>
      if act == 1 then [Weighted("letter.black_seal", 4), Weighted("village.funeral", 2), Weighted("road.witness", 2)]
      else if act == 2 then [Weighted("road.witness", 2), Weighted("road.hired_blade", 3), Weighted("manor.closed_doors", 3)]
      else [Weighted("manor.confrontation", 4), Weighted("manor.aftermath", 2)]
  }

  /** `ARC_FINALES[arc]`. */
  function Finale(arc: ArcId): string
  {
    match arc
    case Taxman => "court.day"
    case Internship => "fallout.jar"
    case Mimic => FinaleMimicId
    case Treasure => "vault.final_lock"
    case Vengeance => "manor.confrontation"
  }

  /** Every pool is non-empty, has positive weights, and every arc's finale is drawn from
      its own act-3 pool. */
  lemma PoolsWellFormed(arc: ArcId, act: Act)
    ensures |Pool(arc, act)| > 0
    ensures forall i :: 0 <= i < |Pool(arc, act)| ==> Pool(arc, act)[i].weight > 0
    ensures exists i :: 0 <= i < |Pool(arc, 3)| && Pool(arc, 3)[i].id == Finale(arc)
  {
    var p := Pool(arc, 3);
    if arc == Treasure { assert p[1].id == Finale(arc); } else { assert p[0].id == Finale(arc); }
  }

  // ---------------------------------------------------------------------------------------
  // Pool filtering

  /** The one-shot gate: the mimic follow-up is dropped once it is done or sent away. */
  predicate Gated(w: Weighted<string>, flags: map<string, bool>)
  {
    w.id == FollowupSceneId && (FlagSet(flags, "mimic_followup_done") || FlagSet(flags, "mimic_sent_away"))
  }

  /** The pool without its gated entries, in order. */
  function GateOut(items: seq<Weighted<string>>, flags: map<string, bool>): (r: seq<Weighted<string>>)
    ensures forall w :: w in r <==> w in items && !Gated(w, flags)
  {
    if |items| == 0 then []
    else if Gated(items[0], flags) then GateOut(items[1..], flags)
    else [items[0]] + GateOut(items[1..], flags)
  }

  /** The items whose id has not been seen, in order. */
  function Unseen(items: seq<Weighted<string>>, seen: seq<string>): (r: seq<Weighted<string>>)
    ensures forall w :: w in r <==> w in items && w.id !in seen
  {
    if |items| == 0 then []
    else if items[0].id in seen then Unseen(items[1..], seen)
    else [items[0]] + Unseen(items[1..], seen)
  }

  // ---------------------------------------------------------------------------------------
  // Marking a scene as seen

  /** The last six visits, ending in `id`. */
  function RecentAfter(prev: seq<string>, id: string): (r: seq<string>)
    ensures |r| == Min(6, |prev| + 1)
    ensures r[|r| - 1] == id
    ensures r[..|r| - 1] == prev[|prev| + 1 - |r|..]
  {
    var all := prev + [id];
    if |all| <= 6 then all else all[|all| - 6..]
  }

  /** The seen list after marking `id`: `id` is appended unless it is already there. */
  function SeenAfter(seen: seq<string>, id: string): (r: seq<string>)
    ensures forall x :: x in r <==> x in seen || x == id
    ensures id in seen ==> r == seen
    ensures id !in seen ==> r == seen + [id]
    ensures NoDup(seen) ==> NoDup(r)
  {
    if id in seen then seen
    else
      assert NoDup(seen) ==> NoDup(seen + [id]) by {
        if NoDup(seen) { NoDupAppend(seen, id); }
      }
      seen + [id]
  }

  /** `markSeen(c, id)`: `id` becomes the last scene, the recent window keeps the last six
      visits ending in `id`, and the seen list gains `id` once. Nothing else changes. */
  function MarkSeen(c: Character, id: string): (r: Character)
    ensures r.lastSceneId == Some(id)
    ensures r.recentSceneIds == RecentAfter(c.recentSceneIds, id)
    ensures r.campaign.seenSceneIds == SeenAfter(c.campaign.seenSceneIds, id)
    ensures r == c.(lastSceneId := r.lastSceneId, recentSceneIds := r.recentSceneIds,
                    campaign := c.campaign.(seenSceneIds := r.campaign.seenSceneIds))
  {
    c.(lastSceneId := Some(id), recentSceneIds := RecentAfter(c.recentSceneIds, id),
       campaign := c.campaign.(seenSceneIds := SeenAfter(c.campaign.seenSceneIds, id)))
  }

  /** Whatever has been marked stays seen, and marking an id again changes the seen list no
      further: the list is a duplicate-free record of every id ever marked. */
  lemma MarkSeenTwice(c: Character, a: string, b: string)
    requires NoDup(c.campaign.seenSceneIds)
    ensures var r := MarkSeen(MarkSeen(c, a), b);
      && a in r.campaign.seenSceneIds && b in r.campaign.seenSceneIds
      && NoDup(r.campaign.seenSceneIds)
      && (a == b ==> r.campaign.seenSceneIds == MarkSeen(c, a).campaign.seenSceneIds)
  {
  }

  // ---------------------------------------------------------------------------------------
  // Filler scenes

  /** The five `Math.random()` draws of `makeFillerScene`: mood, two stats, two DCs. */
  datatype FillerDraws = FillerDraws(mood: real, statA: real, statB: real, dcA: real, dcB: real)

  predicate ValidFillerDraws(d: FillerDraws)
  {
    && 0.0 <= d.mood < 1.0 && 0.0 <= d.statA < 1.0 && 0.0 <= d.statB < 1.0
    && 0.0 <= d.dcA < 1.0 && 0.0 <= d.dcB < 1.0
  }

  /** `ARC_META[arc].title`, as an opaque label. */
  function ArcTitle(arc: ArcId): string
  {
    "arc-title:" + ArcName(arc)
  }

  const StatKeys: seq<StatKey> := [STR, DEX, CON, INT, WIS, CHA]

  const Moods: seq<string> := ["mood:long-road", "mood:make-camp", "mood:detour", "mood:rumor", "mood:quiet-day"]

  /** `filler.<arc>.day<d>.act<a>`. */
  function FillerId(arc: ArcId, day: int, act: int): string
  {
    "filler." + ArcName(arc) + ".day" + IntToString(day) + ".act" + IntToString(act)
  }

  /** `makeFillerScene(c)`: a two-choice travel scene (push on / scavenge) on two drawn
      stats with DCs drawn from 10..15. */
  function MakeFillerScene(c: Character, d: FillerDraws): (s: Scene)
    requires ValidFillerDraws(d)
    ensures s.id == FillerId(c.campaign.arcId, c.day, c.campaign.act)
    ensures s.category == "Travel"
    ensures |s.choices| == 2 && s.choices[0].id == "push_on" && s.choices[1].id == "scavenge"
    ensures forall i :: 0 <= i < 2 ==> 10 <= s.choices[i].dc <= 15
  {
    var mood := Pick(Moods, d.mood);
    var statA := Pick(StatKeys, d.statA);
    var statB := Pick(StatKeys, d.statB);
    var dcA := 10 + ScaledIndex(d.dcA, 6);
    var dcB := 10 + ScaledIndex(d.dcB, 6);
    var choices := [
      SceneChoice("push_on", "Push onward", statA, dcA,
        Outcome([AddXp(2)], "filler:push-on:success", []),
        Outcome([LoseHp(1)], "filler:push-on:fail", [])),
      SceneChoice("scavenge", "Scavenge for supplies", statB, dcB,
        Outcome([AddGold(2)], "filler:scavenge:success", []),
        Outcome([AddXp(1)], "filler:scavenge:fail", []))
    ];
    Scene(FillerId(c.campaign.arcId, c.day, c.campaign.act), "Travel", ArcTitle(c.campaign.arcId),
          mood + "\n\n(campaign-tightening)", choices)
  }

  /** A single-digit act renders as one character. */
  lemma ActStringLength(a: Act)
    ensures |IntToString(a)| == 1
  {
  }

  /** Ids of the filler pattern, with the rendered day and act left as plain strings: equal
      ids with one-character acts have equal days and acts. */
  lemma PatternCancel(arc: string, day1: string, act1: string, day2: string, act2: string)
    requires |act1| == 1 && |act2| == 1
    requires "filler." + arc + ".day" + day1 + ".act" + act1 == "filler." + arc + ".day" + day2 + ".act" + act2
    ensures day1 == day2 && act1 == act2
  {
    var p := "filler." + arc + ".day";
    var t1 := p + day1 + ".act" + act1;
    var t2 := p + day2 + ".act" + act2;
    assert |day1| == |day2|;
    assert day1 == t1[|p|..|p| + |day1|];
    assert day2 == t2[|p|..|p| + |day2|];
    assert act1 == t1[|t1| - 1..];
    assert act2 == t2[|t2| - 1..];
  }

  /** Filler ids of one arc differ whenever the day or the act differs, so fillers on
      different days are never mistaken for a repeat. */
  lemma FillerIdInjective(arc: ArcId, d1: int, a1: Act, d2: int, a2: Act)
    requires FillerId(arc, d1, a1) == FillerId(arc, d2, a2)
    ensures d1 == d2 && a1 == a2
  {
    ActStringLength(a1);
    ActStringLength(a2);
    PatternCancel(ArcName(arc), IntToString(d1), IntToString(a1), IntToString(d2), IntToString(a2));
    IntToStringInjective(d1, d2);
    IntToStringInjective(a1, a2);
  }

  /** Ids that start like a filler id. */
  predicate FillerShaped(id: string)
  {
    |id| >= 2 && id[0] == 'f' && id[1] == 'i'
  }

  /** Every filler id is filler-shaped and no authored pool id is, so a filler scene is never
      one of the authored scenes of any arc. */
  lemma FillerIdNotAuthored(arc: ArcId, day: int, act: Act, other: ArcId, otherAct: Act)
    ensures FillerShaped(FillerId(arc, day, act))
    ensures forall i :: 0 <= i < |Pool(other, otherAct)| ==> !FillerShaped(Pool(other, otherAct)[i].id)
  {
    PatternShaped(ArcName(arc), IntToString(day), IntToString(act));
    PoolIdsNotFillerShaped(other, otherAct);
  }

  lemma PatternShaped(arc: string, day: string, act: string)
    ensures FillerShaped("filler." + arc + ".day" + day + ".act" + act)
  {
  }

  lemma PoolIdsNotFillerShaped(arc: ArcId, act: Act)
    ensures forall i :: 0 <= i < |Pool(arc, act)| ==> !FillerShaped(Pool(arc, act)[i].id)
  {
  }

  // ---------------------------------------------------------------------------------------
  // Scene lookup and selection

  /** `getSceneById(id)`: the catalog's scene, or the tavern hub when the id is unknown. */
  function GetSceneById(catalog: map<string, Scene>, id: string): (s: Scene)
    requires FallbackSceneId in catalog
    ensures id in catalog ==> s == catalog[id]
    ensures id !in catalog ==> s == catalog[FallbackSceneId]
  {
    if id in catalog then catalog[id] else catalog[FallbackSceneId]
  }

  datatype Turn = Turn(c: Character, scene: Scene)

  /** A follow-up is queued when `nextSceneId` is a non-empty string (a truthy value). */
  predicate Queued(c: Character)
  {
    c.nextSceneId.Some? && c.nextSceneId.value != ""
  }

  /** The candidates of the weighted pick: the act's pool, gated, without seen ids. */
  function Candidates(c: Character): seq<Weighted<string>>
  {
    Unseen(GateOut(Pool(c.campaign.arcId, c.campaign.act), c.campaign.flags), c.campaign.seenSceneIds)
  }

  /** The pool step and the filler fallback shared by both selectors. */
  function PoolTurn(c: Character, catalog: map<string, Scene>, x: real, d: FillerDraws): (t: Turn)
    requires FallbackSceneId in catalog
    requires 0.0 <= x < 1.0
    requires ValidFillerDraws(d)
  {
    var unseen := Candidates(c);
    if |unseen| == 0 then
      var s := MakeFillerScene(c, d);
      Turn(MarkSeen(c, s.id), s)
    else
      var chosen := WeightedPick(unseen, x);
      Turn(MarkSeen(c, chosen), GetSceneById(catalog, chosen))
  }

  /** `nextTurnScene(c)` as the source writes it: a queued follow-up, else the finale once
      act 3 reaches progress 85 (whether or not it was already seen), else an unseen weighted
      pick from the act pool, else a filler scene. */
  function NextTurnSceneAsWritten(c: Character, catalog: map<string, Scene>, x: real, d: FillerDraws): (t: Turn)
    requires FallbackSceneId in catalog
    requires 0.0 <= x < 1.0
    requires ValidFillerDraws(d)
  {
    if Queued(c) then
      var id := c.nextSceneId.value;
      Turn(MarkSeen(c.(nextSceneId := None), id), GetSceneById(catalog, id))
    else if c.campaign.act == 3 && c.campaign.progress >= 85 then
      var id := Finale(c.campaign.arcId);
      Turn(MarkSeen(c, id), GetSceneById(catalog, id))
    else
      PoolTurn(c, catalog, x, d)
  }

  /** Whether the finale is due: act 3, progress at least 85 and, in the corrected selector,
      the finale not yet seen in this arc. */
  predicate FinaleDue(c: Character)
  {
    c.campaign.act == 3 && c.campaign.progress >= 85 && Finale(c.campaign.arcId) !in c.campaign.seenSceneIds
  }

  /** `nextTurnScene(c)` with the no-repeat rule applied to the forced finale as well. */
  function NextTurnScene(c: Character, catalog: map<string, Scene>, x: real, d: FillerDraws): (t: Turn)
    requires FallbackSceneId in catalog
    requires 0.0 <= x < 1.0
    requires ValidFillerDraws(d)
    ensures Queued(c) ==> t.c.nextSceneId == None && t.c.lastSceneId == c.nextSceneId
                          && t.scene == GetSceneById(catalog, c.nextSceneId.value)
    ensures !Queued(c) ==> t.c.nextSceneId == c.nextSceneId
    ensures !Queued(c) && FinaleDue(c) ==>
              t.c.lastSceneId == Some(Finale(c.campaign.arcId))
              && t.scene == GetSceneById(catalog, Finale(c.campaign.arcId))
    ensures !Queued(c) && !FinaleDue(c) && |Candidates(c)| > 0 ==>
              t.c.lastSceneId == Some(WeightedPick(Candidates(c), x))
              && t.scene == GetSceneById(catalog, WeightedPick(Candidates(c), x))
    ensures !Queued(c) && !FinaleDue(c) && |Candidates(c)| == 0 ==>
              t.scene == MakeFillerScene(c, d) && t.c.lastSceneId == Some(t.scene.id)
  {
    if Queued(c) then
      var id := c.nextSceneId.value;
      Turn(MarkSeen(c.(nextSceneId := None), id), GetSceneById(catalog, id))
    else if FinaleDue(c) then
      var id := Finale(c.campaign.arcId);
      Turn(MarkSeen(c, id), GetSceneById(catalog, id))
    else
      PoolTurn(c, catalog, x, d)
  }

  /** Only the navigation fields differ between two characters. */
  predicate SameExceptNavigation(a: Character, b: Character)
  {
    a == b.(nextSceneId := a.nextSceneId, lastSceneId := a.lastSceneId, recentSceneIds := a.recentSceneIds,
            campaign := b.campaign.(seenSceneIds := a.campaign.seenSceneIds))
  }

  /** The candidates are exactly the ungated, unseen entries of the current act's pool. */
  lemma CandidatesSpec(c: Character)
    ensures forall w :: w in Candidates(c) <==>
      w in Pool(c.campaign.arcId, c.campaign.act) && !Gated(w, c.campaign.flags) && w.id !in c.campaign.seenSceneIds
  {
  }

  /** The pool step asks for a candidate's scene while one is left and builds a filler scene
      only once the candidates are exhausted. */
  lemma PoolTurnChoice(c: Character, catalog: map<string, Scene>, x: real, d: FillerDraws)
    requires FallbackSceneId in catalog
    requires 0.0 <= x < 1.0
    requires ValidFillerDraws(d)
    ensures |Candidates(c)| == 0 ==>
      var f := MakeFillerScene(c, d);
      PoolTurn(c, catalog, x, d) == Turn(MarkSeen(c, f.id), f)
    ensures |Candidates(c)| > 0 ==>
      exists w :: w in Candidates(c)
        && PoolTurn(c, catalog, x, d) == Turn(MarkSeen(c, w.id), GetSceneById(catalog, w.id))
  {
    var unseen := Candidates(c);
    if |unseen| > 0 {
      var chosen := WeightedPick(unseen, x);
      var i :| 0 <= i < |unseen| && unseen[i].id == chosen;
      assert unseen[i] in unseen;
    }
  }

  /** Selection only moves the navigation fields: hp, gold, xp, day, progress, flags and
      everything else are untouched, the recent list keeps at most six entries and the seen
      list stays free of duplicates. */
  lemma NextTurnSceneFrame(c: Character, catalog: map<string, Scene>, x: real, d: FillerDraws)
    requires FallbackSceneId in catalog
    requires 0.0 <= x < 1.0
    requires ValidFillerDraws(d)
    ensures SameExceptNavigation(NextTurnScene(c, catalog, x, d).c, c)
    ensures |NextTurnScene(c, catalog, x, d).c.recentSceneIds| <= 6
    ensures NoDup(c.campaign.seenSceneIds) ==> NoDup(NextTurnScene(c, catalog, x, d).c.campaign.seenSceneIds)
  {
    var t := NextTurnScene(c, catalog, x, d);
    if Queued(c) {
      assert t.c == MarkSeen(c.(nextSceneId := None), c.nextSceneId.value);
      MarkSeenFrame(c.(nextSceneId := None), c.nextSceneId.value);
    } else if FinaleDue(c) {
      assert t.c == MarkSeen(c, Finale(c.campaign.arcId));
      MarkSeenFrame(c, Finale(c.campaign.arcId));
    } else if |Candidates(c)| == 0 {
      assert t.c == MarkSeen(c, MakeFillerScene(c, d).id);
      MarkSeenFrame(c, MakeFillerScene(c, d).id);
    } else {
      assert t.c == MarkSeen(c, WeightedPick(Candidates(c), x));
      MarkSeenFrame(c, WeightedPick(Candidates(c), x));
    }
  }

  /** Recording a scene as seen only moves the navigation fields, keeps at most six recent ids
      and adds no duplicate to the seen list. */
  lemma MarkSeenFrame(c: Character, id: string)
    ensures SameExceptNavigation(MarkSeen(c, id), c)
    ensures |MarkSeen(c, id).recentSceneIds| <= 6
    ensures NoDup(c.campaign.seenSceneIds) ==> NoDup(MarkSeen(c, id).campaign.seenSceneIds)
  {
  }

  /** Selection keeps a valid character valid. */
  lemma NextTurnSceneValid(c: Character, catalog: map<string, Scene>, x: real, d: FillerDraws)
    requires FallbackSceneId in catalog
    requires 0.0 <= x < 1.0
    requires ValidFillerDraws(d)
    requires ValidCharacter(c)
    ensures ValidCharacter(NextTurnScene(c, catalog, x, d).c)
  {
    NextTurnSceneFrame(c, catalog, x, d);
    NavigationKeepsValid(NextTurnScene(c, catalog, x, d).c, c);
  }

  /** A character that differs from a valid one only in its navigation fields, with at most
      six recent ids and no repeated seen id, is valid. */
  lemma NavigationKeepsValid(a: Character, b: Character)
    requires SameExceptNavigation(a, b) && |a.recentSceneIds| <= 6 && NoDup(a.campaign.seenSceneIds)
    requires ValidCharacter(b)
    ensures ValidCharacter(a)
  {
  }

  /** The no-repeat law of the corrected selector: unless a follow-up was queued, the scene it
      asks for is either an id not yet seen in this arc or a filler scene, and afterwards that
      id is recorded as seen. */
  lemma NextTurnSceneNoRepeat(c: Character, catalog: map<string, Scene>, x: real, d: FillerDraws)
    requires FallbackSceneId in catalog
    requires 0.0 <= x < 1.0
    requires ValidFillerDraws(d)
    requires !Queued(c)
    ensures var t := NextTurnScene(c, catalog, x, d);
      && t.c.lastSceneId.Some?
      && t.c.lastSceneId.value in t.c.campaign.seenSceneIds
      && (t.c.lastSceneId.value !in c.campaign.seenSceneIds
          || t.c.lastSceneId.value == FillerId(c.campaign.arcId, c.day, c.campaign.act))
  {
    if !FinaleDue(c) {
      PoolTurnChoice(c, catalog, x, d);
      CandidatesSpec(c);
    }
  }

  /** As written, the forced finale ignores the seen list: once act 3 reaches progress 85 with
      nothing queued, every turn serves the finale again, although it was already played. */
  lemma FinaleRepeats(c: Character, catalog: map<string, Scene>, x: real, d: FillerDraws)
    requires FallbackSceneId in catalog
    requires 0.0 <= x < 1.0
    requires ValidFillerDraws(d)
    requires !Queued(c) && c.campaign.act == 3 && c.campaign.progress >= 85
    requires Finale(c.campaign.arcId) in c.campaign.seenSceneIds
    ensures var t := NextTurnSceneAsWritten(c, catalog, x, d);
      && t.c.lastSceneId == Some(Finale(c.campaign.arcId))
      && t.c.lastSceneId.value in c.campaign.seenSceneIds
      && t.scene == GetSceneById(catalog, Finale(c.campaign.arcId))
      && t.c.campaign.act == 3 && t.c.campaign.progress == c.campaign.progress
  {
  }

  /** The corrected selector differs from the code as written only when the finale was
      already seen: otherwise both choose the same scene and state. */
  lemma NextTurnSceneAgrees(c: Character, catalog: map<string, Scene>, x: real, d: FillerDraws)
    requires FallbackSceneId in catalog
    requires 0.0 <= x < 1.0
    requires ValidFillerDraws(d)
    requires !(c.campaign.act == 3 && c.campaign.progress >= 85) || Finale(c.campaign.arcId) !in c.campaign.seenSceneIds
    ensures NextTurnScene(c, catalog, x, d) == NextTurnSceneAsWritten(c, catalog, x, d)
  {
  }
}

=== FILE: catalog.dfy ===
/** The authored scenes of `src/game2.ts` that the tavern hub and the taxman, internship and
    mimic arcs use, keyed by id as in `SCENES`. Narrative text is kept as short labels. */
module Catalog {
  import opened Wrappers
  import opened Utils
  import Outcomes
  import opened Types
  import Arc
  import MimicFinale

  /** `{ text, logs }` of an outcome with its effects. */
  function Say(effects: seq<Effect>, text: string): Outcome
  {
    Outcome(effects, text, [])
  }

  function Choice(id: string, stat: StatKey, dc: int, onSuccess: Outcome, onFail: Outcome): SceneChoice
  {
    SceneChoice(id, "choice:" + id, stat, dc, onSuccess, onFail)
  }

  // The tavern hub.

  const BrawlWin := Terminal("brawl:win", None, ["log:combat-won:tavern-brawl"])
  const BrawlLose := Terminal("brawl:lose", None, ["log:combat-lost:tavern-brawl"])
  const BrawlFlee := Terminal("brawl:flee", None, ["log:fled:tavern-brawl"])

  const DrippingGoblet := Scene(Arc.FallbackSceneId, "Tavern", "The Dripping Goblet", "goblet:body", [
    Choice("rumors", CHA, 12,
      Outcome([AddXp(4), SetFlag("heard_rumor"), Advance(10)], "rumors:success", ["log:quest-hook:map"]),
      Say([LoseGold(2)], "rumors:fail")),
    Choice("suspicious", WIS, 13,
      Say([AddXp(5)], "suspicious:success"),
      Outcome([BeginCombat(Thug, BrawlWin, BrawlLose, BrawlFlee)], "suspicious:fail", ["log:combat-triggered:tavern-brawl"])),
    Choice("flirt", CHA, 14,
      Say([AddGold(3)], "flirt:success"),
      Say([AddXp(1)], "flirt:fail"))
  ])

  // Arc: taxman.

  const Paperwork := "street.paperwork"
  const CourtDay := "court.day"

  const TavernTaxman := Scene("tavern.taxman", "Tavern", "A Man With A Ledger", "taxman:body", [
    Choice("confess", WIS, 12,
      Say([AddXp(3), SetFlag("taxman_met"), Advance(12), QueueScene(Paperwork)], "confess:success"),
      Say([LoseGold(2), AddXp(1), SetFlag("taxman_met"), Advance(10), QueueScene(Paperwork)], "confess:fail")),
    Choice("bribe", CHA, 14,
      Say([LoseGold(3), SetFlag("taxman_bribed"), Advance(14), QueueScene(Paperwork)], "bribe:success"),
      Say([LoseGold(5), SetFlag("taxman_bribed"), Advance(12), QueueScene(Paperwork)], "bribe:fail")),
    Choice("between", CHA, 13,
      Say([AddXp(2), SetFlag("taxman_met"), Advance(11), QueueScene(Paperwork)], "between:success"),
      Say([AddXp(1), SetFlag("taxman_met"), Advance(9), QueueScene(Paperwork)], "between:fail"))
  ])

  const StreetPaperwork := Scene(Paperwork, "Street", "Forms: The True Dungeon", "paperwork:body", [
    Choice("forge", DEX, 15,
      Say([AddGold(6), AddXp(3), Advance(14), QueueScene(CourtDay)], "forge:success"),
      Say([LoseGold(4), Advance(10), QueueScene(CourtDay)], "forge:fail")),
    Choice("read", INT, 14,
      Say([AddGold(4), AddXp(2), Advance(12), QueueScene(CourtDay)], "read:success"),
      Say([LoseHp(1), Advance(9), QueueScene(CourtDay)], "read:fail")),
    Choice("eat", CON, 13,
      Say([AddXp(3), QueueScene(CourtDay)], "eat:success"),
      Say([LoseHp(2), QueueScene(CourtDay)], "eat:fail"))
  ])

  const Court := Scene(CourtDay, "Court", "The Crown vs. Your Vibes", "court:body", [
    Choice("represent", CHA, 15,
      Say([AddXp(4), AddGold(3)], "represent:success"),
      Say([LoseGold(6)], "represent:fail")),
    Choice("witness", WIS, 14,
      Say([AddGold(2), AddXp(2)], "witness:success"),
      Say([LoseGold(8)], "witness:fail")),
    Choice("oops", CHA, 12,
      Say([AddXp(2)], "oops:success"),
      Say([LoseHp(1), LoseGold(4)], "oops:fail"))
  ])

  // Arc: mimic.

  const MimicIntro := Scene("dungeon.mimic_intro", "Dungeon", "Chest With Feelings", "mimic-intro:body", [
    Choice("open", DEX, 13,
      Say([AddGold(6), AddXp(2), SetFlag("mimic_met"), Advance(12), QueueScene(Arc.FollowupSceneId)], "open:success"),
      Say([LoseHp(3), SetFlag("mimic_met"), Advance(10), QueueScene(Arc.FollowupSceneId)], "open:fail")),
    Choice("compliment", CHA, 14,
      Say([AddGold(4), QueueScene(Arc.FollowupSceneId)], "compliment:success"),
      Say([LoseHp(1), QueueScene(Arc.FollowupSceneId)], "compliment:fail")),
    Choice("hit", STR, 12,
      Say([AddGold(3), QueueScene(Arc.FollowupSceneId)], "hit:success"),
      Say([LoseHp(1), QueueScene(Arc.FollowupSceneId)], "hit:fail"))
  ])

  const MimicFollowup := Scene(Arc.FollowupSceneId, "Camp", "The Chest Returns", "mimic-followup:body", [
    Choice("adopt", WIS, 13,
      Say([AddXp(3), SetFlag("mimic_adopted"), SetFlag("mimic_followup_done"), Advance(14)], "adopt:success"),
      Say([LoseHp(2), AddXp(2), SetFlag("mimic_adopted"), SetFlag("mimic_followup_done"), Advance(12)], "adopt:fail")),
    Choice("boundaries", CHA, 12,
      Say([AddXp(2), SetFlag("mimic_boundaries"), SetFlag("mimic_followup_done"), Advance(12)], "boundaries:success"),
      Say([LoseHp(1), SetFlag("mimic_boundaries"), SetFlag("mimic_followup_done"), Advance(10)], "boundaries:fail")),
    Choice("send", CHA, 14,
      Say([AddGold(1), SetFlag("mimic_sent_away"), SetFlag("mimic_followup_done"), Advance(12)], "send:success"),
      Say([LoseGold(1), SetFlag("mimic_sent_away"), SetFlag("mimic_followup_done"), Advance(10)], "send:fail"))
  ])

  // Arc: internship.

  const LabSafety := "lab.safety"
  const FalloutJar := "fallout.jar"

  const TowerInternship := Scene("tower.internship", "Magic", "Unpaid, Unholy Internship", "internship:body", [
    Choice("accept", WIS, 12,
      Say([AddXp(2), SetFlag("internship_signed"), Advance(12), QueueScene(LabSafety)], "accept:success"),
      Say([AddXp(1), SetFlag("internship_signed"), Advance(10), QueueScene(LabSafety)], "accept:fail")),
    Choice("negotiate", CHA, 14,
      Say([AddGold(2), SetFlag("internship_paid"), Advance(14), QueueScene(LabSafety)], "negotiate:success"),
      Say([LoseGold(1), SetFlag("internship_signed"), Advance(9), QueueScene(LabSafety)], "negotiate:fail")),
    Choice("steal", DEX, 16,
      Say([AddXp(4), QueueScene(LabSafety)], "steal:success"),
      Say([LoseHp(2), QueueScene(LabSafety)], "steal:fail"))
  ])

  const Lab := Scene(LabSafety, "Magic", "Safety Third", "lab:body", [
    Choice("follow", INT, 13,
      Say([AddXp(2), QueueScene(FalloutJar)], "follow:success"),
      Say([AddXp(1), QueueScene(FalloutJar)], "follow:fail")),
    Choice("ask", WIS, 12,
      Say([AddXp(1), QueueScene(FalloutJar)], "ask:success"),
      Say([AddXp(1), QueueScene(FalloutJar)], "ask:fail")),
    Choice("feed", CON, 14,
      Say([AddXp(2), QueueScene(FalloutJar)], "feed:success"),
      Say([LoseHp(3), QueueScene(FalloutJar)], "feed:fail"))
  ])

  const Fallout := Scene(FalloutJar, "Disaster", "Gary Wants Freedom", "fallout:body", [
    Choice("sack", DEX, 14,
      Say([AddXp(3), AddGold(1)], "sack:success"),
      Say([LoseHp(2)], "sack:fail")),
    Choice("blame", CHA, 15,
      Say([AddXp(3)], "blame:success"),
      Say([LoseHp(1)], "blame:fail")),
    Choice("deal", CHA, 13,
      Say([AddXp(2)], "deal:success"),
      Say([LoseHp(1)], "deal:fail"))
  ])

  /** The ids of the modelled scenes. */
  const SceneIds: set<string> := {
    Arc.FinaleMimicId, Arc.FallbackSceneId, "tavern.taxman", Paperwork, CourtDay,
    "dungeon.mimic_intro", Arc.FollowupSceneId, "tower.internship", LabSafety, FalloutJar }

  /** `SCENES`, restricted to the modelled scenes. */
  function Scenes(): (m: map<string, Scene>)
    ensures m.Keys == SceneIds
    ensures Arc.FallbackSceneId in m
  {
    map[
      Arc.FinaleMimicId := MimicFinale.FinaleScene,
      Arc.FallbackSceneId := DrippingGoblet,
      "tavern.taxman" := TavernTaxman,
      Paperwork := StreetPaperwork,
      CourtDay := Court,
      "dungeon.mimic_intro" := MimicIntro,
      Arc.FollowupSceneId := MimicFollowup,
      "tower.internship" := TowerInternship,
      LabSafety := Lab,
      FalloutJar := Fallout
    ]
  }

  /** The ids of a scene's choices, in order. */
  function ChoiceIds(cs: seq<SceneChoice>): (ids: seq<string>)
    ensures |ids| == |cs|
    ensures forall i :: 0 <= i < |cs| ==> ids[i] == cs[i].id
  {
    if |cs| == 0 then [] else [cs[0].id] + ChoiceIds(cs[1..])
  }

  /** Effects that can be applied safely: valid companions, and every scene they queue is one
      of `ids`. */
  predicate EffectsOk(es: seq<Effect>, ids: set<string>)
  {
    forall i :: 0 <= i < |es| ==> Outcomes.EffectOk(es[i]) && (es[i].QueueScene? ==> es[i].sceneId in ids)
  }

  /** A choice with a DC between 10 and 16 and safe outcomes. */
  predicate ChoiceOk(ch: SceneChoice, ids: set<string>)
  {
    10 <= ch.dc <= 16 && EffectsOk(ch.onSuccess.effects, ids) && EffectsOk(ch.onFail.effects, ids)
  }

  /** Choices that are each well formed. */
  predicate ChoicesOk(cs: seq<SceneChoice>, ids: set<string>)
  {
    forall i :: 0 <= i < |cs| ==> ChoiceOk(cs[i], ids)
  }

  /** A well-formed scene: two to four choices, distinct choice ids, and safe choices. */
  predicate SceneOk(s: Scene, ids: set<string>)
  {
    2 <= |s.choices| <= 4 && NoDup(ChoiceIds(s.choices)) && ChoicesOk(s.choices, ids)
  }

  /** Every entry is stored under its own id and is well formed. */
  lemma ScenesWellFormed()
    ensures forall id :: id in Scenes() ==> Scenes()[id].id == id && SceneOk(Scenes()[id], Scenes().Keys)
  {
    FinaleSceneOk();
    DrippingGobletOk();
    TavernTaxmanOk();
    StreetPaperworkOk();
    CourtOk();
    MimicIntroOk();
    MimicFollowupOk();
    TowerInternshipOk();
    LabOk();
    FalloutOk();
  }

  lemma FinaleSceneOk()
    ensures SceneOk(MimicFinale.FinaleScene, SceneIds)
  {
    var ids := SceneIds;
    var cs := MimicFinale.FinaleScene.choices;
    assert ChoiceOk(cs[0], ids);
    assert ChoiceOk(cs[1], ids);
    assert ChoiceOk(cs[2], ids);
  }

  lemma DrippingGobletOk()
    ensures SceneOk(DrippingGoblet, SceneIds)
  {
    var ids := SceneIds;
    var cs := DrippingGoblet.choices;
    assert ChoiceOk(cs[0], ids);
    assert ChoiceOk(cs[1], ids);
    assert ChoiceOk(cs[2], ids);
  }

  lemma TavernTaxmanOk()
    ensures SceneOk(TavernTaxman, SceneIds)
  {
    var ids := SceneIds;
    var cs := TavernTaxman.choices;
    assert ChoiceOk(cs[0], ids);
    assert ChoiceOk(cs[1], ids);
    assert ChoiceOk(cs[2], ids);
  }

  lemma StreetPaperworkOk()
    ensures SceneOk(StreetPaperwork, SceneIds)
  {
    var ids := SceneIds;
    var cs := StreetPaperwork.choices;
    assert ChoiceOk(cs[0], ids);
    assert ChoiceOk(cs[1], ids);
    assert ChoiceOk(cs[2], ids);
  }

  lemma CourtOk()
    ensures SceneOk(Court, SceneIds)
  {
    var ids := SceneIds;
    var cs := Court.choices;
    assert ChoiceOk(cs[0], ids);
    assert ChoiceOk(cs[1], ids);
    assert ChoiceOk(cs[2], ids);
  }

  lemma MimicIntroOk()
    ensures SceneOk(MimicIntro, SceneIds)
  {
    var ids := SceneIds;
    var cs := MimicIntro.choices;
    assert ChoiceOk(cs[0], ids);
    assert ChoiceOk(cs[1], ids);
    assert ChoiceOk(cs[2], ids);
  }

  lemma MimicFollowupOk()
    ensures SceneOk(MimicFollowup, SceneIds)
  {
    var ids := SceneIds;
    var cs := MimicFollowup.choices;
    assert ChoiceOk(cs[0], ids);
    assert ChoiceOk(cs[1], ids);
    assert ChoiceOk(cs[2], ids);
  }

  lemma TowerInternshipOk()
    ensures SceneOk(TowerInternship, SceneIds)
  {
    var ids := SceneIds;
    var cs := TowerInternship.choices;
    assert ChoiceOk(cs[0], ids);
    assert ChoiceOk(cs[1], ids);
    assert ChoiceOk(cs[2], ids);
  }

  lemma LabOk()
    ensures SceneOk(Lab, SceneIds)
  {
    var ids := SceneIds;
    var cs := Lab.choices;
    assert ChoiceOk(cs[0], ids);
    assert ChoiceOk(cs[1], ids);
    assert ChoiceOk(cs[2], ids);
  }

  lemma FalloutOk()
    ensures SceneOk(Fallout, SceneIds)
  {
    var ids := SceneIds;
    var cs := Fallout.choices;
    assert ChoiceOk(cs[0], ids);
    assert ChoiceOk(cs[1], ids);
    assert ChoiceOk(cs[2], ids);
  }

  /** Every scene the taxman, internship and mimic pools can draw, and every arc's finale,
      is an authored scene rather than the hub fallback of an unknown id. */
  lemma ModelledPoolsCovered(arc: ArcId, act: Act)
    requires arc in {Taxman, Internship, Mimic}
    ensures forall i :: 0 <= i < |Arc.Pool(arc, act)| ==> Arc.Pool(arc, act)[i].id in Scenes()
    ensures Arc.Finale(arc) in Scenes()
  {
  }
}

=== FILE: combat.dfy ===
/** The combat turn machine of `src/combat.ts`: weapon and spell tables, enemies and their
    intents, `startCombat`, `rollDamage`, `playerAttack`, `playerGuard`, `playerRun` and
    `enemyTurn`. Every die face and intent draw is a parameter. */
module Combat {
  import opened Wrappers
  import opened Utils
  import opened Types

  /** A weapon, cantrip or spell: its name, the stat it rolls with and its damage dice. */
  datatype AttackProfile = AttackProfile(name: string, stat: StatKey, dmg: Dice)

  datatype AttackKind = WeaponAttack | CantripAttack | SpellAttack

  /** `weaponForClass(className)`. */
  function WeaponForClass(cls: ClassName): AttackProfile
  {
    match cls
    case Rogue => AttackProfile("Shortsword", DEX, Dice(1, 6))
    case Wizard => AttackProfile("Staff", STR, Dice(1, 6))
    case Barbarian => AttackProfile("Greataxe", STR, Dice(1, 12))
    case Fighter => AttackProfile("Longsword", STR, Dice(1, 8))
    case Paladin => AttackProfile("Mace", STR, Dice(1, 8))
    case Druid => AttackProfile("Club", STR, Dice(1, 6))
  }

  /** `cantripForClass(className)`: only Wizards and Druids have one. */
  function CantripForClass(cls: ClassName): Option<AttackProfile>
  {
    if cls == Wizard then Some(AttackProfile("Firebolt", INT, Dice(1, 10)))
    else if cls == Druid then Some(AttackProfile("Thorn Whip", WIS, Dice(1, 6)))
    else None
  }

  /** `spellForClass(className)`: only Wizards and Druids have one. */
  function SpellForClass(cls: ClassName): Option<AttackProfile>
  {
    if cls == Wizard then Some(AttackProfile("Magic Missile", INT, Dice(3, 4)))
    else if cls == Druid then Some(AttackProfile("Moonbeam", WIS, Dice(2, 6)))
    else None
  }

  /** `makeEnemy(kind)`: a fresh enemy at full health with its opening intent. */
  function MakeEnemy(kind: EnemyKind): (e: CombatEnemy)
    ensures e.hp == e.maxHp && e.maxHp >= 10
    ensures e.ac >= 12
    ensures !e.intent.Defend?
  {
    match kind
    case Hound => CombatEnemy("Starving Hound", 10, 10, 12, Attack("Lunge", 2, Dice(1, 6), DEX))
    case Rival => CombatEnemy("Rival Adventurer", 16, 16, 13, Heavy("Power strike", 3, Dice(1, 10), STR))
    case Thug => CombatEnemy("Tavern Thug", 14, 14, 12, Attack("Cheap shot", 3, Dice(1, 8), STR))
  }

  /** The intent table of `nextIntent`. */
  const Intents: seq<EnemyIntent> := [
    Attack("Attack", 3, Dice(1, 6), STR),
    Heavy("Heavy swing", 1, Dice(1, 10), STR),
    Defend("Defend", 2)
  ]

  /** `nextIntent(enemy)`: a uniform pick from the intent table, with the draw passed in. */
  function NextIntent(x: real): (i: EnemyIntent)
    requires 0.0 <= x < 1.0
    ensures i in Intents
  {
    Pick(Intents, x)
  }

  /** `startCombat(...)`: round 1, no flee progress, no guard, a fresh enemy. */
  function StartCombat(kind: EnemyKind, onWin: Terminal, onLose: Terminal, onFlee: Terminal): (s: CombatState)
    ensures s.round == 1 && s.fleeProgress == 0 && !s.guard
    ensures s.enemy == MakeEnemy(kind) && s.enemy.hp == s.enemy.maxHp
    ensures s.onWin == onWin && s.onLose == onLose && s.onFlee == onFlee
    ensures ValidCombat(s)
  {
    CombatState(MakeEnemy(kind), 1, 0, false, onWin, onLose, onFlee)
  }

  /** `rollDamage(dice, sides, mod)` for the given faces: their sum plus `mod`, at least 1. */
  function RollDamage(faces: seq<int>, mod: int): (r: int)
    ensures r >= 1
    ensures r >= Sum(faces) + mod
    ensures Sum(faces) + mod >= 1 ==> r == Sum(faces) + mod
  {
    Max(1, Sum(faces) + mod)
  }

  /** Damage from `n` dice of `sides` faces lies between `n + mod` and `n * sides + mod`,
      and never below 1. */
  lemma RollDamageRange(faces: seq<int>, sides: int, mod: int)
    requires forall i :: 0 <= i < |faces| ==> 1 <= faces[i] <= sides
    ensures Max(1, |faces| + mod) <= RollDamage(faces, mod) <= Max(1, |faces| * sides + mod)
  {
    SumOfFaces(faces, sides);
  }

  // ---------------------------------------------------------------------------------------
  // Player attack

  /** The profile `playerAttack` rolls with: the cantrip or spell when the class has one and
      it was asked for, the class weapon otherwise. */
  function ChosenAttack(cls: ClassName, kind: AttackKind): AttackProfile
  {
    if kind == CantripAttack && CantripForClass(cls).Some? then CantripForClass(cls).value
    else if kind == SpellAttack && SpellForClass(cls).Some? then SpellForClass(cls).value
    else WeaponForClass(cls)
  }

  /** Exactly the two casting classes have a cantrip and a spell, so exactly the classes that
      start with spell slots are offered the spell button; every attack rolls at least one die. */
  lemma CastersHaveSpells(cls: ClassName)
    ensures CantripForClass(cls).Some? <==> cls == Wizard || cls == Druid
    ensures SpellForClass(cls).Some? <==> CantripForClass(cls).Some?
    ensures forall k :: ChosenAttack(cls, k).dmg.dice >= 1
  {
  }

  /** Whether the attack is a real spell, which needs and spends a slot. */
  predicate UsesSlot(cls: ClassName, kind: AttackKind)
  {
    kind == SpellAttack && SpellForClass(cls).Some?
  }

  /** The enemy's AC bonus from a defend intent. */
  function DefendBonus(i: EnemyIntent): int
  {
    if i.Defend? then i.acBonus else 0
  }

  /** The to-hit total: the d20 face plus the attack stat's modifier. */
  function PlayerToHit(c: Character, kind: AttackKind, d20: int): int
  {
    d20 + ModFromStat(StatOf(c.stats, ChosenAttack(c.className, kind).stat))
  }

  /** The hit rule: a to-hit total of 1 misses; otherwise it must reach the enemy's AC plus
      the bonus of a defend intent. */
  predicate AttackHits(c: Character, s: CombatState, kind: AttackKind, d20: int)
  {
    var toHit := PlayerToHit(c, kind, d20);
    toHit != 1 && toHit >= s.enemy.ac + DefendBonus(s.enemy.intent)
  }

  const NoSlotsText := "No spell slots left."

  datatype AttackResult = AttackResult(c: Character, combat: CombatState, text: string)

  /** `playerAttack(c, combat, kind)` with the d20 face and the damage faces passed in. */
  function PlayerAttack(c: Character, s: CombatState, kind: AttackKind, d20: int, dmgFaces: seq<int>): (r: AttackResult)
    requires |dmgFaces| == ChosenAttack(c.className, kind).dmg.dice
    ensures UsesSlot(c.className, kind) && c.spellSlotsRemaining <= 0 ==> r == AttackResult(c, s, NoSlotsText)
    ensures r.text == NoSlotsText <==> UsesSlot(c.className, kind) && c.spellSlotsRemaining <= 0
    ensures !(UsesSlot(c.className, kind) && c.spellSlotsRemaining <= 0) ==>
      && r.c == c.(spellSlotsRemaining := c.spellSlotsRemaining - (if UsesSlot(c.className, kind) then 1 else 0))
      && r.combat == s.(enemy := s.enemy.(hp := r.combat.enemy.hp), guard := false)
      && (AttackHits(c, s, kind, d20) ==>
            r.combat.enemy.hp == Clamp(s.enemy.hp - RollDamage(dmgFaces, ModFromStat(StatOf(c.stats, ChosenAttack(c.className, kind).stat))), 0, s.enemy.maxHp))
      && (!AttackHits(c, s, kind, d20) ==> r.combat.enemy.hp == s.enemy.hp)
  {
    if UsesSlot(c.className, kind) && c.spellSlotsRemaining <= 0 then
      AttackResult(c, s, NoSlotsText)
    else
      var c2 := if UsesSlot(c.className, kind) then c.(spellSlotsRemaining := c.spellSlotsRemaining - 1) else c;
      var a := ChosenAttack(c2.className, kind);
      var mod := ModFromStat(StatOf(c2.stats, a.stat));
      var toHit := d20 + mod;
      var enemyAc := s.enemy.ac + DefendBonus(s.enemy.intent);
      if toHit != 1 && toHit >= enemyAc then
        var amount := RollDamage(dmgFaces, mod);
        var enemy := s.enemy.(hp := Clamp(s.enemy.hp - amount, 0, s.enemy.maxHp));
        var text := "attack:hit:" + a.name;
        assert text[0] != NoSlotsText[0];
        AttackResult(c2, s.(enemy := enemy, guard := false), text)
      else
        var text := "attack:miss:" + a.name;
        assert text[0] != NoSlotsText[0];
        AttackResult(c2, s.(guard := false), text)
  }

  /** An attack never heals the enemy, and a hit on a standing enemy always takes at least
      one hit point. */
  lemma AttackNeverHeals(c: Character, s: CombatState, kind: AttackKind, d20: int, dmgFaces: seq<int>)
    requires |dmgFaces| == ChosenAttack(c.className, kind).dmg.dice
    requires 0 <= s.enemy.hp <= s.enemy.maxHp
    ensures PlayerAttack(c, s, kind, d20, dmgFaces).combat.enemy.hp <= s.enemy.hp
    ensures !(UsesSlot(c.className, kind) && c.spellSlotsRemaining <= 0) && AttackHits(c, s, kind, d20) && s.enemy.hp > 0
      ==> PlayerAttack(c, s, kind, d20, dmgFaces).combat.enemy.hp < s.enemy.hp
  {
  }

  /** Only a real spell spends a slot, exactly one, and only when one is left; weapons and
      cantrips never touch slots. */
  lemma AttackSlotAccounting(c: Character, s: CombatState, kind: AttackKind, d20: int, dmgFaces: seq<int>)
    requires |dmgFaces| == ChosenAttack(c.className, kind).dmg.dice
    ensures var r := PlayerAttack(c, s, kind, d20, dmgFaces);
      && (kind != SpellAttack ==> r.c == c)
      && (UsesSlot(c.className, kind) && c.spellSlotsRemaining > 0 ==> r.c.spellSlotsRemaining == c.spellSlotsRemaining - 1)
      && (c.spellSlotsRemaining <= 0 ==> r.c == c)
  {
  }

  /** With stats in 3..18 the best modifier is +4, so against an effective AC of 6 or more a
      d20 face of 1 always misses, although the source tests the total, not the face. */
  lemma NaturalOneMisses(c: Character, s: CombatState, kind: AttackKind)
    requires StatsInRange(c.stats)
    requires s.enemy.ac + DefendBonus(s.enemy.intent) >= 6
    ensures !AttackHits(c, s, kind, 1)
  {
    var k := ChosenAttack(c.className, kind).stat;
    assert 3 <= StatOf(c.stats, k) <= 18;
    ModFromStatValues(StatOf(c.stats, k));
  }

  /** An attack keeps the character and the combat within their ranges. */
  lemma PlayerAttackValid(c: Character, s: CombatState, kind: AttackKind, d20: int, dmgFaces: seq<int>)
    requires |dmgFaces| == ChosenAttack(c.className, kind).dmg.dice
    requires ValidCharacter(c) && ValidCombat(s)
    ensures ValidCharacter(PlayerAttack(c, s, kind, d20, dmgFaces).c)
    ensures ValidCombat(PlayerAttack(c, s, kind, d20, dmgFaces).combat)
  {
  }

  // ---------------------------------------------------------------------------------------
  // Guard and run

  /** `playerGuard(combat)`. */
  function PlayerGuard(s: CombatState): (r: CombatState)
    ensures r.guard
    ensures r == s.(guard := true)
  {
    s.(guard := true)
  }

  datatype RunResult = RunResult(combat: CombatState, text: string)

  /** The run check: a d20 face of 1 fails; otherwise the face plus the better of the DEX and
      CON modifiers must reach 13. */
  predicate RunSucceeds(c: Character, d20: int)
  {
    var m := Max(ModFromStat(c.stats.dexterity), ModFromStat(c.stats.constitution));
    d20 != 1 && d20 + m >= 13
  }

  /** `playerRun(c, combat)` with the d20 face passed in. */
  function PlayerRun(c: Character, s: CombatState, d20: int): (r: RunResult)
    ensures r.combat.fleeProgress == Clamp(s.fleeProgress + (if RunSucceeds(c, d20) then 40 else 20), 0, 100)
    ensures r.combat == s.(fleeProgress := r.combat.fleeProgress, guard := false)
  {
    var m := Max(ModFromStat(c.stats.dexterity), ModFromStat(c.stats.constitution));
    var ok := d20 != 1 && d20 + m >= 13;
    var gain := if ok then 40 else 20;
    RunResult(s.(fleeProgress := Clamp(s.fleeProgress + gain, 0, 100), guard := false),
              if ok then "run:distance" else "run:stumble")
  }

  /** Every run moves flee progress forward by at least 20 (up to 100), so a run always
      gets strictly closer to escaping until it has escaped. */
  lemma RunProgresses(c: Character, s: CombatState, d20: int)
    requires 0 <= s.fleeProgress <= 100
    ensures PlayerRun(c, s, d20).combat.fleeProgress >= Min(100, s.fleeProgress + 20)
    ensures s.fleeProgress < 100 ==> PlayerRun(c, s, d20).combat.fleeProgress > s.fleeProgress
    ensures 0 <= PlayerRun(c, s, d20).combat.fleeProgress <= 100
  {
  }

  /** Flee progress after a series of runs with the given d20 faces. */
  function RunMany(c: Character, s: CombatState, faces: seq<int>): CombatState
    decreases |faces|
  {
    if |faces| == 0 then s else RunMany(c, PlayerRun(c, s, faces[0]).combat, faces[1..])
  }

  /** Whatever the dice, five runs escape any fight: flee progress reaches 100. */
  lemma {:induction false} FiveRunsEscape(c: Character, s: CombatState, faces: seq<int>)
    requires 0 <= s.fleeProgress <= 100
    requires |faces| * 20 + s.fleeProgress >= 100
    ensures RunMany(c, s, faces).fleeProgress == 100
    decreases |faces|
  {
    if s.fleeProgress == 100 {
      RunManyStaysAtHundred(c, s, faces);
    } else {
      var s' := PlayerRun(c, s, faces[0]).combat;
      RunProgresses(c, s, faces[0]);
      FiveRunsEscape(c, s', faces[1..]);
    }
  }

  /** Once escaped, further runs keep flee progress at 100. */
  lemma {:induction false} RunManyStaysAtHundred(c: Character, s: CombatState, faces: seq<int>)
    requires s.fleeProgress == 100
    ensures RunMany(c, s, faces).fleeProgress == 100
    decreases |faces|
  {
    if |faces| > 0 {
      RunManyStaysAtHundred(c, PlayerRun(c, s, faces[0]).combat, faces[1..]);
    }
  }

  // ---------------------------------------------------------------------------------------
  // Enemy turn

  /** The player's armor class against an enemy stat: 10 plus that stat's modifier, plus 3
      while guarding. */
  function PlayerAc(c: Character, s: CombatState, stat: StatKey): int
  {
    10 + ModFromStat(StatOf(c.stats, stat)) + (if s.guard then 3 else 0)
  }

  /** The enemy's hit rule: a to-hit total of 1 misses; otherwise the d20 face plus the
      intent's bonus must reach the player's armor class. */
  predicate EnemyHits(c: Character, s: CombatState, d20: int)
    requires !s.enemy.intent.Defend?
  {
    var toHit := d20 + s.enemy.intent.toHit;
    toHit != 1 && toHit >= PlayerAc(c, s, s.enemy.intent.stat)
  }

  /** The faces an enemy turn needs: one per damage die of an attacking intent. */
  predicate EnemyFacesFit(s: CombatState, dmgFaces: seq<int>)
  {
    s.enemy.intent.Defend? || |dmgFaces| == s.enemy.intent.dmg.dice
  }

  datatype EnemyTurnResult = EnemyTurnResult(c: Character, combat: CombatState, text: string)

  /** `enemyTurn(c, combat)` with the d20 face, the damage faces and the intent draw passed in. */
  function EnemyTurn(c: Character, s: CombatState, d20: int, dmgFaces: seq<int>, x: real): (r: EnemyTurnResult)
    requires EnemyFacesFit(s, dmgFaces)
    requires 0.0 <= x < 1.0
    ensures r.combat == s.(enemy := s.enemy.(intent := NextIntent(x)), guard := false, round := s.round + 1)
    ensures s.enemy.intent.Defend? ==> r.c == c
    ensures !s.enemy.intent.Defend? && EnemyHits(c, s, d20) ==>
      r.c == c.(hp := Clamp(c.hp - RollDamage(dmgFaces, 0), 0, c.maxHp))
    ensures !s.enemy.intent.Defend? && !EnemyHits(c, s, d20) ==> r.c == c
  {
    var intent := s.enemy.intent;
    var next := s.(enemy := s.enemy.(intent := NextIntent(x)), guard := false, round := s.round + 1);
    if intent.Defend? then
      EnemyTurnResult(c, next, "enemy:defends")
    else
      var statMod := ModFromStat(StatOf(c.stats, intent.stat));
      var toHit := d20 + intent.toHit;
      var ac := 10 + statMod + (if s.guard then 3 else 0);
      if toHit != 1 && toHit >= ac then
        var amount := RollDamage(dmgFaces, 0);
        EnemyTurnResult(c.(hp := Clamp(c.hp - amount, 0, c.maxHp)), next, "enemy:hits:" + intent.name)
      else
        EnemyTurnResult(c, next, "enemy:misses:" + intent.name)
  }

  /** Guarding raises the player's armor class by 3 for exactly one enemy turn: the turn that
      follows clears it again. */
  lemma GuardLastsOneTurn(c: Character, s: CombatState, stat: StatKey, d20: int, dmgFaces: seq<int>, x: real)
    requires !s.guard
    requires EnemyFacesFit(s, dmgFaces)
    requires 0.0 <= x < 1.0
    ensures PlayerAc(c, PlayerGuard(s), stat) == PlayerAc(c, s, stat) + 3
    ensures !EnemyTurn(c, PlayerGuard(s), d20, dmgFaces, x).combat.guard
  {
  }

  /** An enemy turn never heals the player, keeps both sides within their ranges and never
      touches flee progress. */
  lemma EnemyTurnValid(c: Character, s: CombatState, d20: int, dmgFaces: seq<int>, x: real)
    requires EnemyFacesFit(s, dmgFaces)
    requires 0.0 <= x < 1.0
    requires ValidCharacter(c) && ValidCombat(s)
    ensures var r := EnemyTurn(c, s, d20, dmgFaces, x);
      && ValidCharacter(r.c) && ValidCombat(r.combat)
      && r.c.hp <= c.hp
      && r.combat.fleeProgress == s.fleeProgress
  {
  }
}

=== FILE: creation.dfy ===
/** Character creation, `src/game2.ts`: `roll4d6DropLowest`, `clampStat`,
    `statPriorityForClass`, `generateStats` and `makeNewCharacter`. Die faces and the shuffle's
    draws are parameters. */
module Creation {
  import opened Wrappers
  import opened Utils
  import opened Text
  import opened Types
  import Arc

  /** `clampStat(n)`. */
  function ClampStat(n: int): (r: int)
    ensures 3 <= r <= 18
    ensures 3 <= n <= 18 ==> r == n
  {
    Clamp(n, 3, 18)
  }

  // ---------------------------------------------------------------------------------------
  // Sorting, ascending or descending

  predicate InOrder(a: int, b: int, asc: bool)
  {
    if asc then a <= b else a >= b
  }

  predicate Sorted(s: seq<int>, asc: bool)
  {
    forall i, j :: 0 <= i < j < |s| ==> InOrder(s[i], s[j], asc)
  }

  /** Inserts `x` into a sorted list, keeping it sorted. */
  function Insert(x: int, s: seq<int>, asc: bool): (r: seq<int>)
    requires Sorted(s, asc)
    ensures Sorted(r, asc)
    ensures multiset(r) == multiset(s) + multiset{x}
    ensures |r| == |s| + 1
  {
    if |s| == 0 then [x]
    else if InOrder(x, s[0], asc) then [x] + s
    else
      var t := Insert(x, s[1..], asc);
      assert s == [s[0]] + s[1..];
      assert forall k :: 0 <= k < |t| ==> InOrder(s[0], t[k], asc) by {
        forall k | 0 <= k < |t| ensures InOrder(s[0], t[k], asc) {
          assert t[k] in multiset(t);
          assert t[k] in multiset(s[1..]) || t[k] == x;
          if t[k] != x {
            var m :| 0 <= m < |s[1..]| && s[1..][m] == t[k];
            assert s[m + 1] == t[k];
          }
        }
      }
      [s[0]] + t
  }

  /** An insertion sort: a sorted permutation of its input. */
  function Sort(s: seq<int>, asc: bool): (r: seq<int>)
    ensures Sorted(r, asc)
    ensures multiset(r) == multiset(s)
    ensures |r| == |s|
  {
    if |s| == 0 then []
    else
      assert s == [s[0]] + s[1..];
      Insert(s[0], Sort(s[1..], asc), asc)
  }

  /** `roll4d6DropLowest()` for four given d6 faces: the top three of the sorted faces. */
  function Roll4d6DropLowest(faces: seq<int>): (total: int)
    requires |faces| == 4
  {
    var r := Sort(faces, true);
    r[1] + r[2] + r[3]
  }

  /** The sum of a four-element list, written out. */
  lemma Sum4(s: seq<int>)
    requires |s| == 4
    ensures Sum(s) == s[0] + s[1] + s[2] + s[3]
  {
    var s3 := s[..3];
    var s2 := s3[..2];
    var s1 := s2[..1];
    assert s1[..0] == [];
    assert Sum(s1) == s[0];
    assert Sum(s2) == Sum(s1) + s[1];
    assert Sum(s3) == Sum(s2) + s[2];
  }

  /** Dropping the lowest face is the sum of all four minus the smallest one, so with d6 faces
      the result is between 3 and 18. */
  lemma Roll4d6DropLowestSpec(faces: seq<int>)
    requires |faces| == 4
    ensures exists m :: m in faces && (forall i :: 0 <= i < 4 ==> m <= faces[i])
                        && Roll4d6DropLowest(faces) == Sum(faces) - m
    ensures (forall i :: 0 <= i < 4 ==> 1 <= faces[i] <= 6) ==> 3 <= Roll4d6DropLowest(faces) <= 18
  {
    var r := Sort(faces, true);
    assert r[0] in multiset(faces);
    forall i | 0 <= i < 4 ensures r[0] <= faces[i] {
      assert faces[i] in multiset(r);
      var k :| 0 <= k < 4 && r[k] == faces[i];
      if k > 0 { assert InOrder(r[0], r[k], true); }
    }
    SumPermutation(r, faces);
    Sum4(r);
    assert r[0] in faces;
    assert Roll4d6DropLowest(faces) == Sum(faces) - r[0];
    if forall i :: 0 <= i < 4 ==> 1 <= faces[i] <= 6 {
      forall k | 1 <= k < 4 ensures 1 <= r[k] <= 6 {
        assert r[k] in multiset(faces);
      }
    }
  }

  /** Permuting a list does not change its sum. */
  lemma {:induction false} SumPermutation(a: seq<int>, b: seq<int>)
    requires multiset(a) == multiset(b)
    ensures Sum(a) == Sum(b)
    decreases |a|
  {
    if |a| > 0 {
      var x := a[|a| - 1];
      assert a == a[..|a| - 1] + [x];
      assert x in multiset(b);
      var k :| 0 <= k < |b| && b[k] == x;
      var b' := b[..k] + b[k + 1..];
      assert b == b[..k] + [x] + b[k + 1..];
      var a' := a[..|a| - 1];
      calc {
        multiset(a') + multiset{x};
        multiset(a' + [x]);
        multiset(a);
        multiset(b);
        multiset(b[..k] + [x] + b[k + 1..]);
        multiset(b[..k]) + multiset{x} + multiset(b[k + 1..]);
        multiset(b') + multiset{x};
      }
      forall y ensures multiset(a')[y] == multiset(b')[y] {
        assert (multiset(a') + multiset{x})[y] == (multiset(b') + multiset{x})[y];
      }
      assert multiset(a') == multiset(b');
      SumPermutation(a[..|a| - 1], b');
      SumRemove(b, k);
    } else {
      assert |b| == 0;
    }
  }

  /** Removing the element at `k` lowers the sum by that element. */
  lemma {:induction false} SumRemove(s: seq<int>, k: nat)
    requires k < |s|
    ensures Sum(s) == Sum(s[..k] + s[k + 1..]) + s[k]
    decreases |s|
  {
    var n := |s| - 1;
    if k < n {
      var t := s[..k] + s[k + 1..];
      assert t[..|t| - 1] == s[..n][..k] + s[..n][k + 1..];
      assert t[|t| - 1] == s[n];
      SumRemove(s[..n], k);
    } else {
      assert s[..k] + s[k + 1..] == s[..n];
    }
  }

  // ---------------------------------------------------------------------------------------
  // Stat generation

  datatype StatGenMode = Weighted | Chaos

  /** `statPriorityForClass(className)`: the order in which a class wants its stats. */
  function StatPriority(cls: ClassName): seq<StatKey>
  {
    match cls
    case Rogue => [DEX, INT, CHA, CON, WIS, STR]
    case Wizard => [INT, WIS, CON, DEX, CHA, STR]
    case Barbarian => [STR, CON, DEX, WIS, CHA, INT]
    case Fighter => [STR, CON, DEX, WIS, CHA, INT]
    case Paladin => [CHA, STR, CON, WIS, DEX, INT]
    case Druid => [WIS, CON, INT, DEX, CHA, STR]
  }

  /** Every priority list names each of the six stats exactly once. */
  lemma StatPriorityIsPermutation(cls: ClassName)
    ensures |StatPriority(cls)| == 6
    ensures NoDup(StatPriority(cls))
    ensures forall k: StatKey :: k in StatPriority(cls)
  {
    var p := StatPriority(cls);
    assert STR in p && DEX in p && CON in p && INT in p && WIS in p && CHA in p by {
      match cls
      case Rogue => assert p[5] == STR && p[0] == DEX && p[3] == CON && p[1] == INT && p[4] == WIS && p[2] == CHA;
      case Wizard => assert p[5] == STR && p[3] == DEX && p[2] == CON && p[0] == INT && p[1] == WIS && p[4] == CHA;
      case Barbarian => assert p[0] == STR && p[2] == DEX && p[1] == CON && p[5] == INT && p[3] == WIS && p[4] == CHA;
      case Fighter => assert p[0] == STR && p[2] == DEX && p[1] == CON && p[5] == INT && p[3] == WIS && p[4] == CHA;
      case Paladin => assert p[1] == STR && p[4] == DEX && p[2] == CON && p[5] == INT && p[3] == WIS && p[0] == CHA;
      case Druid => assert p[5] == STR && p[3] == DEX && p[1] == CON && p[2] == INT && p[0] == WIS && p[4] == CHA;
    }
    forall k: StatKey ensures k in p {
      match k
      case STR => case DEX => case CON => case INT => case WIS => case CHA =>
    }
  }

  /** The stat block with one stat replaced. */
  function WithStat(s: Stats, key: StatKey, v: int): (r: Stats)
    ensures StatOf(r, key) == v
    ensures forall k :: k != key ==> StatOf(r, k) == StatOf(s, k)
  {
    match key
    case STR => s.(strength := v)
    case DEX => s.(dexterity := v)
    case CON => s.(constitution := v)
    case INT => s.(intelligence := v)
    case WIS => s.(wisdom := v)
    case CHA => s.(charisma := v)
  }

  /** Deals the values onto the keys in order, each clamped to 3..18. */
  function Assign(keys: seq<StatKey>, vals: seq<int>, acc: Stats): Stats
    requires |vals| >= |keys|
    decreases |keys|
  {
    if |keys| == 0 then acc else Assign(keys[1..], vals[1..], WithStat(acc, keys[0], ClampStat(vals[0])))
  }

  /** With distinct keys, the stat under the i-th key is the i-th value, clamped; keys not
      listed keep their value. */
  lemma {:induction false} AssignLookup(keys: seq<StatKey>, vals: seq<int>, acc: Stats, k: StatKey)
    requires |vals| >= |keys|
    requires NoDup(keys)
    ensures forall i :: 0 <= i < |keys| && keys[i] == k ==> StatOf(Assign(keys, vals, acc), k) == ClampStat(vals[i])
    ensures k !in keys ==> StatOf(Assign(keys, vals, acc), k) == StatOf(acc, k)
    decreases |keys|
  {
    if |keys| > 0 {
      assert NoDup(keys[1..]);
      AssignLookup(keys[1..], vals[1..], WithStat(acc, keys[0], ClampStat(vals[0])), k);
      forall i | 0 <= i < |keys| && keys[i] == k
        ensures StatOf(Assign(keys, vals, acc), k) == ClampStat(vals[i])
      {
        if i > 0 {
          assert keys[1..][i - 1] == k;
        } else {
          assert k !in keys[1..];
        }
      }
    }
  }

  /** The starting stat block before assignment, every stat 10. */
  const Tens := Stats(10, 10, 10, 10, 10, 10)

  /** The draws of the shuffle, each in [0, 1). */
  predicate DrawsOk(draws: seq<real>)
  {
    |draws| == 5 && forall i :: 0 <= i < 5 ==> 0.0 <= draws[i] < 1.0
  }

  /** The draws `generateStats` consumes: six sets of four d6 faces and five shuffle draws. */
  predicate StatDrawsOk(faces: seq<seq<int>>, shuffle: seq<real>)
  {
    && |faces| == 6 && (forall i :: 0 <= i < 6 ==> |faces[i]| == 4)
    && DrawsOk(shuffle)
  }

  /** The six rolls, best first. */
  function StatRolls(faces: seq<seq<int>>): (r: seq<int>)
    requires |faces| == 6 && forall i :: 0 <= i < 6 ==> |faces[i]| == 4
    ensures |r| == 6 && Sorted(r, false)
  {
    Sort(seq(6, i requires 0 <= i < 6 => Roll4d6DropLowest(faces[i])), false)
  }

  function Swap(s: seq<int>, i: nat, j: nat): (r: seq<int>)
    requires i < |s| && j < |s|
    ensures |r| == |s|
    ensures multiset(r) == multiset(s)
  {
    if i == j then s
    else
      var r := s[i := s[j]][j := s[i]];
      assert multiset(r) == multiset(s) by {
        var t := s[i := s[j]];
        assert multiset(t) == multiset(s) - multiset{s[i]} + multiset{s[j]};
        assert multiset(r) == multiset(t) - multiset{t[j]} + multiset{s[i]};
      }
      r
  }

  /** The Fisher–Yates loop from index `i` down to 1: index `i` swaps with
      `floor(draw * (i + 1))`, the draws taken in order. */
  function Shuffle(s: seq<int>, draws: seq<real>, i: nat): (r: seq<int>)
    requires i < |s| && |draws| >= |s| - 1
    requires forall k :: 0 <= k < |draws| ==> 0.0 <= draws[k] < 1.0
    ensures multiset(r) == multiset(s)
    ensures |r| == |s|
    decreases i
  {
    if i == 0 then s
    else
      var j := ScaledIndex(draws[|s| - 1 - i], i + 1);
      Shuffle(Swap(s, i, j), draws, i - 1)
  }

  /** Deals six rolls to the stats: shuffled onto STR..CHA in chaos mode, best first along
      the class priority in weighted mode. */
  function DealStats(cls: ClassName, mode: StatGenMode, rolls: seq<int>, shuffle: seq<real>): Stats
    requires |rolls| == 6 && DrawsOk(shuffle)
  {
    if mode == Chaos then Assign(Arc.StatKeys, Shuffle(rolls, shuffle, 5), Tens)
    else Assign(StatPriority(cls), rolls, Tens)
  }

  /** `generateStats({ className, mode })` with the dice and shuffle draws passed in. */
  function GenerateStats(cls: ClassName, mode: StatGenMode, faces: seq<seq<int>>, shuffle: seq<real>): Stats
    requires StatDrawsOk(faces, shuffle)
  {
    DealStats(cls, mode, StatRolls(faces), shuffle)
  }

  /** The stat values in STR, DEX, CON, INT, WIS, CHA order. */
  function StatValues(s: Stats): seq<int>
  {
    [s.strength, s.dexterity, s.constitution, s.intelligence, s.wisdom, s.charisma]
  }

  /** Weighted mode gives the class's first-priority stat the best roll, the second the next
      best, and so on; every stat stays within 3..18. */
  lemma WeightedFollowsPriority(cls: ClassName, rolls: seq<int>, shuffle: seq<real>)
    requires |rolls| == 6 && Sorted(rolls, false) && DrawsOk(shuffle)
    ensures var out := DealStats(cls, Weighted, rolls, shuffle);
      var p := StatPriority(cls);
      && StatsInRange(out)
      && (forall i :: 0 <= i < 6 ==> StatOf(out, p[i]) == ClampStat(rolls[i]))
      && (forall i, j :: 0 <= i < j < 6 ==> StatOf(out, p[i]) >= StatOf(out, p[j]))
  {
    var p := StatPriority(cls);
    StatPriorityIsPermutation(cls);
    forall i, j | 0 <= i < j < 6 ensures ClampStat(rolls[i]) >= ClampStat(rolls[j]) {
      assert InOrder(rolls[i], rolls[j], false);
      ClampMonotone(rolls[j], rolls[i], 3, 18);
    }
    forall i | 0 <= i < 6 ensures StatOf(Assign(p, rolls, Tens), p[i]) == ClampStat(rolls[i]) {
      AssignLookup(p, rolls, Tens, p[i]);
    }
    forall k: StatKey ensures 3 <= StatOf(Assign(p, rolls, Tens), k) <= 18 {
      assert k in p;
      var i :| 0 <= i < 6 && p[i] == k;
      AssignLookup(p, rolls, Tens, k);
    }
  }

  /** Dealing six in-range values to STR, DEX, CON, INT, WIS, CHA in order stores them as is. */
  lemma AssignInOrder(vals: seq<int>, acc: Stats)
    requires |vals| == 6 && forall i :: 0 <= i < 6 ==> 3 <= vals[i] <= 18
    ensures StatValues(Assign(Arc.StatKeys, vals, acc)) == vals
  {
    var ks := Arc.StatKeys;
    var out := Assign(ks, vals, acc);
    assert NoDup(ks);
    AssignLookup(ks, vals, acc, STR);
    AssignLookup(ks, vals, acc, DEX);
    AssignLookup(ks, vals, acc, CON);
    AssignLookup(ks, vals, acc, INT);
    AssignLookup(ks, vals, acc, WIS);
    AssignLookup(ks, vals, acc, CHA);
    assert ks[0] == STR && ks[1] == DEX && ks[2] == CON && ks[3] == INT && ks[4] == WIS && ks[5] == CHA;
    assert out.strength == vals[0] && out.dexterity == vals[1] && out.constitution == vals[2];
    assert out.intelligence == vals[3] && out.wisdom == vals[4] && out.charisma == vals[5];
    assert vals == [vals[0], vals[1], vals[2], vals[3], vals[4], vals[5]];
  }

  /** Chaos mode deals the six rolls to the stats in shuffled order: with in-range rolls the
      stat values are exactly the rolls, rearranged. */
  lemma ChaosIsPermutation(cls: ClassName, rolls: seq<int>, shuffle: seq<real>)
    requires |rolls| == 6 && DrawsOk(shuffle)
    requires forall i :: 0 <= i < 6 ==> 3 <= rolls[i] <= 18
    ensures StatsInRange(DealStats(cls, Chaos, rolls, shuffle))
    ensures multiset(StatValues(DealStats(cls, Chaos, rolls, shuffle))) == multiset(rolls)
  {
    var sh := Shuffle(rolls, shuffle, 5);
    ShuffleInRange(rolls, shuffle);
    AssignInOrder(sh, Tens);
    var out := DealStats(cls, Chaos, rolls, shuffle);
    assert out == Assign(Arc.StatKeys, sh, Tens);
    assert StatValues(out) == sh;
    InRangeValues(out);
  }

  /** Shuffling keeps every value of an in-range sequence in range. */
  lemma ShuffleInRange(rolls: seq<int>, shuffle: seq<real>)
    requires |rolls| == 6 && DrawsOk(shuffle)
    requires forall i :: 0 <= i < 6 ==> 3 <= rolls[i] <= 18
    ensures forall i :: 0 <= i < 6 ==> 3 <= Shuffle(rolls, shuffle, 5)[i] <= 18
  {
    var sh := Shuffle(rolls, shuffle, 5);
    forall i | 0 <= i < 6 ensures 3 <= sh[i] <= 18 {
      assert sh[i] in multiset(rolls);
    }
  }

  /** Stats whose six values lie in 3..18 are in range. */
  lemma InRangeValues(s: Stats)
    requires forall i :: 0 <= i < 6 ==> 3 <= StatValues(s)[i] <= 18
    ensures StatsInRange(s)
  {
    var v := StatValues(s);
    assert v[0] == s.strength && v[1] == s.dexterity && v[2] == s.constitution;
    assert v[3] == s.intelligence && v[4] == s.wisdom && v[5] == s.charisma;
  }

  /** Each of the six rolls lies between 3 and 18 when the faces are d6 faces. */
  lemma StatRollsRange(faces: seq<seq<int>>)
    requires |faces| == 6 && forall i :: 0 <= i < 6 ==> |faces[i]| == 4
    requires forall i, j :: 0 <= i < 6 && 0 <= j < 4 ==> 1 <= faces[i][j] <= 6
    ensures forall i :: 0 <= i < 6 ==> 3 <= StatRolls(faces)[i] <= 18
  {
    var rolls := seq(6, i requires 0 <= i < 6 => Roll4d6DropLowest(faces[i]));
    forall k | 0 <= k < 6 ensures 3 <= rolls[k] <= 18 {
      Roll4d6DropLowestSpec(faces[k]);
    }
    forall i | 0 <= i < 6 ensures 3 <= StatRolls(faces)[i] <= 18 {
      assert StatRolls(faces)[i] in multiset(rolls);
    }
  }

  // ---------------------------------------------------------------------------------------
  // New character

  /** The hit die of each class. */
  function HitDieFor(cls: ClassName): HitDieSize
  {
    if cls == Wizard then 6
    else if cls == Rogue || cls == Druid then 8
    else if cls == Fighter || cls == Paladin then 10
    else 12
  }

  /** The creation form's inputs. `stats` and `mode` are optional, as in the source. */
  datatype NewCharacterInput = NewCharacterInput(
    name: Option<string>, sex: Sex, className: ClassName, alignment: Alignment,
    stats: Option<Stats>, mode: Option<StatGenMode>)

  /** `makeNewCharacter(input)`. The dice, shuffle and arc draws are passed in, and so is the
      name `randomName(sex)` would produce, used when the given name trims to nothing. */
  function MakeNewCharacter(input: NewCharacterInput, faces: seq<seq<int>>, shuffle: seq<real>,
                            arcDraw: real, randomName: string): (c: Character)
    requires input.stats.None? ==> StatDrawsOk(faces, shuffle)
    requires 0.0 <= arcDraw < 1.0
    ensures c.level == 1 && c.xp == 0 && c.day == 1 && c.gold == 12
    ensures c.hp == c.maxHp == 10 + ModFromStat(c.stats.constitution) + (if input.className == Barbarian then 4 else 0)
    ensures c.hitDiceMax == 6 && c.hitDiceRemaining == 6
    ensures c.spellSlotsMax == c.spellSlotsRemaining == (if input.className in {Wizard, Druid} then 2 else 0)
    ensures c.campaign.act == 1 && c.campaign.progress == 0 && c.campaign.seenSceneIds == [] && c.campaign.flags == map[]
    ensures input.stats.Some? ==> c.stats == input.stats.value
    ensures input.stats.None? ==> c.stats == GenerateStats(input.className, input.mode.GetOr(Weighted), faces, shuffle)
    ensures c.hitDieSize == HitDieFor(input.className)
    ensures c.campaign == Arc.NewCampaign(arcDraw)
    ensures input.name.Some? && Trim(input.name.value) != "" ==> c.name == Trim(input.name.value)
    ensures !(input.name.Some? && Trim(input.name.value) != "") ==> c.name == randomName
    ensures c.inventory == [] && c.companions == [] && c.party == Party(false, [])
    ensures c.race.None? && c.pendingCombat.None? && c.nextSceneId.None? && c.lastSceneId.None? && c.recentSceneIds == []
  {
    var stats := if input.stats.Some? then input.stats.value
                 else GenerateStats(input.className, input.mode.GetOr(Weighted), faces, shuffle);
    var maxHp := 10 + ModFromStat(stats.constitution) + (if input.className == Barbarian then 4 else 0);
    var slots := if input.className == Wizard || input.className == Druid then 2 else 0;
    var name := if input.name.Some? && |Trim(input.name.value)| > 0 then Trim(input.name.value) else randomName;
    Character(
      name, input.sex, None, input.className, input.alignment,
      1, 0, 1, maxHp, maxHp, 12,
      [], [],
      HitDieFor(input.className), 6, 6,
      slots, slots,
      stats, map[], None, None, None, [],
      Arc.NewCampaign(arcDraw),
      Party(false, []))
  }

  /** A new character with stats in 3..18 (always the case for generated stats) satisfies every
      documented range: hp at least 6, act 1 at progress 0, full hit dice and slots. */
  lemma NewCharacterValid(input: NewCharacterInput, faces: seq<seq<int>>, shuffle: seq<real>, arcDraw: real, randomName: string)
    requires input.stats.None? ==> StatDrawsOk(faces, shuffle)
    requires input.stats.Some? ==> StatsInRange(input.stats.value)
    requires input.stats.None? ==> forall i, j :: 0 <= i < 6 && 0 <= j < 4 ==> 1 <= faces[i][j] <= 6
    requires 0.0 <= arcDraw < 1.0
    ensures ValidCharacter(MakeNewCharacter(input, faces, shuffle, arcDraw, randomName))
    ensures MakeNewCharacter(input, faces, shuffle, arcDraw, randomName).maxHp >= 6
  {
    var c := MakeNewCharacter(input, faces, shuffle, arcDraw, randomName);
    if input.stats.None? {
      StatRollsRange(faces);
      var rolls := StatRolls(faces);
      if input.mode.GetOr(Weighted) == Chaos {
        ChaosIsPermutation(input.className, rolls, shuffle);
      } else {
        WeightedFollowsPriority(input.className, rolls, shuffle);
      }
    }
    assert StatsInRange(c.stats);
    assert 3 <= StatOf(c.stats, CON) <= 18;
    ModFromStatValues(c.stats.constitution);
  }

  /** A new character without supplied stats carries the generated rolls: in weighted mode
      (the default) the i-th stat of the class priority holds the i-th best roll, and in chaos
      mode the six stats are the six rolls rearranged. */
  lemma NewCharacterStats(input: NewCharacterInput, faces: seq<seq<int>>, shuffle: seq<real>, arcDraw: real, randomName: string)
    requires input.stats.None? && StatDrawsOk(faces, shuffle)
    requires forall i, j :: 0 <= i < 6 && 0 <= j < 4 ==> 1 <= faces[i][j] <= 6
    requires 0.0 <= arcDraw < 1.0
    ensures var c := MakeNewCharacter(input, faces, shuffle, arcDraw, randomName);
      var rolls := StatRolls(faces);
      && (input.mode.GetOr(Weighted) == Weighted ==>
            forall i :: 0 <= i < 6 ==> StatOf(c.stats, StatPriority(input.className)[i]) == rolls[i])
      && (input.mode.GetOr(Weighted) == Chaos ==> multiset(StatValues(c.stats)) == multiset(rolls))
  {
    var c := MakeNewCharacter(input, faces, shuffle, arcDraw, randomName);
    var rolls := StatRolls(faces);
    StatRollsRange(faces);
    if input.mode.GetOr(Weighted) == Chaos {
      ChaosIsPermutation(input.className, rolls, shuffle);
    } else {
      WeightedFollowsPriority(input.className, rolls, shuffle);
    }
  }
}

=== FILE: flow.dfy ===
/** The game loop's hand-offs in `src/App.tsx`: applying a roll, the five combat buttons,
    settling a won or fled fight, and the revive button on the death screen. Log entry ids and
    timestamps are left out; every log line carries the character's day. */
module Flow {
  import opened Wrappers
  import opened Utils
  import opened Text
  import opened Types
  import Combat
  import Rolls
  import Outcomes

  const DiedText := "You died."

  // ---------------------------------------------------------------------------------------
  // Applying a roll

  /** Where a resolved roll leads: the death screen, a fight, or the outcome card. */
  datatype RollStage =
    | Died(c: Character, log: seq<LogEntry>)
    | Fight(c: Character, log: seq<LogEntry>, combat: CombatState)
    | Shown(c: Character, log: seq<LogEntry>, scene: Scene, outcomeText: string)

  /** `applyRoll(roll)`: resolves the pending roll with the given face, then checks for death
      first, then starts a fight an outcome asked for (clearing the hand-off), and otherwise
      shows the outcome. */
  function ApplyRoll(c0: Character, scene: Scene, pending: PendingRoll, roll: int): (r: Result<RollStage>)
    ensures r.Err? <==> Rolls.ResolveRoll(c0, scene, pending, Some(roll), roll).Err?
    ensures r.Ok? ==> var res := Rolls.ResolveRoll(c0, scene, pending, Some(roll), roll).value;
      && (res.c.hp <= 0 <==> r.value.Died?)
      && (r.value.Died? ==> r.value.c == res.c && r.value.log == res.log + [LogEntry(res.c.day, DiedText)])
      && (r.value.Fight? <==> res.c.hp > 0 && res.c.pendingCombat.Some?)
      && (r.value.Fight? ==> r.value.c == res.c.(pendingCombat := None)
                             && r.value.combat == res.c.pendingCombat.value && r.value.log == res.log)
      && (r.value.Shown? ==> r.value.c == res.c && r.value.outcomeText == res.outcomeText && r.value.scene == scene)
  {
    var res :- Rolls.ResolveRoll(c0, scene, pending, Some(roll), roll);
    var c := res.c;
    if c.hp <= 0 then
      Ok(Died(c, res.log + [LogEntry(c.day, DiedText)]))
    else if c.pendingCombat.Some? then
      Ok(Fight(c.(pendingCombat := None), res.log, c.pendingCombat.value))
    else
      Ok(Shown(c, res.log, scene, res.outcomeText))
  }

  /** A fight started from a roll begins at round 1 with no flee progress, and the character
      entering it no longer carries the hand-off, so the same fight cannot start twice. */
  lemma ApplyRollStartsFightOnce(c0: Character, scene: Scene, pending: PendingRoll, roll: int)
    requires ValidCharacter(c0)
    requires forall i :: 0 <= i < |scene.choices| ==>
               Outcomes.OutcomeOk(scene.choices[i].onSuccess) && Outcomes.OutcomeOk(scene.choices[i].onFail)
    requires ApplyRoll(c0, scene, pending, roll).Ok? && ApplyRoll(c0, scene, pending, roll).value.Fight?
    ensures var st := ApplyRoll(c0, scene, pending, roll).value;
      && st.c.pendingCombat.None? && ValidCombat(st.combat) && ValidCharacter(st.c) && st.c.hp > 0
  {
    Rolls.ResolveRollValid(c0, scene, pending, Some(roll), roll);
  }

  // ---------------------------------------------------------------------------------------
  // Settling a fight

  datatype EndKind = Win | Flee

  /** `combatXpReward(enemy)`: three experience points per point of the enemy's maximum hp,
      kept within 20..60. The product is an integer, so rounding leaves it unchanged. */
  function CombatXpReward(maxHp: int): (xp: int)
    ensures 20 <= xp <= 60
    ensures 20 <= 3 * maxHp <= 60 ==> xp == 3 * maxHp
  {
    Clamp(maxHp * 3, 20, 60)
  }

  /** The experience a settled fight grants: the full reward for a win, half of it (rounded
      down, at least 10) for an escape. The reward is never below 20, so the floor of 10 never
      binds and an escape pays exactly half the reward, rounded down. */
  function XpGain(s: CombatState, kind: EndKind): (g: int)
    ensures kind == Win ==> g == CombatXpReward(s.enemy.maxHp)
    ensures kind == Flee ==> 10 <= g <= 30
    ensures kind == Flee ==> 2 * g <= CombatXpReward(s.enemy.maxHp) < 2 * g + 2
  {
    var base := CombatXpReward(s.enemy.maxHp);
    if kind == Win then base else Max(10, base / 2)
  }

  /** Escaping never pays more than winning, and pays at least half of it. */
  lemma FleePaysLess(s: CombatState)
    ensures XpGain(s, Flee) <= XpGain(s, Win)
    ensures 2 * XpGain(s, Flee) >= XpGain(s, Win) - 1
  {
  }

  /** The terminal branch a settled fight follows. */
  function TerminalOf(s: CombatState, kind: EndKind): Terminal
  {
    if kind == Win then s.onWin else s.onFlee
  }

  datatype Settled = Settled(c: Character, log: seq<LogEntry>, title: string, outcomeText: string)

  /** `finalizeCombatOutcome(...)` without the level-up step: grants the experience, follows a
      forced next scene if the branch names one, and logs the action, the experience and the
      branch's lines. */
  function Finalize(c: Character, s: CombatState, kind: EndKind, actionText: string): (r: Settled)
    ensures r.c.xp == c.xp + XpGain(s, kind)
    ensures TerminalOf(s, kind).nextSceneId.Some? ==> r.c.nextSceneId == TerminalOf(s, kind).nextSceneId
    ensures TerminalOf(s, kind).nextSceneId.None? ==> r.c.nextSceneId == c.nextSceneId
    ensures r.c == c.(xp := r.c.xp, nextSceneId := r.c.nextSceneId)
    ensures r.outcomeText == TerminalOf(s, kind).text
    ensures |r.log| == 2 + |TerminalOf(s, kind).logs|
    ensures r.log[0] == LogEntry(c.day, actionText)
    ensures forall i :: 0 <= i < |r.log| ==> r.log[i].day == c.day
  {
    var out := TerminalOf(s, kind);
    var gain := XpGain(s, kind);
    var c2 := c.(xp := c.xp + gain);
    var c3 := if out.nextSceneId.Some? then c2.(nextSceneId := out.nextSceneId) else c2;
    var extra := seq(|out.logs|, i requires 0 <= i < |out.logs| => LogEntry(c3.day, out.logs[i]));
    Settled(c3, [LogEntry(c3.day, actionText), LogEntry(c3.day, "+" + IntToString(gain) + " XP.")] + extra,
            if kind == Win then "Victory" else "Escaped", out.text)
  }

  /** Settling keeps a valid character valid. */
  lemma FinalizeValid(c: Character, s: CombatState, kind: EndKind, actionText: string)
    requires ValidCharacter(c)
    ensures ValidCharacter(Finalize(c, s, kind, actionText).c)
  {
  }

  // ---------------------------------------------------------------------------------------
  // One combat button press

  datatype Action = WeaponButton | CantripButton | SpellButton | GuardButton | RunButton

  /** The dice one button press consumes: the player's d20 and damage faces (the run check
      uses the same d20), the enemy's d20 and damage faces, and the draw of its next intent. */
  datatype StepDraws = StepDraws(d20: int, dmgFaces: seq<int>, enemyD20: int, enemyFaces: seq<int>, intentDraw: real)

  function KindOf(a: Action): Combat.AttackKind
  {
    match a
    case CantripButton => Combat.CantripAttack
    case SpellButton => Combat.SpellAttack
    case _ => Combat.WeaponAttack
  }

  predicate IsAttack(a: Action)
  {
    a == WeaponButton || a == CantripButton || a == SpellButton
  }

  /** The cantrip and spell buttons exist only for classes that have one, judged by the class
      tables of `src/combat.ts`. The combat screen asks helpers that module does not export. */
  predicate Offered(c: Character, a: Action)
  {
    && (a == CantripButton ==> Combat.CantripForClass(c.className).Some?)
    && (a == SpellButton ==> Combat.SpellForClass(c.className).Some?)
  }

  /** The draws fit the press: one damage face per die of the chosen attack and of the
      enemy's declared attack, and an intent draw in [0, 1). */
  predicate DrawsFit(c: Character, s: CombatState, a: Action, d: StepDraws)
  {
    && (IsAttack(a) ==> |d.dmgFaces| == Combat.ChosenAttack(c.className, KindOf(a)).dmg.dice)
    && Combat.EnemyFacesFit(s, d.enemyFaces)
    && 0.0 <= d.intentDraw < 1.0
  }

  /** What a button press leads to. */
  datatype After =
    | Ongoing(c: Character, combat: CombatState, log: seq<LogEntry>)
    | Over(kind: EndKind, settled: Settled)
    | Dead(c: Character, log: seq<LogEntry>)
    | Refused(log: seq<LogEntry>)

  /** Whether a button's handler checks for death after the enemy's turn: in the source only
      the weapon and guard handlers do; the corrected loop checks after every enemy turn. */
  predicate ChecksDeath(a: Action, corrected: bool)
  {
    corrected || a == WeaponButton || a == GuardButton
  }

  /** The enemy's turn after the player's action, and the handler's death check if it has one. */
  function EnemyPhase(c: Character, s: CombatState, actionText: string, d: StepDraws, deathCheck: bool): (r: After)
    requires Combat.EnemyFacesFit(s, d.enemyFaces)
    requires 0.0 <= d.intentDraw < 1.0
    ensures r.Ongoing? || r.Dead?
    ensures deathCheck ==> (r.Dead? <==> Combat.EnemyTurn(c, s, d.enemyD20, d.enemyFaces, d.intentDraw).c.hp <= 0)
    ensures !deathCheck ==> r.Ongoing?
    ensures r.c == Combat.EnemyTurn(c, s, d.enemyD20, d.enemyFaces, d.intentDraw).c
  {
    var e := Combat.EnemyTurn(c, s, d.enemyD20, d.enemyFaces, d.intentDraw);
    var log := [LogEntry(e.c.day, actionText), LogEntry(e.c.day, e.text)];
    if deathCheck && e.c.hp <= 0 then Dead(e.c, log + [LogEntry(e.c.day, DiedText)])
    else Ongoing(e.c, e.combat, log)
  }

  /** One press of a combat button, with the death check as each handler has it
      (`corrected == false`) or after every enemy turn (`corrected == true`). */
  function CombatStepWith(c: Character, s: CombatState, a: Action, d: StepDraws, corrected: bool): (r: After)
    requires Offered(c, a) && DrawsFit(c, s, a, d)
    ensures r.Refused? <==> a == SpellButton && c.spellSlotsRemaining <= 0
    ensures r.Refused? ==> r.log == [LogEntry(c.day, Combat.NoSlotsText)]
    ensures (r.Over? && r.kind == Win) <==>
              && IsAttack(a) && !(a == SpellButton && c.spellSlotsRemaining <= 0)
              && Combat.PlayerAttack(c, s, KindOf(a), d.d20, d.dmgFaces).combat.enemy.hp <= 0
    ensures r.Over? && r.kind == Win ==>
              var p := Combat.PlayerAttack(c, s, KindOf(a), d.d20, d.dmgFaces);
              r.settled == Finalize(p.c, p.combat, Win, p.text)
    ensures (r.Over? && r.kind == Flee) <==> a == RunButton && Combat.PlayerRun(c, s, d.d20).combat.fleeProgress >= 100
    ensures r.Over? && r.kind == Flee ==>
              var p := Combat.PlayerRun(c, s, d.d20);
              r.settled == Finalize(c, p.combat, Flee, p.text)
    ensures a == GuardButton ==> r.Ongoing? || r.Dead?
  {
    if IsAttack(a) then
      var r := Combat.PlayerAttack(c, s, KindOf(a), d.d20, d.dmgFaces);
      if a == SpellButton && r.text == Combat.NoSlotsText then
        Refused([LogEntry(c.day, r.text)])
      else if r.combat.enemy.hp <= 0 then
        Over(Win, Finalize(r.c, r.combat, Win, r.text))
      else
        EnemyPhase(r.c, r.combat, r.text, d, ChecksDeath(a, corrected))
    else if a == GuardButton then
      EnemyPhase(c, Combat.PlayerGuard(s), "guard:raised", d, ChecksDeath(a, corrected))
    else
      var r := Combat.PlayerRun(c, s, d.d20);
      if r.combat.fleeProgress >= 100 then
        Over(Flee, Finalize(c, r.combat, Flee, r.text))
      else
        EnemyPhase(c, r.combat, r.text, d, ChecksDeath(a, corrected))
  }

  /** The combat buttons as the source wires them. */
  function CombatStepAsWritten(c: Character, s: CombatState, a: Action, d: StepDraws): After
    requires Offered(c, a) && DrawsFit(c, s, a, d)
  {
    CombatStepWith(c, s, a, d, false)
  }

  /** The combat buttons with the death check after every enemy turn. */
  function CombatStep(c: Character, s: CombatState, a: Action, d: StepDraws): After
    requires Offered(c, a) && DrawsFit(c, s, a, d)
  {
    CombatStepWith(c, s, a, d, true)
  }

  /** With the death check everywhere, a fight goes on only while the player stands, and the
      death screen comes exactly when the player has fallen. */
  lemma CombatStepDeath(c: Character, s: CombatState, a: Action, d: StepDraws)
    requires Offered(c, a) && DrawsFit(c, s, a, d)
    ensures CombatStep(c, s, a, d).Ongoing? ==> CombatStep(c, s, a, d).c.hp > 0
    ensures CombatStep(c, s, a, d).Dead? ==> CombatStep(c, s, a, d).c.hp <= 0
  {
  }

  /** As written, a cantrip that leaves the enemy standing, followed by an enemy hit that
      brings the player to 0 hp, keeps the fight going with a dead player; the corrected step
      shows the death screen instead. */
  lemma CantripIgnoresDeath(c: Character, s: CombatState, d: StepDraws)
    requires Offered(c, CantripButton) && DrawsFit(c, s, CantripButton, d)
    requires Combat.PlayerAttack(c, s, Combat.CantripAttack, d.d20, d.dmgFaces).combat.enemy.hp > 0
    requires Combat.EnemyTurn(c, Combat.PlayerAttack(c, s, Combat.CantripAttack, d.d20, d.dmgFaces).combat,
                              d.enemyD20, d.enemyFaces, d.intentDraw).c.hp <= 0
    ensures CombatStepAsWritten(c, s, CantripButton, d).Ongoing?
    ensures CombatStepAsWritten(c, s, CantripButton, d).c.hp <= 0
    ensures CombatStep(c, s, CantripButton, d).Dead?
  {
    var r := Combat.PlayerAttack(c, s, Combat.CantripAttack, d.d20, d.dmgFaces);
    assert r.c == c;
    assert r.combat.enemy.intent == s.enemy.intent;
  }

  /** The two loops differ only where the source skips the check: the as-written loop then
      keeps fighting where the corrected one shows the death screen, with the same character. */
  lemma CombatStepAgrees(c: Character, s: CombatState, a: Action, d: StepDraws)
    requires Offered(c, a) && DrawsFit(c, s, a, d)
    ensures a == WeaponButton || a == GuardButton ==> CombatStepAsWritten(c, s, a, d) == CombatStep(c, s, a, d)
    ensures CombatStepAsWritten(c, s, a, d) != CombatStep(c, s, a, d) ==>
      && CombatStep(c, s, a, d).Dead? && CombatStepAsWritten(c, s, a, d).Ongoing?
      && CombatStep(c, s, a, d).c == CombatStepAsWritten(c, s, a, d).c
  {
  }

  /** What a press promises: a fight that goes on keeps both sides within their ranges and
      counts one more round, a win comes from an attack, a flight from the run button, and a
      refusal only from the spell button without a slot. */
  predicate StepKeepsRanges(c: Character, s: CombatState, a: Action, r: After)
  {
    && (r.Ongoing? ==> ValidCharacter(r.c) && ValidCombat(r.combat) && r.combat.round == s.round + 1)
    && (r.Over? && r.kind == Win ==> IsAttack(a) && ValidCharacter(r.settled.c))
    && (r.Over? && r.kind == Flee ==> a == RunButton && ValidCharacter(r.settled.c))
    && (r.Refused? ==> a == SpellButton && c.spellSlotsRemaining <= 0)
  }

  /** A press keeps both sides within their ranges, and counts a round while the fight goes
      on; a win comes only from an attack, a flight only from the run button. When each of
      these happens is stated by `CombatStepWith`. */
  lemma CombatStepValid(c: Character, s: CombatState, a: Action, d: StepDraws)
    requires Offered(c, a) && DrawsFit(c, s, a, d)
    requires ValidCharacter(c) && ValidCombat(s)
    ensures var r := CombatStep(c, s, a, d);
      && (r.Ongoing? ==> ValidCharacter(r.c) && ValidCombat(r.combat) && r.combat.round == s.round + 1)
      && (r.Over? && r.kind == Win ==> IsAttack(a) && ValidCharacter(r.settled.c))
      && (r.Over? && r.kind == Flee ==> a == RunButton && ValidCharacter(r.settled.c))
      && (r.Refused? ==> a == SpellButton && c.spellSlotsRemaining <= 0)
  {
    if IsAttack(a) {
      AttackStepValid(c, s, a, d);
    } else if a == GuardButton {
      GuardStepValid(c, s, d);
    } else {
      RunStepValid(c, s, d);
    }
  }

  /** The attack buttons keep the ranges. */
  lemma AttackStepValid(c: Character, s: CombatState, a: Action, d: StepDraws)
    requires Offered(c, a) && DrawsFit(c, s, a, d) && IsAttack(a)
    requires ValidCharacter(c) && ValidCombat(s)
    ensures StepKeepsRanges(c, s, a, CombatStep(c, s, a, d))
  {
    var p := Combat.PlayerAttack(c, s, KindOf(a), d.d20, d.dmgFaces);
    Combat.PlayerAttackValid(c, s, KindOf(a), d.d20, d.dmgFaces);
    var r := CombatStep(c, s, a, d);
    if a == SpellButton && p.text == Combat.NoSlotsText {
      assert r == Refused([LogEntry(c.day, p.text)]);
    } else if p.combat.enemy.hp <= 0 {
      assert r == Over(Win, Finalize(p.c, p.combat, Win, p.text));
      FinalizeValid(p.c, p.combat, Win, p.text);
    } else {
      assert r == EnemyPhase(p.c, p.combat, p.text, d, ChecksDeath(a, true));
      AttackGoesOnValid(c, s, a, d);
    }
  }

  /** An attack that leaves the enemy standing hands the turn to the enemy within range. */
  lemma AttackGoesOnValid(c: Character, s: CombatState, a: Action, d: StepDraws)
    requires Offered(c, a) && DrawsFit(c, s, a, d) && IsAttack(a)
    requires ValidCharacter(c) && ValidCombat(s)
    requires var p := Combat.PlayerAttack(c, s, KindOf(a), d.d20, d.dmgFaces);
      !(a == SpellButton && p.text == Combat.NoSlotsText) && p.combat.enemy.hp > 0
    ensures CombatStep(c, s, a, d).Ongoing? ==>
      var r := CombatStep(c, s, a, d);
      ValidCharacter(r.c) && ValidCombat(r.combat) && r.combat.round == s.round + 1
  {
    var p := Combat.PlayerAttack(c, s, KindOf(a), d.d20, d.dmgFaces);
    Combat.PlayerAttackValid(c, s, KindOf(a), d.d20, d.dmgFaces);
    assert p.combat.enemy.intent == s.enemy.intent;
    Combat.EnemyTurnValid(p.c, p.combat, d.enemyD20, d.enemyFaces, d.intentDraw);
  }

  /** The guard button keeps the ranges. */
  lemma GuardStepValid(c: Character, s: CombatState, d: StepDraws)
    requires Offered(c, GuardButton) && DrawsFit(c, s, GuardButton, d)
    requires ValidCharacter(c) && ValidCombat(s)
    ensures StepKeepsRanges(c, s, GuardButton, CombatStep(c, s, GuardButton, d))
  {
    Combat.EnemyTurnValid(c, Combat.PlayerGuard(s), d.enemyD20, d.enemyFaces, d.intentDraw);
  }

  /** The run button keeps the ranges. */
  lemma RunStepValid(c: Character, s: CombatState, d: StepDraws)
    requires Offered(c, RunButton) && DrawsFit(c, s, RunButton, d)
    requires ValidCharacter(c) && ValidCombat(s)
    ensures StepKeepsRanges(c, s, RunButton, CombatStep(c, s, RunButton, d))
  {
    var p := Combat.PlayerRun(c, s, d.d20);
    Combat.RunProgresses(c, s, d.d20);
    if p.combat.fleeProgress >= 100 {
      FinalizeValid(c, p.combat, Flee, p.text);
    } else {
      Combat.EnemyTurnValid(c, p.combat, d.enemyD20, d.enemyFaces, d.intentDraw);
    }
  }

  // ---------------------------------------------------------------------------------------
  // Revive

  const NoHitDiceText := "No hit dice remaining. You cannot revive."

  /** The revive button: refused without a hit die left; otherwise spends one hit die and
      comes back with the hit-die face plus the CON modifier, at least 1 and at most max hp.
      The hit-die face is passed in. */
  function Revive(c: Character, face: int): (r: Result<Character>)
    ensures r.Err? <==> c.hitDiceRemaining <= 0
    ensures r.Err? ==> r.error == NoHitDiceText
    ensures r.Ok? && c.maxHp >= 1 ==> 1 <= r.value.hp <= c.maxHp
    ensures r.Ok? && 1 <= face + ModFromStat(c.stats.constitution) <= c.maxHp ==>
              r.value.hp == face + ModFromStat(c.stats.constitution)
    ensures r.Ok? && c.maxHp >= 1 && face + ModFromStat(c.stats.constitution) >= c.maxHp ==> r.value.hp == c.maxHp
    ensures r.Ok? && face + ModFromStat(c.stats.constitution) <= 1 ==> r.value.hp == 1
    ensures r.Ok? && c.hitDiceRemaining <= c.hitDiceMax ==> r.value.hitDiceRemaining == c.hitDiceRemaining - 1
    ensures r.Ok? ==> r.value == c.(hp := r.value.hp, hitDiceRemaining := r.value.hitDiceRemaining)
  {
    if c.hitDiceRemaining <= 0 then Err(NoHitDiceText)
    else
      var heal := Max(1, face + ModFromStat(c.stats.constitution));
      Ok(c.(hp := Clamp(heal, 1, c.maxHp), hitDiceRemaining := Clamp(c.hitDiceRemaining - 1, 0, c.hitDiceMax)))
  }

  /** Dying and reviving over and over: each death is followed by a revive with the next face. */
  function ReviveMany(c: Character, faces: seq<int>): Result<Character>
    decreases |faces|
  {
    if |faces| == 0 then Ok(c)
    else
      match Revive(c, faces[0])
      case Err(e) => Err(e)
      case Ok(c1) => ReviveMany(c1.(hp := 0), faces[1..])
  }

  /** Revives are limited by hit dice: a valid character can revive exactly as many times as
      it has hit dice left, and the next attempt is refused. */
  lemma {:induction false} RevivesRunOut(c: Character, faces: seq<int>)
    requires 0 <= c.hitDiceRemaining <= c.hitDiceMax
    ensures ReviveMany(c, faces).Ok? <==> |faces| <= c.hitDiceRemaining
    decreases |faces|
  {
    if |faces| > 0 {
      if c.hitDiceRemaining > 0 {
        var c1 := Revive(c, faces[0]).value;
        RevivesRunOut(c1.(hp := 0), faces[1..]);
      }
    }
  }

  /** A revive brings a valid character back with at least 1 hp and keeps it valid. */
  lemma ReviveValid(c: Character, face: int)
    requires ValidCharacter(c) && c.maxHp >= 1
    requires Revive(c, face).Ok?
    ensures ValidCharacter(Revive(c, face).value)
    ensures Revive(c, face).value.hp >= 1
  {
  }
}

=== FILE: mimic_finale.dfy ===
/** The mimic arc's finale scene, `src/game2.mimicFinale.ts`. Narrative text is kept as short
    labels. */
module MimicFinale {
  import opened Utils
  import opened Types
  import Arc
  import Outcomes

  const Chesty := "Chesty"

  /** The companion record the party choice appends, at the given relationship. */
  function ChestyCompanion(relationship: int): Companion
  {
    Companion("comp_chesty", Chesty, relationship)
  }

  const PartyChoice := SceneChoice("party", "choice:make-it-official", CHA, 14,
    Outcome(JoinEffects(6, 65, 20),
            "finale:party:success", ["log:new-companion:chesty", "log:relationship:chesty"]),
    Outcome([LoseHp(2)] + JoinEffects(4, 55, 16),
            "finale:party:fail", ["log:new-companion:chesty", "log:relationship:chesty"]))

  const BanishChoice := SceneChoice("banish", "choice:banish-it", WIS, 13,
    Outcome([AddGold(3), AddXp(3), SetFlag("mimic_banished"), Advance(18)], "finale:banish:success", []),
    Outcome([LoseGold(2), SetFlag("mimic_banished"), Advance(14)], "finale:banish:fail", []))

  const WeaponizeChoice := SceneChoice("weaponize", "choice:weaponize-it", INT, 15,
    Outcome([AddXp(5), AddGold(2), SetFlag("mimic_weapon"), Advance(18)], "finale:weaponize:success", []),
    Outcome([LoseHp(3), SetFlag("mimic_weapon"), Advance(14)], "finale:weaponize:fail", []))

  /** `mimicFinaleScene(...)`: "Chesty's Ultimatum" at camp. */
  const FinaleScene := Scene(Arc.FinaleMimicId, "Camp", "Chesty’s Ultimatum", "finale:body",
                             [PartyChoice, BanishChoice, WeaponizeChoice])

  /** The outcome a choice resolves to. */
  function OutcomeOf(ch: SceneChoice, success: bool): Outcome
  {
    if success then ch.onSuccess else ch.onFail
  }

  /** The effects both party outcomes share, after the failure's hp loss. */
  function JoinEffects(xp: nat, relationship: int, advance: int): seq<Effect>
  {
    [AddXp(xp), JoinParty(Chesty), AddCompanion(ChestyCompanion(relationship)), SetFlag("mimic_party"), Advance(advance)]
  }

  /** What the shared party effects do. */
  lemma JoinEffectsApplied(c: Character, xp: nat, relationship: int, advance: int)
    ensures var r := Outcomes.ApplyEffects(c, JoinEffects(xp, relationship, advance));
      && r.party == Outcomes.Joined(c.party, Chesty)
      && r.companions == c.companions + [ChestyCompanion(relationship)]
      && FlagSet(r.campaign.flags, "mimic_party")
      && r.campaign.progress == Clamp(c.campaign.progress + advance, 0, 100)
      && r.xp == c.xp + xp && r.gold == c.gold && r.hp == c.hp
  {
    var es := JoinEffects(xp, relationship, advance);
    var c1 := Outcomes.ApplyEffect(c, es[0]);
    assert Outcomes.ApplyEffects(c, es) == Outcomes.ApplyEffects(c1, es[1..]);
    var c2 := Outcomes.ApplyEffect(c1, es[1]);
    assert Outcomes.ApplyEffects(c1, es[1..]) == Outcomes.ApplyEffects(c2, es[2..]);
    var c3 := Outcomes.ApplyEffect(c2, es[2]);
    assert Outcomes.ApplyEffects(c2, es[2..]) == Outcomes.ApplyEffects(c3, es[3..]);
    var c4 := Outcomes.ApplyEffect(c3, es[3]);
    assert Outcomes.ApplyEffects(c3, es[3..]) == Outcomes.ApplyEffects(c4, es[4..]);
    var c5 := Outcomes.ApplyEffect(c4, es[4]);
    assert Outcomes.ApplyEffects(c4, es[4..]) == Outcomes.ApplyEffects(c5, es[5..]);
    assert es[5..] == [];
  }

  /** Making it official and succeeding: Chesty joins the party and the companions at
      relationship 65, `mimic_party` is set and the arc advances by 20. */
  lemma PartySuccess(c: Character)
    ensures var r := Outcomes.ApplyEffects(c, PartyChoice.onSuccess.effects);
      && r.party == Outcomes.Joined(c.party, Chesty) && r.party.inParty && Chesty in r.party.members
      && r.companions == c.companions + [ChestyCompanion(65)]
      && FlagSet(r.campaign.flags, "mimic_party")
      && r.campaign.progress == Clamp(c.campaign.progress + 20, 0, 100)
      && r.xp == c.xp + 6 && r.gold == c.gold && r.hp == c.hp
  {
    JoinEffectsApplied(c, 6, 65, 20);
  }

  /** Making it official and failing: the same, at relationship 55, advancing by 16 and
      costing 2 hp. */
  lemma PartyFail(c: Character)
    ensures var r := Outcomes.ApplyEffects(c, PartyChoice.onFail.effects);
      && r.party.inParty && Chesty in r.party.members
      && r.companions == c.companions + [ChestyCompanion(55)]
      && FlagSet(r.campaign.flags, "mimic_party")
      && r.campaign.progress == Clamp(c.campaign.progress + 16, 0, 100)
      && r.xp == c.xp + 4 && r.gold == c.gold && r.hp == Clamp(c.hp - 2, 0, c.maxHp)
  {
    var c1 := c.(hp := Clamp(c.hp - 2, 0, c.maxHp));
    assert Outcomes.ApplyEffects(c, [LoseHp(2)]) == c1;
    Outcomes.ApplyEffectsAppend(c, [LoseHp(2)], JoinEffects(4, 55, 16));
    JoinEffectsApplied(c1, 4, 55, 16);
  }

  /** Applying the shared party effects twice appends the companion twice but keeps the
      members as the first application left them. */
  lemma JoinEffectsTwice(c: Character, xp: nat, relationship: int, advance: int)
    requires NoDup(c.party.members)
    ensures var es := JoinEffects(xp, relationship, advance);
      var once := Outcomes.ApplyEffects(c, es);
      var twice := Outcomes.ApplyEffects(once, es);
      && twice.companions == c.companions + [ChestyCompanion(relationship), ChestyCompanion(relationship)]
      && twice.party.members == once.party.members
  {
    var es := JoinEffects(xp, relationship, advance);
    var once := Outcomes.ApplyEffects(c, es);
    var twice := Outcomes.ApplyEffects(once, es);
    JoinEffectsApplied(c, xp, relationship, advance);
    JoinEffectsApplied(once, xp, relationship, advance);
    var m := ChestyCompanion(relationship);
    assert c.companions + [m] + [m] == c.companions + [m, m];
    Outcomes.JoinPartyAppends(c.party, Chesty);
  }

  /** Resolving the party choice twice, which the repeated finale allows, appends a second
      Chesty companion while the party still lists Chesty once. */
  lemma PartyTwiceDuplicatesCompanion(c: Character)
    requires NoDup(c.party.members)
    ensures var once := Outcomes.ApplyEffects(c, PartyChoice.onSuccess.effects);
      var twice := Outcomes.ApplyEffects(once, PartyChoice.onSuccess.effects);
      && twice.companions == c.companions + [ChestyCompanion(65), ChestyCompanion(65)]
      && twice.party.members == once.party.members
  {
    JoinEffectsTwice(c, 6, 65, 20);
  }

  /** Banishing the mimic leaves the party and companions alone, sets `mimic_banished` and
      advances the arc by 18 on success, 14 on failure. */
  lemma BanishKeepsParty(c: Character, success: bool)
    ensures var r := Outcomes.ApplyEffects(c, OutcomeOf(BanishChoice, success).effects);
      && r.party == c.party && r.companions == c.companions
      && FlagSet(r.campaign.flags, "mimic_banished")
      && r.campaign.progress == Clamp(c.campaign.progress + (if success then 18 else 14), 0, 100)
  {
    var es := OutcomeOf(BanishChoice, success).effects;
    var c1 := Outcomes.ApplyEffect(c, es[0]);
    assert Outcomes.ApplyEffects(c, es) == Outcomes.ApplyEffects(c1, es[1..]);
    var c2 := Outcomes.ApplyEffect(c1, es[1]);
    assert Outcomes.ApplyEffects(c1, es[1..]) == Outcomes.ApplyEffects(c2, es[2..]);
    var c3 := Outcomes.ApplyEffect(c2, es[2]);
    assert Outcomes.ApplyEffects(c2, es[2..]) == Outcomes.ApplyEffects(c3, es[3..]);
    if success {
      var c4 := Outcomes.ApplyEffect(c3, es[3]);
      assert Outcomes.ApplyEffects(c3, es[3..]) == Outcomes.ApplyEffects(c4, es[4..]);
      assert es[4..] == [];
    } else {
      assert es[3..] == [];
    }
  }

  /** Weaponizing the mimic leaves the party and companions alone, sets `mimic_weapon` and
      advances the arc by 18 on success, 14 on failure. */
  lemma WeaponizeKeepsParty(c: Character, success: bool)
    ensures var r := Outcomes.ApplyEffects(c, OutcomeOf(WeaponizeChoice, success).effects);
      && r.party == c.party && r.companions == c.companions
      && FlagSet(r.campaign.flags, "mimic_weapon")
      && r.campaign.progress == Clamp(c.campaign.progress + (if success then 18 else 14), 0, 100)
  {
    var es := OutcomeOf(WeaponizeChoice, success).effects;
    var c1 := Outcomes.ApplyEffect(c, es[0]);
    assert Outcomes.ApplyEffects(c, es) == Outcomes.ApplyEffects(c1, es[1..]);
    var c2 := Outcomes.ApplyEffect(c1, es[1]);
    assert Outcomes.ApplyEffects(c1, es[1..]) == Outcomes.ApplyEffects(c2, es[2..]);
    var c3 := Outcomes.ApplyEffect(c2, es[2]);
    assert Outcomes.ApplyEffects(c2, es[2..]) == Outcomes.ApplyEffects(c3, es[3..]);
    if success {
      var c4 := Outcomes.ApplyEffect(c3, es[3]);
      assert Outcomes.ApplyEffects(c3, es[3..]) == Outcomes.ApplyEffects(c4, es[4..]);
      assert es[4..] == [];
    } else {
      assert es[3..] == [];
    }
  }
}

=== FILE: outcomes.dfy ===
/** Authored scene outcomes. In the source each outcome is a lambda that spreads the character
    and rewrites a few fields, often through `setArcFlag`, `advanceArc` and `setNext`; here it is
    the list of those rewrites, applied in order. */
module Outcomes {
  import opened Wrappers
  import opened Utils
  import opened Types
  import Arc
  import Combat

  /** The gold ceiling of every `clamp(ch.gold - n, 0, 999999)`. */
  const GoldCeiling := 999999

  /** `[...new Set(members)]`: the members without repeats, each kept at its first occurrence. */
  function Dedup(s: seq<string>): (r: seq<string>)
    ensures NoDup(r)
    ensures forall x :: x in r <==> x in s
    ensures |r| <= |s|
  {
    if |s| == 0 then []
    else
      var d := Dedup(s[..|s| - 1]);
      var x := s[|s| - 1];
      assert forall y :: y in s <==> y in s[..|s| - 1] || y == x;
      if x in d then d else NoDupAppend(d, x); d + [x]
  }

  /** A list that already has no repeats is left exactly as it is. */
  lemma {:induction false} DedupKeepsDistinct(s: seq<string>)
    requires NoDup(s)
    ensures Dedup(s) == s
  {
    if |s| > 0 {
      var init := s[..|s| - 1];
      assert NoDup(init);
      DedupKeepsDistinct(init);
      assert s[|s| - 1] !in init;
      assert init + [s[|s| - 1]] == s;
    }
  }

  /** The party after a `JoinParty(name)` effect. */
  function Joined(p: Party, name: string): (r: Party)
    ensures r.inParty
    ensures NoDup(r.members)
    ensures forall x :: x in r.members <==> x in p.members || x == name
  {
    Party(true, Dedup(p.members + [name]))
  }

  /** Joining twice is joining once, and a new name on a repeat-free list is appended at
      the end with nobody reordered. */
  lemma JoinPartyAppends(p: Party, name: string)
    requires NoDup(p.members)
    ensures name in p.members ==> Joined(p, name).members == p.members
    ensures name !in p.members ==> Joined(p, name).members == p.members + [name]
    ensures Joined(Joined(p, name), name) == Joined(p, name)
  {
    var s := p.members + [name];
    assert s[..|s| - 1] == p.members;
    DedupKeepsDistinct(p.members);
    var q := Joined(p, name);
    DedupKeepsDistinct(q.members);
    var t := q.members + [name];
    assert t[..|t| - 1] == q.members;
  }

  /** One effect applied to the character. */
  function ApplyEffect(c: Character, e: Effect): (r: Character)
  {
    match e
    case AddXp(n) => c.(xp := c.xp + n)
    case AddGold(n) => c.(gold := c.gold + n)
    case LoseGold(n) => c.(gold := Clamp(c.gold - n, 0, GoldCeiling))
    case LoseHp(n) => c.(hp := Clamp(c.hp - n, 0, c.maxHp))
    case SetFlag(key) => Arc.SetArcFlag(c, key)
    case Advance(delta) => Arc.AdvanceArc(c, delta)
    case QueueScene(id) => Arc.SetNext(c, Some(id))
    case JoinParty(name) => c.(party := Joined(c.party, name))
    case AddCompanion(m) => c.(companions := c.companions + [m])
    case BeginCombat(kind, w, l, f) => c.(pendingCombat := Some(Combat.StartCombat(kind, w, l, f)))
  }

  /** The effects applied left to right, as the nested calls of the source evaluate. */
  function ApplyEffects(c: Character, es: seq<Effect>): (r: Character)
    ensures r.xp >= c.xp
    ensures 0 <= c.hp <= c.maxHp ==> r.hp <= c.hp
    decreases |es|
  {
    if |es| == 0 then c else ApplyEffects(ApplyEffect(c, es[0]), es[1..])
  }

  /** Applying a concatenation is applying its halves in turn. */
  lemma {:induction false} ApplyEffectsAppend(c: Character, a: seq<Effect>, b: seq<Effect>)
    ensures ApplyEffects(c, a + b) == ApplyEffects(ApplyEffects(c, a), b)
    decreases |a|
  {
    if |a| > 0 {
      assert (a + b)[0] == a[0];
      assert (a + b)[1..] == a[1..] + b;
      ApplyEffectsAppend(ApplyEffect(c, a[0]), a[1..], b);
    } else {
      assert a + b == b;
    }
  }

  /** The experience an effect list grants. */
  function XpGranted(es: seq<Effect>): nat
    decreases |es|
  {
    if |es| == 0 then 0 else (if es[0].AddXp? then es[0].xp else 0) + XpGranted(es[1..])
  }

  /** Experience after an outcome is exactly the experience before plus what its effects grant. */
  lemma {:induction false} XpAfterEffects(c: Character, es: seq<Effect>)
    ensures ApplyEffects(c, es).xp == c.xp + XpGranted(es)
    decreases |es|
  {
    if |es| > 0 {
      XpAfterEffects(ApplyEffect(c, es[0]), es[1..]);
    }
  }

  /** A campaign flag is set after an outcome exactly when it was set before or the outcome
      sets it; no outcome ever clears a flag. */
  lemma {:induction false} FlagsAfterEffects(c: Character, es: seq<Effect>, key: string)
    ensures FlagSet(ApplyEffects(c, es).campaign.flags, key) <==> FlagSet(c.campaign.flags, key) || SetFlag(key) in es
    decreases |es|
  {
    if |es| > 0 {
      FlagsAfterEffects(ApplyEffect(c, es[0]), es[1..], key);
      assert forall e :: e in es <==> e == es[0] || e in es[1..];
    }
  }

  /** A name is in the party after an outcome exactly when it was before or the outcome adds it. */
  lemma {:induction false} PartyAfterEffects(c: Character, es: seq<Effect>, name: string)
    ensures name in ApplyEffects(c, es).party.members <==> name in c.party.members || JoinParty(name) in es
    decreases |es|
  {
    if |es| > 0 {
      PartyAfterEffects(ApplyEffect(c, es[0]), es[1..], name);
      assert forall e :: e in es <==> e == es[0] || e in es[1..];
    }
  }

  /** The scene id the effects queue last, if any. */
  function LastQueued(es: seq<Effect>): Option<string>
    decreases |es|
  {
    if |es| == 0 then None
    else if es[|es| - 1].QueueScene? then Some(es[|es| - 1].sceneId)
    else LastQueued(es[..|es| - 1])
  }

  /** After an outcome the queued scene is the last one the outcome queues, or the one queued
      before when it queues none. */
  lemma {:induction false} QueueAfterEffects(c: Character, es: seq<Effect>)
    ensures ApplyEffects(c, es).nextSceneId == (if LastQueued(es).Some? then LastQueued(es) else c.nextSceneId)
    decreases |es|
  {
    if |es| > 0 {
      var init := es[..|es| - 1];
      var last := es[|es| - 1];
      assert init + [last] == es;
      ApplyEffectsAppend(c, init, [last]);
      QueueAfterEffects(c, init);
      QueueAfterEffect(ApplyEffects(c, init), last);
    }
  }

  /** One effect queues its scene if it is a `QueueScene`, and leaves the queue alone
      otherwise. */
  lemma QueueAfterEffect(c: Character, e: Effect)
    ensures ApplyEffects(c, [e]).nextSceneId == (if e.QueueScene? then Some(e.sceneId) else c.nextSceneId)
  {
    assert ApplyEffects(c, [e]) == ApplyEffect(c, e);
  }

  /** The fields no authored outcome touches. */
  predicate SameSheet(a: Character, b: Character)
  {
    && a.name == b.name && a.sex == b.sex && a.race == b.race && a.className == b.className
    && a.alignment == b.alignment && a.level == b.level && a.day == b.day && a.maxHp == b.maxHp
    && a.inventory == b.inventory && a.hitDieSize == b.hitDieSize && a.hitDiceMax == b.hitDiceMax
    && a.hitDiceRemaining == b.hitDiceRemaining && a.spellSlotsMax == b.spellSlotsMax
    && a.spellSlotsRemaining == b.spellSlotsRemaining && a.stats == b.stats && a.flags == b.flags
    && a.lastSceneId == b.lastSceneId && a.recentSceneIds == b.recentSceneIds
    && a.campaign.arcId == b.campaign.arcId && a.campaign.seenSceneIds == b.campaign.seenSceneIds
  }

  /** Effects an outcome may carry: companions with a relationship in 0..100. */
  predicate EffectOk(e: Effect)
  {
    e.AddCompanion? ==> ValidCompanion(e.companion)
  }

  /** An outcome whose effects are all safe to apply. */
  predicate OutcomeOk(o: Outcome)
  {
    forall k :: 0 <= k < |o.effects| ==> EffectOk(o.effects[k])
  }

  /** One effect keeps the sheet and keeps a valid character valid. */
  lemma ApplyEffectValid(c: Character, e: Effect)
    requires ValidCharacter(c)
    requires EffectOk(e)
    ensures SameSheet(ApplyEffect(c, e), c)
    ensures ValidCharacter(ApplyEffect(c, e))
  {
    var c1 := ApplyEffect(c, e);
    if e.AddCompanion? {
      forall i | 0 <= i < |c1.companions| ensures ValidCompanion(c1.companions[i]) {
        if i < |c.companions| { assert c1.companions[i] == c.companions[i]; }
      }
    }
  }

  /** An outcome never touches identity, day, stats, resources or scene history, and it keeps
      a valid character valid. */
  lemma {:induction false} ApplyEffectsValid(c: Character, es: seq<Effect>)
    requires ValidCharacter(c)
    requires forall i :: 0 <= i < |es| ==> EffectOk(es[i])
    ensures SameSheet(ApplyEffects(c, es), c)
    ensures ValidCharacter(ApplyEffects(c, es))
    decreases |es|
  {
    if |es| > 0 {
      ApplyEffectValid(c, es[0]);
      var rest := es[1..];
      assert forall i :: 0 <= i < |rest| ==> EffectOk(rest[i]) by {
        forall i | 0 <= i < |rest| ensures EffectOk(rest[i]) { assert rest[i] == es[i + 1]; }
      }
      ApplyEffectsValid(ApplyEffect(c, es[0]), rest);
    }
  }
}

=== FILE: rest.dfy ===
/** Short and long rests, `src/rest.ts`. Hit-die faces, the d100 consequence roll and the d20
    story roll are parameters, as in the source. */
module Rest {
  import opened Wrappers
  import opened Utils
  import opened Types
  import Arc
  import Outcomes

  /** `conMod(c)`. */
  function ConMod(c: Character): int
  {
    ModFromStat(c.stats.constitution)
  }

  /** `rollTotal(rolls, modPerDie)`: the faces plus the modifier once per die. */
  function RollTotal(rolls: seq<int>, modPerDie: int): int
  {
    Sum(rolls) + |rolls| * modPerDie
  }

  /** With faces between 1 and `sides`, the total lies between the all-ones and the all-max
      totals. */
  lemma RollTotalRange(rolls: seq<int>, sides: int, modPerDie: int)
    requires forall i :: 0 <= i < |rolls| ==> 1 <= rolls[i] <= sides
    ensures |rolls| * (1 + modPerDie) <= RollTotal(rolls, modPerDie) <= |rolls| * (sides + modPerDie)
  {
    SumOfFaces(rolls, sides);
  }

  datatype RestResult = RestResult(c: Character, log: seq<LogEntry>, summary: string)

  const FollowupDone := "mimic_followup_done"

  /** The mimic rest event can happen: mimic arc, the mimic met, its follow-up not yet done. */
  predicate MimicEventEligible(c: Character)
  {
    c.campaign.arcId == Mimic && FlagSet(c.campaign.flags, "mimic_met") && !FlagSet(c.campaign.flags, FollowupDone)
  }

  /** The WIS check of the rest event: a story roll of 1 fails, otherwise roll plus WIS
      modifier against DC 13. */
  predicate WakeInTime(c: Character, storyRoll: int)
  {
    storyRoll != 1 && storyRoll + ModFromStat(c.stats.wisdom) >= 13
  }

  /** The scratching-at-the-tent event, firing when eligible and the consequence roll is at most
      `chance`: it marks the follow-up done, records how it went, queues the follow-up scene
      and, on a failed check, bites for `bite` hit points. */
  function MimicEvent(c: Character, log: seq<LogEntry>, chance: int, consequenceRoll: int, storyRoll: int, bite: nat): (r: (Character, seq<LogEntry>))
    ensures !(MimicEventEligible(c) && consequenceRoll <= chance) ==> r == (c, log)
    ensures MimicEventEligible(c) && consequenceRoll <= chance ==>
      && FlagSet(r.0.campaign.flags, FollowupDone)
      && (WakeInTime(c, storyRoll) ==> FlagSet(r.0.campaign.flags, "mimic_rest_good") && r.0.hp == c.hp)
      && (!WakeInTime(c, storyRoll) ==> FlagSet(r.0.campaign.flags, "mimic_rest_bad") && r.0.hp == Clamp(c.hp - bite, 0, c.maxHp))
      && r.0.nextSceneId == Some(Arc.FollowupSceneId)
      && r.0 == c.(hp := r.0.hp, nextSceneId := r.0.nextSceneId, campaign := c.campaign.(flags := r.0.campaign.flags))
      && (forall k :: k in c.campaign.flags && k != FollowupDone && k != "mimic_rest_good" && k != "mimic_rest_bad"
                      ==> k in r.0.campaign.flags && r.0.campaign.flags[k] == c.campaign.flags[k])
  {
    if MimicEventEligible(c) && consequenceRoll <= chance then
      var ok := storyRoll != 1 && storyRoll + ModFromStat(c.stats.wisdom) >= 13;
      var flags := c.campaign.flags[FollowupDone := true][if ok then "mimic_rest_good" else "mimic_rest_bad" := true];
      var c1 := c.(campaign := c.campaign.(flags := flags), nextSceneId := Some(Arc.FollowupSceneId));
      var log1 := log + [LogEntry(c.day, "rest-event:scratching"),
                         LogEntry(c.day, if ok then "rest-event:woke-in-time" else "rest-event:bitten")];
      if ok then (c1, log1)
      else (c1.(hp := Clamp(c1.hp - bite, 0, c1.maxHp)), log1 + [LogEntry(c.day, "rest-consequence:hp")])
    else (c, log)
  }

  /** The generic consequence, when the consequence roll is at most `threshold`: a gold fee and
      a push of the arc. */
  function Consequence(c: Character, log: seq<LogEntry>, threshold: int, consequenceRoll: int, fee: nat, push: nat): (r: (Character, seq<LogEntry>))
    ensures consequenceRoll > threshold ==> r == (c, log)
    ensures consequenceRoll <= threshold ==>
      && r.0.gold == Clamp(c.gold - fee, 0, Outcomes.GoldCeiling)
      && r.0.campaign.progress == Clamp(c.campaign.progress + push, 0, 100)
      && r.0.campaign.act == ActOf(r.0.campaign.progress)
      && r.0 == c.(gold := r.0.gold, campaign := c.campaign.(progress := r.0.campaign.progress, act := r.0.campaign.act))
  {
    if consequenceRoll <= threshold then
      var c1 := Arc.AdvanceArc(c.(gold := Clamp(c.gold - fee, 0, Outcomes.GoldCeiling)), push);
      (c1, log + [LogEntry(c.day, "rest-consequence:fee")])
    else (c, log)
  }

  /** The healing part of a short rest: a day passes, one hit die is spent per face, and the
      character heals by the roll total, at least 1, up to the maximum. */
  function SpendHitDice(c0: Character, rolls: seq<int>): (c: Character)
    ensures c.hp == Clamp(c0.hp + Clamp(RollTotal(rolls, ConMod(c0)), 1, 9999), 0, c0.maxHp)
    ensures c == c0.(day := c0.day + 1, hitDiceRemaining := Clamp(c0.hitDiceRemaining - |rolls|, 0, c0.hitDiceMax), hp := c.hp)
  {
    var c1 := c0.(day := c0.day + 1, hitDiceRemaining := Clamp(c0.hitDiceRemaining - |rolls|, 0, c0.hitDiceMax));
    var heal := Clamp(RollTotal(rolls, ConMod(c1)), 1, 9999);
    c1.(hp := Clamp(c1.hp + heal, 0, c1.maxHp))
  }

  /** `shortRest(c0, rolls, consequenceRoll, storyRoll)`. */
  function ShortRest(c0: Character, rolls: seq<int>, consequenceRoll: int, storyRoll: int): (r: RestResult)
    ensures r.c.day == c0.day + 1
    ensures r.c.hitDiceRemaining == Clamp(c0.hitDiceRemaining - |rolls|, 0, c0.hitDiceMax)
    ensures r.c.spellSlotsRemaining == c0.spellSlotsRemaining && r.c.maxHp == c0.maxHp && r.c.stats == c0.stats
    ensures |r.log| >= 1 && r.log[0].day == c0.day + 1
    ensures consequenceRoll <= 25 ==> r.c.campaign.progress == Clamp(c0.campaign.progress + 6, 0, 100)
                                      && r.c.campaign.act == ActOf(r.c.campaign.progress)
    ensures consequenceRoll > 25 ==> r.c.campaign.progress == c0.campaign.progress && r.c.campaign.act == c0.campaign.act
    ensures consequenceRoll <= 25 ==> r.c.gold == Clamp(c0.gold - 1, 0, Outcomes.GoldCeiling)
    ensures consequenceRoll > 25 ==> r.c.gold == c0.gold
    ensures r.c == c0.(day := r.c.day, hp := r.c.hp, gold := r.c.gold, hitDiceRemaining := r.c.hitDiceRemaining,
                       nextSceneId := r.c.nextSceneId, campaign := r.c.campaign)
    ensures r.c.campaign == c0.campaign.(flags := r.c.campaign.flags, progress := r.c.campaign.progress, act := r.c.campaign.act)
  {
    var c2 := SpendHitDice(c0, rolls);
    var ev := MimicEvent(c2, [LogEntry(c2.day, "short-rest:healed")], 25, consequenceRoll, storyRoll, 1);
    var cq := Consequence(ev.0, ev.1, 25, consequenceRoll, 1, 6);
    RestResult(cq.0, cq.1, "short-rest")
  }

  /** `longRest(c0, consequenceRoll, storyRoll)`. */
  function LongRest(c0: Character, consequenceRoll: int, storyRoll: int): (r: RestResult)
    ensures r.c.day == c0.day + 2
    ensures r.c.spellSlotsRemaining == c0.spellSlotsMax && r.c.hitDiceRemaining == c0.hitDiceMax
    ensures r.c.maxHp == c0.maxHp && r.c.stats == c0.stats
    ensures |r.log| >= 1 && r.log[0].day == c0.day + 2
    ensures consequenceRoll <= 55 ==> r.c.campaign.progress == Clamp(c0.campaign.progress + 12, 0, 100)
                                      && r.c.campaign.act == ActOf(r.c.campaign.progress)
    ensures consequenceRoll > 55 ==> r.c.campaign.progress == c0.campaign.progress && r.c.campaign.act == c0.campaign.act
    ensures consequenceRoll <= 55 ==> r.c.gold == Clamp(c0.gold - 3, 0, Outcomes.GoldCeiling)
    ensures consequenceRoll > 55 ==> r.c.gold == c0.gold
    ensures r.c == c0.(day := r.c.day, hp := r.c.hp, gold := r.c.gold, hitDiceRemaining := r.c.hitDiceRemaining,
                       spellSlotsRemaining := r.c.spellSlotsRemaining, nextSceneId := r.c.nextSceneId, campaign := r.c.campaign)
    ensures r.c.campaign == c0.campaign.(flags := r.c.campaign.flags, progress := r.c.campaign.progress, act := r.c.campaign.act)
  {
    var c1 := c0.(day := c0.day + 2, hp := c0.maxHp, spellSlotsRemaining := c0.spellSlotsMax, hitDiceRemaining := c0.hitDiceMax);
    var log := [LogEntry(c1.day, "long-rest:restored")];
    var ev := MimicEvent(c1, log, 40, consequenceRoll, storyRoll, 2);
    var cq := Consequence(ev.0, ev.1, 55, consequenceRoll, 3, 12);
    RestResult(cq.0, cq.1, "long-rest")
  }

  /** A short rest heals by at least one hit point (up to the maximum) unless the mimic bites,
      and the bite costs at most the one point the rest gained. */
  lemma ShortRestHeals(c0: Character, rolls: seq<int>, consequenceRoll: int, storyRoll: int)
    requires 0 <= c0.hp <= c0.maxHp
    ensures var r := ShortRest(c0, rolls, consequenceRoll, storyRoll);
      && (!(MimicEventEligible(c0) && consequenceRoll <= 25) ==> r.c.hp >= Min(c0.maxHp, c0.hp + 1))
      && r.c.hp >= Min(c0.hp, c0.maxHp - 1)
      && r.c.hp <= c0.maxHp
  {
  }

  /** A short rest's hit points are exactly those of spending the hit dice, less the one-point
      bite when the rest event fires and the WIS check fails. */
  lemma ShortRestHealsExactly(c0: Character, rolls: seq<int>, consequenceRoll: int, storyRoll: int)
    ensures var r := ShortRest(c0, rolls, consequenceRoll, storyRoll);
      var healed := SpendHitDice(c0, rolls).hp;
      && (MimicEventEligible(c0) && consequenceRoll <= 25 && !WakeInTime(c0, storyRoll) ==>
            r.c.hp == Clamp(healed - 1, 0, c0.maxHp))
      && (!(MimicEventEligible(c0) && consequenceRoll <= 25 && !WakeInTime(c0, storyRoll)) ==>
            r.c.hp == healed)
  {
    var c2 := SpendHitDice(c0, rolls);
    assert MimicEventEligible(c2) == MimicEventEligible(c0);
    assert WakeInTime(c2, storyRoll) == WakeInTime(c0, storyRoll);
  }

  /** The long rest's mimic event: when eligible and the roll is at most 40 it marks the
      follow-up done and queues it, and the character wakes at full hp or, bitten, 2 hp
      short; otherwise nothing is queued and hp is full. */
  lemma LongRestEvent(c0: Character, consequenceRoll: int, storyRoll: int)
    ensures var r := LongRest(c0, consequenceRoll, storyRoll);
      && (MimicEventEligible(c0) && consequenceRoll <= 40 ==>
            && FlagSet(r.c.campaign.flags, FollowupDone)
            && r.c.nextSceneId == Some(Arc.FollowupSceneId)
            && r.c.hp == (if WakeInTime(c0, storyRoll) then c0.maxHp else Clamp(c0.maxHp - 2, 0, c0.maxHp)))
      && (!(MimicEventEligible(c0) && consequenceRoll <= 40) ==>
            r.c.nextSceneId == c0.nextSceneId && r.c.hp == c0.maxHp && r.c.campaign.flags == c0.campaign.flags)
  {
    var c1 := c0.(day := c0.day + 2, hp := c0.maxHp, spellSlotsRemaining := c0.spellSlotsMax, hitDiceRemaining := c0.hitDiceMax);
    assert MimicEventEligible(c1) == MimicEventEligible(c0);
    assert WakeInTime(c1, storyRoll) == WakeInTime(c0, storyRoll);
  }

  /** The long rest's event fires at most once per arc, like the short rest's. */
  lemma LongRestEventOnce(c0: Character, consequenceRoll: int, storyRoll: int)
    requires MimicEventEligible(c0) && consequenceRoll <= 40
    ensures var r := LongRest(c0, consequenceRoll, storyRoll);
      && !MimicEventEligible(r.c)
      && r.c.nextSceneId == Some(Arc.FollowupSceneId)
  {
    LongRestEvent(c0, consequenceRoll, storyRoll);
  }

  /** A long rest restores everything; only a failed mimic event takes 2 hit points back. */
  lemma LongRestRestores(c0: Character, consequenceRoll: int, storyRoll: int)
    requires 0 <= c0.maxHp
    ensures var r := LongRest(c0, consequenceRoll, storyRoll);
      && r.c.hp >= c0.maxHp - 2
      && (!(MimicEventEligible(c0) && consequenceRoll <= 40 && !WakeInTime(c0, storyRoll)) ==> r.c.hp == c0.maxHp)
  {
  }

  /** The rest event and the generic consequence are independent: a low enough roll triggers
      both. The consequence fires exactly when the roll is at or under its threshold, charging a
      fee to any purse with gold in it. */
  lemma RestConsequenceThresholds(c0: Character, rolls: seq<int>, consequenceRoll: int, storyRoll: int)
    requires 1 <= c0.gold <= Outcomes.GoldCeiling
    ensures ShortRest(c0, rolls, consequenceRoll, storyRoll).c.gold < c0.gold <==> consequenceRoll <= 25
    ensures LongRest(c0, consequenceRoll, storyRoll).c.gold < c0.gold <==> consequenceRoll <= 55
  {
  }

  /** The rest event fires at most once per arc: after it fires the follow-up is marked done,
      so no later rest is eligible. */
  lemma RestEventOnce(c0: Character, rolls: seq<int>, consequenceRoll: int, storyRoll: int)
    requires MimicEventEligible(c0) && consequenceRoll <= 25
    ensures var r := ShortRest(c0, rolls, consequenceRoll, storyRoll);
      && !MimicEventEligible(r.c)
      && r.c.nextSceneId == Some(Arc.FollowupSceneId)
  {
  }

  lemma MimicEventValid(c: Character, log: seq<LogEntry>, chance: int, consequenceRoll: int, storyRoll: int, bite: nat)
    requires ValidCharacter(c)
    ensures ValidCharacter(MimicEvent(c, log, chance, consequenceRoll, storyRoll, bite).0)
  {
  }

  lemma ConsequenceValid(c: Character, log: seq<LogEntry>, threshold: int, consequenceRoll: int, fee: nat, push: nat)
    requires ValidCharacter(c)
    ensures ValidCharacter(Consequence(c, log, threshold, consequenceRoll, fee, push).0)
  {
  }

  /** A short rest keeps a valid character valid. */
  lemma ShortRestValid(c0: Character, rolls: seq<int>, consequenceRoll: int, storyRoll: int)
    requires ValidCharacter(c0)
    ensures ValidCharacter(ShortRest(c0, rolls, consequenceRoll, storyRoll).c)
  {
    var c2 := SpendHitDice(c0, rolls);
    var log := [LogEntry(c2.day, "short-rest:healed")];
    assert ValidCharacter(c2);
    MimicEventValid(c2, log, 25, consequenceRoll, storyRoll, 1);
    var ev := MimicEvent(c2, log, 25, consequenceRoll, storyRoll, 1);
    ConsequenceValid(ev.0, ev.1, 25, consequenceRoll, 1, 6);
    assert ShortRest(c0, rolls, consequenceRoll, storyRoll).c == Consequence(ev.0, ev.1, 25, consequenceRoll, 1, 6).0;
  }

  /** A long rest keeps a valid character valid. */
  lemma LongRestValid(c0: Character, consequenceRoll: int, storyRoll: int)
    requires ValidCharacter(c0)
    ensures ValidCharacter(LongRest(c0, consequenceRoll, storyRoll).c)
  {
    var c1 := c0.(day := c0.day + 2, hp := c0.maxHp, spellSlotsRemaining := c0.spellSlotsMax, hitDiceRemaining := c0.hitDiceMax);
    var log := [LogEntry(c1.day, "long-rest:restored")];
    assert ValidCharacter(c1);
    MimicEventValid(c1, log, 40, consequenceRoll, storyRoll, 2);
    var ev := MimicEvent(c1, log, 40, consequenceRoll, storyRoll, 2);
    ConsequenceValid(ev.0, ev.1, 55, consequenceRoll, 3, 12);
    assert LongRest(c0, consequenceRoll, storyRoll).c == Consequence(ev.0, ev.1, 55, consequenceRoll, 3, 12).0;
  }
}

=== FILE: rolls.dfy ===
/** Scene checks, `src/game2.ts`: `chooseToRoll` turns a picked choice into a pending roll and
    `resolveRoll` settles it: a day passes, the arc moves 8 points, and the choice's success or
    failure outcome is applied. A thrown "choice not found" becomes an `Err`. */
module Rolls {
  import opened Wrappers
  import opened Utils
  import opened Types
  import Arc
  import Outcomes

  const ChoiceNotFound := "choice not found"

  /** The first choice carrying the id, if any. */
  function FindChoice(cs: seq<SceneChoice>, id: string): (r: Option<SceneChoice>)
    ensures r.None? <==> forall i :: 0 <= i < |cs| ==> cs[i].id != id
    ensures r.Some? ==> exists i :: 0 <= i < |cs| && cs[i] == r.value && r.value.id == id
                                    && forall j :: 0 <= j < i ==> cs[j].id != id
  {
    if |cs| == 0 then None
    else if cs[0].id == id then Some(cs[0])
    else
      var r := FindChoice(cs[1..], id);
      if r.Some? then
        var i :| 0 <= i < |cs[1..]| && cs[1..][i] == r.value && r.value.id == id
                 && forall j :: 0 <= j < i ==> cs[1..][j].id != id;
        assert cs[i + 1] == r.value;
        assert forall j :: 0 <= j < i + 1 ==> cs[j].id != id by {
          forall j | 0 <= j < i + 1 ensures cs[j].id != id {
            if j > 0 { assert cs[j] == cs[1..][j - 1]; }
          }
        }
        r
      else
        assert forall i :: 0 <= i < |cs| ==> cs[i].id != id by {
          forall i | 0 <= i < |cs| ensures cs[i].id != id {
            if i > 0 { assert cs[i] == cs[1..][i - 1]; }
          }
        }
        r
  }

  /** With distinct ids, the choice found is the one at the id's position. */
  lemma FindChoiceAt(cs: seq<SceneChoice>, i: nat)
    requires i < |cs|
    requires forall j, k :: 0 <= j < k < |cs| ==> cs[j].id != cs[k].id
    ensures FindChoice(cs, cs[i].id) == Some(cs[i])
  {
    var r := FindChoice(cs, cs[i].id);
    var m :| 0 <= m < |cs| && cs[m] == r.value && r.value.id == cs[i].id
             && forall j :: 0 <= j < m ==> cs[j].id != cs[i].id;
  }

  /** `chooseToRoll(scene, choiceId)`: the pending roll copies the chosen choice's stat and
      DC; an unknown id is an error. */
  function ChooseToRoll(scene: Scene, choiceId: string): (r: Result<PendingRoll>)
    ensures r.Err? <==> forall i :: 0 <= i < |scene.choices| ==> scene.choices[i].id != choiceId
    ensures r.Err? ==> r.error == ChoiceNotFound
    ensures r.Ok? ==> r.value.sceneId == scene.id && r.value.choiceId == choiceId
    ensures r.Ok? ==> exists i :: 0 <= i < |scene.choices| && scene.choices[i].id == choiceId
                                  && scene.choices[i].stat == r.value.stat && scene.choices[i].dc == r.value.dc
  {
    match FindChoice(scene.choices, choiceId)
    case None => Err(ChoiceNotFound)
    case Some(ch) => Ok(PendingRoll(scene.id, ch.id, ch.stat, ch.dc))
  }

  /** The check's rule: a natural 1 always fails; otherwise the roll plus the modifier of the
      choice's stat must reach the choice's DC. */
  predicate CheckSucceeds(c: Character, ch: SceneChoice, roll: int)
  {
    roll != 1 && roll + ModFromStat(StatOf(c.stats, ch.stat)) >= ch.dc
  }

  datatype Resolution = Resolution(c: Character, log: seq<LogEntry>, outcomeText: string, roll: int, success: bool)

  /** The outcome text followed by the outcome's extra log lines, all dated `day`. */
  function OutcomeLog(day: int, o: Outcome): (log: seq<LogEntry>)
    ensures |log| == 1 + |o.logs|
    ensures log[0] == LogEntry(day, o.text)
    ensures forall i :: 0 <= i < |o.logs| ==> log[i + 1] == LogEntry(day, o.logs[i])
  {
    [LogEntry(day, o.text)] + seq(|o.logs|, i requires 0 <= i < |o.logs| => LogEntry(day, o.logs[i]))
  }

  /** `resolveRoll(c0, scene, pending, forcedRoll)`. The d20 face used when no roll is forced
      is passed in as `drawn`. The choice is looked up again by id in the scene, and its own
      stat and DC decide the check; the pending roll's copies are not consulted. */
  function ResolveRoll(c0: Character, scene: Scene, pending: PendingRoll, forcedRoll: Option<int>, drawn: int): (r: Result<Resolution>)
    ensures r.Err? <==> forall i :: 0 <= i < |scene.choices| ==> scene.choices[i].id != pending.choiceId
    ensures r.Err? ==> r.error == ChoiceNotFound
    ensures r.Ok? ==> && r.value.roll == forcedRoll.GetOr(drawn)
                      && r.value.c.day == c0.day + 1
                      && (forall i :: 0 <= i < |r.value.log| ==> r.value.log[i].day == c0.day + 1)
                      && |r.value.log| >= 1
                      && r.value.log[0].text == r.value.outcomeText
    ensures r.Ok? ==> var ch := FindChoice(scene.choices, pending.choiceId).value;
                      StepThenOutcome(c0, (if r.value.success then ch.onSuccess else ch.onFail).effects, r.value.c)
  {
    match FindChoice(scene.choices, pending.choiceId)
    case None => Err(ChoiceNotFound)
    case Some(choice) =>
      var roll := forcedRoll.GetOr(drawn);
      var success := CheckSucceeds(c0, choice, roll);
      var c1 := Arc.AdvanceArc(c0.(day := c0.day + 1), 8);
      var o := if success then choice.onSuccess else choice.onFail;
      var c := Outcomes.ApplyEffects(c1, o.effects);
      DayKept(c1, o.effects);
      StepThenEffects(c0, o.effects);
      Ok(Resolution(c, OutcomeLog(c.day, o), o.text, roll, success))
  }

  /** Outcome effects never move the calendar. */
  lemma {:induction false} DayKept(c: Character, es: seq<Effect>)
    ensures Outcomes.ApplyEffects(c, es).day == c.day
    decreases |es|
  {
    if |es| > 0 {
      DayKept(Outcomes.ApplyEffect(c, es[0]), es[1..]);
    }
  }

  /** Resolving picks the success outcome exactly when the check of the choice with the
      pending id succeeds, and reports that outcome's text and log lines. */
  lemma ResolveRollOutcome(c0: Character, scene: Scene, pending: PendingRoll, forcedRoll: Option<int>, drawn: int, i: nat)
    requires i < |scene.choices| && scene.choices[i].id == pending.choiceId
    requires forall j, k :: 0 <= j < k < |scene.choices| ==> scene.choices[j].id != scene.choices[k].id
    ensures var r := ResolveRoll(c0, scene, pending, forcedRoll, drawn);
      var ch := scene.choices[i];
      && r.Ok?
      && (r.value.success <==> CheckSucceeds(c0, ch, forcedRoll.GetOr(drawn)))
      && r.value.outcomeText == (if r.value.success then ch.onSuccess else ch.onFail).text
      && |r.value.log| == 1 + |(if r.value.success then ch.onSuccess else ch.onFail).logs|
  {
    FindChoiceAt(scene.choices, i);
  }

  /** The character's experience grows by exactly what the chosen outcome grants. */
  lemma ResolveRollXp(c0: Character, scene: Scene, pending: PendingRoll, forcedRoll: Option<int>, drawn: int)
    requires ResolveRoll(c0, scene, pending, forcedRoll, drawn).Ok?
    ensures var r := ResolveRoll(c0, scene, pending, forcedRoll, drawn).value;
      var ch := FindChoice(scene.choices, pending.choiceId).value;
      r.c.xp == c0.xp + Outcomes.XpGranted((if r.success then ch.onSuccess else ch.onFail).effects)
  {
    var ch := FindChoice(scene.choices, pending.choiceId).value;
    var c1 := Arc.AdvanceArc(c0.(day := c0.day + 1), 8);
    var o := if CheckSucceeds(c0, ch, forcedRoll.GetOr(drawn)) then ch.onSuccess else ch.onFail;
    Outcomes.XpAfterEffects(c1, o.effects);
  }

  /** A natural 1 fails whatever the stat and DC. */
  lemma NaturalOneFails(c0: Character, scene: Scene, pending: PendingRoll, drawn: int)
    requires ResolveRoll(c0, scene, pending, Some(1), drawn).Ok?
    ensures !ResolveRoll(c0, scene, pending, Some(1), drawn).value.success
  {
  }

  /** A forced roll wins over the drawn one; the drawn one is used only when none is forced. */
  lemma ForcedRollWins(c0: Character, scene: Scene, pending: PendingRoll, forced: int, drawn: int, other: int)
    ensures ResolveRoll(c0, scene, pending, Some(forced), drawn) == ResolveRoll(c0, scene, pending, Some(forced), other)
  {
  }

  /** Only the pending roll's choice id matters: its scene id, stat and DC copies are ignored. */
  lemma PendingCopiesIgnored(c0: Character, scene: Scene, pending: PendingRoll, other: PendingRoll, forcedRoll: Option<int>, drawn: int)
    requires other.choiceId == pending.choiceId
    ensures ResolveRoll(c0, scene, pending, forcedRoll, drawn) == ResolveRoll(c0, scene, other, forcedRoll, drawn)
  {
  }

  /** Round trip: a pending roll made by `chooseToRoll` resolves, and its stat and DC are the
      ones that decide the check. */
  lemma ChooseThenResolve(c0: Character, scene: Scene, choiceId: string, forcedRoll: Option<int>, drawn: int)
    requires ChooseToRoll(scene, choiceId).Ok?
    ensures var p := ChooseToRoll(scene, choiceId).value;
      var r := ResolveRoll(c0, scene, p, forcedRoll, drawn);
      var roll := forcedRoll.GetOr(drawn);
      && r.Ok?
      && (r.value.success <==> roll != 1 && roll + ModFromStat(StatOf(c0.stats, p.stat)) >= p.dc)
  {
  }

  /** Outcomes whose arc advances are all non-negative never move progress back. */
  predicate ForwardOnly(es: seq<Effect>)
  {
    forall i :: 0 <= i < |es| ==> (es[i].Advance? ==> es[i].delta >= 0)
  }

  lemma {:induction false} ProgressKept(c: Character, es: seq<Effect>)
    requires ForwardOnly(es)
    requires 0 <= c.campaign.progress <= 100
    ensures Outcomes.ApplyEffects(c, es).campaign.progress >= c.campaign.progress
    decreases |es|
  {
    if |es| > 0 {
      var c1 := Outcomes.ApplyEffect(c, es[0]);
      assert ForwardOnly(es[1..]) by {
        forall i | 0 <= i < |es[1..]| ensures es[1..][i].Advance? ==> es[1..][i].delta >= 0 {
          assert es[1..][i] == es[i + 1];
        }
      }
      assert es[0].Advance? ==> es[0].delta >= 0;
      ProgressKept(c1, es[1..]);
    }
  }

  /** The total arc push of an effect list. */
  function AdvanceGranted(es: seq<Effect>): int
    decreases |es|
  {
    if |es| == 0 then 0 else AdvanceOf(es[0]) + AdvanceGranted(es[1..])
  }

  /** The push of one effect: its delta for an advance, nothing otherwise. */
  function AdvanceOf(e: Effect): int
  {
    if e.Advance? then e.delta else 0
  }

  /** An effect list with no advance pushes nothing. */
  lemma {:induction false} NoAdvanceGrantsNothing(es: seq<Effect>)
    requires forall i :: 0 <= i < |es| ==> !es[i].Advance?
    ensures AdvanceGranted(es) == 0
    decreases |es|
  {
    if |es| > 0 {
      assert forall i :: 0 <= i < |es[1..]| ==> es[1..][i] == es[i + 1];
      NoAdvanceGrantsNothing(es[1..]);
    }
  }

  /** One effect moves progress by its push, clamped, and keeps the act in step. */
  lemma ProgressAfterEffect(c: Character, e: Effect)
    requires 0 <= c.campaign.progress <= 100 && c.campaign.act == ActOf(c.campaign.progress)
    ensures Outcomes.ApplyEffect(c, e).campaign.progress == Clamp(c.campaign.progress + AdvanceOf(e), 0, 100)
    ensures Outcomes.ApplyEffect(c, e).campaign.act == ActOf(Outcomes.ApplyEffect(c, e).campaign.progress)
  {
  }

  /** Clamping after a forward push loses nothing a later forward push could use. */
  lemma ClampForwardTwice(p: int, d: int, rest: int)
    requires 0 <= p <= 100 && 0 <= d && 0 <= rest
    ensures Clamp(Clamp(p + d, 0, 100) + rest, 0, 100) == Clamp(p + d + rest, 0, 100)
  {
  }

  /** From progress in range with its act, forward-only advances add up, and the act follows
      the final progress. */
  lemma {:induction false} ProgressAfterEffects(c: Character, es: seq<Effect>)
    requires ForwardOnly(es)
    requires 0 <= c.campaign.progress <= 100 && c.campaign.act == ActOf(c.campaign.progress)
    ensures AdvanceGranted(es) >= 0
    ensures Outcomes.ApplyEffects(c, es).campaign.progress == Clamp(c.campaign.progress + AdvanceGranted(es), 0, 100)
    ensures Outcomes.ApplyEffects(c, es).campaign.act == ActOf(Outcomes.ApplyEffects(c, es).campaign.progress)
    decreases |es|
  {
    if |es| > 0 {
      var c1 := Outcomes.ApplyEffect(c, es[0]);
      assert ForwardOnly(es[1..]) by {
        forall i | 0 <= i < |es[1..]| ensures es[1..][i].Advance? ==> es[1..][i].delta >= 0 {
          assert es[1..][i] == es[i + 1];
        }
      }
      ProgressAfterEffect(c, es[0]);
      ProgressAfterEffects(c1, es[1..]);
      assert Outcomes.ApplyEffects(c, es) == Outcomes.ApplyEffects(c1, es[1..]);
      assert AdvanceGranted(es) == AdvanceOf(es[0]) + AdvanceGranted(es[1..]);
      ClampForwardTwice(c.campaign.progress, AdvanceOf(es[0]), AdvanceGranted(es[1..]));
    }
  }

  /** The arc step of a resolution: the day's push of 8, clamped to 0..100, comes before the
      chosen outcome, whose forward-only advances are added to it. An outcome without an
      advance leaves progress at exactly that step. */
  lemma ResolveRollArcStep(c0: Character, scene: Scene, pending: PendingRoll, forcedRoll: Option<int>, drawn: int)
    requires ResolveRoll(c0, scene, pending, forcedRoll, drawn).Ok?
    ensures var r := ResolveRoll(c0, scene, pending, forcedRoll, drawn).value;
      var ch := FindChoice(scene.choices, pending.choiceId).value;
      var es := (if r.success then ch.onSuccess else ch.onFail).effects;
      && r.c == Outcomes.ApplyEffects(Arc.AdvanceArc(c0.(day := c0.day + 1), 8), es)
      && StepThenOutcome(c0, es, r.c)
  {
    var r := ResolveRoll(c0, scene, pending, forcedRoll, drawn).value;
    var ch := FindChoice(scene.choices, pending.choiceId).value;
    assert r.success == CheckSucceeds(c0, ch, forcedRoll.GetOr(drawn));
    var es := (if r.success then ch.onSuccess else ch.onFail).effects;
    assert r.c == Outcomes.ApplyEffects(Arc.AdvanceArc(c0.(day := c0.day + 1), 8), es);
    StepThenEffects(c0, es);
  }

  /** Where progress ends after the push of 8 and then the effects `es`: at exactly the clamped
      step when no effect advances, and at the step plus the advances when all are forward. */
  predicate StepThenOutcome(c0: Character, es: seq<Effect>, c: Character)
  {
    var step := Clamp(c0.campaign.progress + 8, 0, 100);
    && ((forall i :: 0 <= i < |es| ==> !es[i].Advance?) ==>
          c.campaign.progress == step && c.campaign.act == ActOf(step))
    && (ForwardOnly(es) ==>
          c.campaign.progress == Clamp(step + AdvanceGranted(es), 0, 100)
          && c.campaign.act == ActOf(c.campaign.progress))
    && (ForwardOnly(es) && 0 <= c0.campaign.progress <= 100 ==>
          c.campaign.progress == Clamp(c0.campaign.progress + 8 + AdvanceGranted(es), 0, 100))
  }

  /** The push of 8 followed by any effect list lands where `StepThenOutcome` says. */
  lemma StepThenEffects(c0: Character, es: seq<Effect>)
    ensures StepThenOutcome(c0, es, Outcomes.ApplyEffects(Arc.AdvanceArc(c0.(day := c0.day + 1), 8), es))
  {
    var c1 := Arc.AdvanceArc(c0.(day := c0.day + 1), 8);
    if ForwardOnly(es) {
      ProgressAfterEffects(c1, es);
    }
    if forall i :: 0 <= i < |es| ==> !es[i].Advance? {
      NoAdvanceGrantsNothing(es);
    }
  }

  /** Every resolution moves the story forward: progress ends at least 8 points higher (or at
      100) whenever the outcome's own advances are non-negative. */
  lemma ResolveRollAdvances(c0: Character, scene: Scene, pending: PendingRoll, forcedRoll: Option<int>, drawn: int)
    requires 0 <= c0.campaign.progress <= 100
    requires forall i :: 0 <= i < |scene.choices| ==>
               ForwardOnly(scene.choices[i].onSuccess.effects) && ForwardOnly(scene.choices[i].onFail.effects)
    requires ResolveRoll(c0, scene, pending, forcedRoll, drawn).Ok?
    ensures ResolveRoll(c0, scene, pending, forcedRoll, drawn).value.c.campaign.progress >= Min(100, c0.campaign.progress + 8)
  {
    var ch := FindChoice(scene.choices, pending.choiceId).value;
    var roll := forcedRoll.GetOr(drawn);
    var c1 := Arc.AdvanceArc(c0.(day := c0.day + 1), 8);
    var o := if CheckSucceeds(c0, ch, roll) then ch.onSuccess else ch.onFail;
    ProgressKept(c1, o.effects);
  }

  /** Resolving keeps a valid character valid when the scene's outcomes add only valid
      companions. */
  lemma ResolveRollValid(c0: Character, scene: Scene, pending: PendingRoll, forcedRoll: Option<int>, drawn: int)
    requires ValidCharacter(c0)
    requires forall i :: 0 <= i < |scene.choices| ==>
               Outcomes.OutcomeOk(scene.choices[i].onSuccess) && Outcomes.OutcomeOk(scene.choices[i].onFail)
    requires ResolveRoll(c0, scene, pending, forcedRoll, drawn).Ok?
    ensures ValidCharacter(ResolveRoll(c0, scene, pending, forcedRoll, drawn).value.c)
  {
    var ch := FindChoice(scene.choices, pending.choiceId).value;
    var o := if CheckSucceeds(c0, ch, forcedRoll.GetOr(drawn)) then ch.onSuccess else ch.onFail;
    var c1 := Arc.AdvanceArc(c0.(day := c0.day + 1), 8);
    var c := Outcomes.ApplyEffects(c1, o.effects);
    assert ResolveRoll(c0, scene, pending, forcedRoll, drawn).value.c == c;
    assert Outcomes.OutcomeOk(o);
    NextDayEffectsValid(c0, o.effects, c);
  }

  /** The day and arc step followed by valid effects keeps a valid character valid. */
  lemma NextDayEffectsValid(c0: Character, es: seq<Effect>, c: Character)
    requires ValidCharacter(c0)
    requires forall k :: 0 <= k < |es| ==> Outcomes.EffectOk(es[k])
    requires c == Outcomes.ApplyEffects(Arc.AdvanceArc(c0.(day := c0.day + 1), 8), es)
    ensures ValidCharacter(c)
  {
    NextDayValid(c0);
    Outcomes.ApplyEffectsValid(Arc.AdvanceArc(c0.(day := c0.day + 1), 8), es);
  }

  /** The day and arc step of a resolution keeps a valid character valid. */
  lemma NextDayValid(c0: Character)
    requires ValidCharacter(c0)
    ensures ValidCharacter(Arc.AdvanceArc(c0.(day := c0.day + 1), 8))
  {
    Arc.AdvanceArcForward(c0.(day := c0.day + 1), 8);
  }
}

=== FILE: text.dfy ===
/** Decimal rendering of integers, as JavaScript's template literals render them, with the
    parser that inverts it, and the whitespace trimming of `String.prototype.trim`. */
module Text {

  predicate IsDigit(ch: char) { '0' <= ch <= '9' }

  function DigitChar(d: int): (ch: char)
    requires 0 <= d < 10
    ensures IsDigit(ch)
  {
    "0123456789"[d]
  }

  function DigitValue(ch: char): int
  {
    ch as int - '0' as int
  }

  /** Decimal digits of a natural number, most significant first, no leading zeros. */
  function NatToString(n: nat): (s: string)
    ensures 1 <= |s| && IsDigit(s[0])
    decreases n
  {
    if n < 10 then [DigitChar(n)] else NatToString(n / 10) + [DigitChar(n % 10)]
  }

  /** `${n}` for an integer `n`. */
  function IntToString(n: int): (s: string)
    ensures 1 <= |s|
  {
    if n < 0 then "-" + NatToString(-n) else NatToString(n)
  }

  /** Reads a string of decimal digits back as a number. */
  function ParseNat(s: string): int
  {
    if |s| == 0 then 0 else ParseNat(s[..|s| - 1]) * 10 + DigitValue(s[|s| - 1])
  }

  /** Reads an optionally negative decimal number. */
  function ParseInt(s: string): int
  {
    if |s| > 0 && s[0] == '-' then -ParseNat(s[1..]) else ParseNat(s)
  }

  lemma DigitRoundTrip(d: int)
    requires 0 <= d < 10
    ensures DigitValue(DigitChar(d)) == d
  {
    var digits := "0123456789";
    assert digits[0] == '0' && digits[1] == '1' && digits[2] == '2' && digits[3] == '3' && digits[4] == '4';
    assert digits[5] == '5' && digits[6] == '6' && digits[7] == '7' && digits[8] == '8' && digits[9] == '9';
  }

  /** Rendering a natural number and reading it back gives the number. */
  lemma {:induction false} NatRoundTrip(n: nat)
    ensures ParseNat(NatToString(n)) == n
    decreases n
  {
    if n < 10 {
      DigitRoundTrip(n);
      assert ParseNat([DigitChar(n)]) == ParseNat([]) * 10 + DigitValue(DigitChar(n));
    } else {
      var s := NatToString(n);
      var hi := NatToString(n / 10);
      assert s == hi + [DigitChar(n % 10)];
      assert s[..|s| - 1] == hi;
      NatRoundTrip(n / 10);
      DigitRoundTrip(n % 10);
    }
  }

  /** Every character of a rendered natural number is a decimal digit. */
  lemma {:induction false} NatToStringDigits(n: nat)
    ensures forall i :: 0 <= i < |NatToString(n)| ==> IsDigit(NatToString(n)[i])
    decreases n
  {
    if n >= 10 {
      NatToStringDigits(n / 10);
      var hi := NatToString(n / 10);
      assert NatToString(n) == hi + [DigitChar(n % 10)];
    }
  }

  /** Rendering an integer and reading it back gives the integer. */
  lemma IntRoundTrip(n: int)
    ensures ParseInt(IntToString(n)) == n
  {
    if n < 0 {
      NegativeRoundTrip(-n);
    } else {
      ParseDigits(NatToString(n));
      NatRoundTrip(n);
    }
  }

  lemma NegativeRoundTrip(m: nat)
    ensures ParseInt("-" + NatToString(m)) == -(m as int)
  {
    ParseNegative(NatToString(m));
    NatRoundTrip(m);
  }

  lemma ParseNegative(t: string)
    ensures ParseInt("-" + t) == -ParseNat(t)
  {
    assert ("-" + t)[1..] == t;
  }

  lemma ParseDigits(t: string)
    requires |t| > 0 && IsDigit(t[0])
    ensures ParseInt(t) == ParseNat(t)
  {
  }

  /** Different integers render to different strings. */
  lemma IntToStringInjective(a: int, b: int)
    requires IntToString(a) == IntToString(b)
    ensures a == b
  {
    IntRoundTrip(a);
    IntRoundTrip(b);
  }

  predicate IsSpace(ch: char)
  {
    ch == ' ' || ch == '\t' || ch == '\n' || ch == '\r' || ch == '\U{000B}' || ch == '\U{000C}'
  }

  function TrimStart(s: string): (r: string)
    ensures |r| <= |s| && r == s[|s| - |r|..]
    ensures |r| > 0 ==> !IsSpace(r[0])
    ensures forall i :: 0 <= i < |s| - |r| ==> IsSpace(s[i])
  {
    if |s| > 0 && IsSpace(s[0]) then TrimStart(s[1..]) else s
  }

  function TrimEnd(s: string): (r: string)
    ensures |r| <= |s| && r == s[..|r|]
    ensures |r| > 0 ==> !IsSpace(r[|r| - 1])
    ensures forall i :: |r| <= i < |s| ==> IsSpace(s[i])
  {
    if |s| > 0 && IsSpace(s[|s| - 1]) then TrimEnd(s[..|s| - 1]) else s
  }

  /** `s.trim()` on the ASCII whitespace characters. */
  function Trim(s: string): (r: string)
    ensures |r| > 0 ==> !IsSpace(r[0]) && !IsSpace(r[|r| - 1])
    ensures |r| == 0 <==> forall i :: 0 <= i < |s| ==> IsSpace(s[i])
  {
    TrimEnd(TrimStart(s))
  }

  predicate StartsWith(s: string, prefix: string)
  {
    |prefix| <= |s| && s[..|prefix|] == prefix
  }
}

=== FILE: types.dfy ===
/** The records of `src/types.ts`, with their documented range invariants. */
module Types {
  import opened Wrappers
  import opened Utils

  datatype ClassName = Rogue | Wizard | Barbarian | Fighter | Paladin | Druid

  datatype Sex = Male | Female

  datatype Race = Human | Elf | Dwarf | Halfling | HalfElf | HalfOrc | Gnome | Tiefling

  datatype Alignment = Good | Neutral | Evil

  datatype StatKey = STR | DEX | CON | INT | WIS | CHA

  datatype Stats = Stats(
    strength: int, dexterity: int, constitution: int,
    intelligence: int, wisdom: int, charisma: int)

  /** `c.stats[key]`. */
  function StatOf(s: Stats, key: StatKey): int
  {
    match key
    case STR => s.strength
    case DEX => s.dexterity
    case CON => s.constitution
    case INT => s.intelligence
    case WIS => s.wisdom
    case CHA => s.charisma
  }

  /** The five arcs the campaign engine actually uses. */
  datatype ArcId = Taxman | Internship | Mimic | Treasure | Vengeance

  function ArcName(a: ArcId): string
  {
    match a
    case Taxman => "taxman"
    case Internship => "internship"
    case Mimic => "mimic"
    case Treasure => "treasure"
    case Vengeance => "vengeance"
  }

  /** An act is 1, 2 or 3. */
  type Act = a: int | 1 <= a <= 3 witness 1

  /** The act implied by arc progress: 3 from 70, 2 from 35, else 1. */
  function ActOf(progress: int): Act
  {
    if progress >= 70 then 3 else if progress >= 35 then 2 else 1
  }

  datatype CampaignState = CampaignState(
    arcId: ArcId,
    act: Act,
    progress: int,
    flags: map<string, bool>,
    seenSceneIds: seq<string>)

  /** A flag counts as set when it is present and true, like `flags.x` in a condition. */
  predicate FlagSet(flags: map<string, bool>, key: string)
  {
    key in flags && flags[key]
  }

  datatype Companion = Companion(id: string, name: string, relationship: int)

  datatype Party = Party(inParty: bool, members: seq<string>)

  type HitDieSize = n: int | n == 6 || n == 8 || n == 10 || n == 12 witness 6

  type DieSides = n: int | n == 4 || n == 6 || n == 8 || n == 10 || n == 12 witness 4

  /** A damage roll: `dice` dice of `sides` faces. */
  datatype Dice = Dice(dice: nat, sides: DieSides)

  /** An enemy's declared next action. Only a defend intent carries an AC bonus and only the
      attacking intents carry a to-hit bonus, damage dice and a target stat. */
  datatype EnemyIntent =
    | Attack(name: string, toHit: int, dmg: Dice, stat: StatKey)
    | Heavy(name: string, toHit: int, dmg: Dice, stat: StatKey)
    | Defend(name: string, acBonus: int)

  datatype CombatEnemy = CombatEnemy(name: string, maxHp: int, hp: int, ac: int, intent: EnemyIntent)

  /** A terminal branch of a fight: narrative text, an optional forced next scene, log lines. */
  datatype Terminal = Terminal(text: string, nextSceneId: Option<string>, logs: seq<string>)

  datatype CombatState = CombatState(
    enemy: CombatEnemy,
    round: int,
    fleeProgress: int,
    guard: bool,
    onWin: Terminal,
    onLose: Terminal,
    onFlee: Terminal)

  datatype EnemyKind = Thug | Hound | Rival

  /** The field updates an authored outcome performs on the character it is given. */
  datatype Effect =
    | AddXp(xp: nat)                      // xp grows by the amount, unclamped
    | AddGold(gold: nat)                  // gold grows by the amount, unclamped
    | LoseGold(loss: nat)                 // gold drops by the amount, kept within 0..999999
    | LoseHp(damage: nat)                 // hp drops by the amount, kept within 0..maxHp
    | SetFlag(key: string)                // sets one campaign flag
    | Advance(delta: int)                 // pushes campaign progress by delta
    | QueueScene(sceneId: string)         // queues the next scene
    | JoinParty(member: string)           // marks the party joined and adds the member once
    | AddCompanion(companion: Companion)  // appends the companion to the list
    | BeginCombat(kind: EnemyKind, onWin: Terminal, onLose: Terminal, onFlee: Terminal)
                                          // stores a fresh fight for the game screen to start

  /** `SceneOutcome` minus the character: the effects to apply, the text and extra log lines. */
  datatype Outcome = Outcome(effects: seq<Effect>, text: string, logs: seq<string>)

  datatype SceneChoice = SceneChoice(
    id: string, text: string, stat: StatKey, dc: int, onSuccess: Outcome, onFail: Outcome)

  datatype Scene = Scene(id: string, category: string, title: string, body: string, choices: seq<SceneChoice>)

  datatype PendingRoll = PendingRoll(sceneId: string, choiceId: string, stat: StatKey, dc: int)

  /** A log entry as (day, text); its random id is not modelled. */
  datatype LogEntry = LogEntry(day: int, text: string)

  datatype Character = Character(
    name: string,
    sex: Sex,
    race: Option<Race>,
    className: ClassName,
    alignment: Alignment,
    level: int,
    xp: int,
    day: int,
    hp: int,
    maxHp: int,
    gold: int,
    inventory: seq<string>,
    companions: seq<Companion>,
    hitDieSize: HitDieSize,
    hitDiceMax: int,
    hitDiceRemaining: int,
    spellSlotsMax: int,
    spellSlotsRemaining: int,
    stats: Stats,
    flags: map<string, bool>,
    pendingCombat: Option<CombatState>,   // the `flags.__startCombat` hand-off
    nextSceneId: Option<string>,
    lastSceneId: Option<string>,
    recentSceneIds: seq<string>,
    campaign: CampaignState,
    party: Party)

  /** The campaign's documented ranges: act derived from progress, progress in 0..100,
      and a seen list without repeats. */
  predicate ValidCampaign(k: CampaignState)
  {
    && 0 <= k.progress <= 100
    && k.act == ActOf(k.progress)
    && NoDup(k.seenSceneIds)
  }

  predicate ValidCompanion(m: Companion)
  {
    0 <= m.relationship <= 100
  }

  /** The character's documented ranges. */
  predicate ValidCharacter(c: Character)
  {
    && 0 <= c.hp <= c.maxHp
    && 0 <= c.hitDiceRemaining <= c.hitDiceMax
    && 0 <= c.spellSlotsRemaining <= c.spellSlotsMax
    && 1 <= c.level <= 20
    && 0 <= c.xp
    && 0 <= c.gold
    && 1 <= c.day
    && (forall i :: 0 <= i < |c.companions| ==> ValidCompanion(c.companions[i]))
    && |c.recentSceneIds| <= 6
    && ValidCampaign(c.campaign)
    && (c.pendingCombat.Some? ==> ValidCombat(c.pendingCombat.value))
  }

  /** The combat state's documented ranges. */
  predicate ValidCombat(s: CombatState)
  {
    && 0 <= s.enemy.hp <= s.enemy.maxHp
    && 0 <= s.fleeProgress <= 100
    && 1 <= s.round
  }

  /** A stat block as produced by stat generation: every stat in 3..18. */
  predicate StatsInRange(s: Stats)
  {
    forall k: StatKey :: 3 <= StatOf(s, k) <= 18
  }
}

=== FILE: utils.dfy ===
/** The arithmetic and randomness helpers of `src/utils.ts`. */
module Utils {

  function Min(a: int, b: int): int { if a <= b then a else b }

  function Max(a: int, b: int): int { if a >= b then a else b }

  /** `clamp(n, min, max)`: `n` pulled into the interval from `min` to `max`. */
  function Clamp(n: int, lo: int, hi: int): (r: int)
    ensures lo <= hi ==> lo <= r <= hi
    ensures lo <= n <= hi ==> r == n
    ensures lo <= hi && n < lo ==> r == lo
    ensures lo <= hi && n > hi ==> r == hi
  {
    Max(lo, Min(hi, n))
  }

  /** Clamping an already clamped value changes nothing. */
  lemma ClampIdempotent(n: int, lo: int, hi: int)
    requires lo <= hi
    ensures Clamp(Clamp(n, lo, hi), lo, hi) == Clamp(n, lo, hi)
  {
  }

  /** Clamping is monotone in the clamped value. */
  lemma ClampMonotone(n: int, m: int, lo: int, hi: int)
    requires n <= m
    ensures Clamp(n, lo, hi) <= Clamp(m, lo, hi)
  {
  }

  /** `modFromStat(stat)`: half of the distance from 10, rounded down. Dafny's `/` with a
      positive divisor rounds toward negative infinity, as the source's floor does. */
  function ModFromStat(stat: int): (m: int)
    ensures 2 * m <= stat - 10 < 2 * m + 2
  {
    (stat - 10) / 2
  }

  /** Two more points of a stat give exactly one more point of modifier. */
  lemma ModFromStatStep(stat: int)
    ensures ModFromStat(stat + 2) == ModFromStat(stat) + 1
  {
  }

  /** The modifier is monotone in the stat. */
  lemma ModFromStatMonotone(s: int, t: int)
    requires s <= t
    ensures ModFromStat(s) <= ModFromStat(t)
  {
  }

  /** The modifier is zero exactly at 10 and 11, and stats 3..18 give modifiers -4..4. */
  lemma ModFromStatValues(stat: int)
    ensures ModFromStat(stat) == 0 <==> stat == 10 || stat == 11
    ensures 3 <= stat <= 18 ==> -4 <= ModFromStat(stat) <= 4
  {
  }

  /** A uniform draw `x` in [0, 1) scaled to `n` and rounded down: an index in [0, n). */
  function ScaledIndex(x: real, n: nat): (i: nat)
    requires 0.0 <= x < 1.0
    requires n > 0
    ensures i < n
  {
    var p := x * n as real;
    assert p < n as real by {
      assert x * n as real < 1.0 * n as real;
    }
    p.Floor
  }

  /** `rollDie(sides)`: the draw scaled to a face from 1 to `sides`, with the draw passed in. */
  function RollDie(sides: nat, x: real): (face: int)
    requires sides >= 1
    requires 0.0 <= x < 1.0
    ensures 1 <= face <= sides
  {
    1 + ScaledIndex(x, sides)
  }

  /** `d20()`. */
  function D20(x: real): (face: int)
    requires 0.0 <= x < 1.0
    ensures 1 <= face <= 20
  {
    RollDie(20, x)
  }

  /** `pick(arr)`: the element whose index is the draw scaled to the length. */
  function Pick<T>(arr: seq<T>, x: real): (r: T)
    requires |arr| > 0
    requires 0.0 <= x < 1.0
    ensures r in arr
  {
    arr[ScaledIndex(x, |arr|)]
  }

  /** Sum of a sequence of integers, added left to right from 0. */
  function Sum(s: seq<int>): int
  {
    if |s| == 0 then 0 else Sum(s[..|s| - 1]) + s[|s| - 1]
  }

  /** The sum of `n` faces, each between 1 and `sides`, lies between `n` and `n * sides`. */
  lemma {:induction false} SumOfFaces(s: seq<int>, sides: int)
    requires forall i :: 0 <= i < |s| ==> 1 <= s[i] <= sides
    ensures |s| <= Sum(s) <= |s| * sides
  {
    if |s| > 0 {
      var init := s[..|s| - 1];
      assert forall i :: 0 <= i < |init| ==> init[i] == s[i];
      SumOfFaces(init, sides);
    }
  }

  /** A sequence without repeated elements. */
  predicate NoDup<T(==)>(s: seq<T>)
  {
    forall i, j :: 0 <= i < j < |s| ==> s[i] != s[j]
  }

  /** Appending an element that is not already present keeps a sequence duplicate free. */
  lemma NoDupAppend<T>(s: seq<T>, x: T)
    requires NoDup(s)
    requires x !in s
    ensures NoDup(s + [x])
  {
  }
}

=== FILE: wrappers.dfy ===
/** Failure-compatible wrappers: an optional value and a value-or-error result. */
module Wrappers {

  /** An optional value; stands for the source's `T | null | undefined` fields. */
  datatype Option<+T> = None | Some(value: T) {
    function GetOr(default: T): T {
      match this
      case Some(v) => v
      case None => default
    }
  }

  /** A value or an error message; stands for the source's `throw new Error(...)`. */
  datatype Result<+R> = Ok(value: R) | Err(error: string) {
    predicate IsFailure() {
      Err?
    }

    function PropagateFailure<U>(): Result<U>
      requires Err?
    {
      Err(error)
    }

    function Extract(): R
      requires Ok?
    {
      value
    }
  }
}
